=== FILE: README.md ===
# Leafy Bank capital-markets MCP client, modelled in Dafny

This project models the core of the Leafy Bank capital-markets assistant. The assistant drives a
MongoDB MCP server, a child process that speaks JSON-RPC over its standard input and output.
The model covers five parts:

- **The manager** (`McpState`, `McpServer`), from `MCPServerManager`:
  - a lifetime tool-call counter and a 20-entry call history;
  - a 50-entry console log;
  - status and marker statistics;
  - `reset` and `cleanup`;
  - the shared JSON-RPC id counter;
  - the two response handlers. The `tools/list` handler reassembles lines across chunks. The `tools/call` handler splits each chunk on its own, skips notifications, matches on id and guards with `isResolved`.
  - the timeouts.

  `McpState` holds the manager as a value, with one function per method or asynchronous event (data arriving, a timer firing, the child closing). `McpServer.McpServerManager` is the object itself. Its fields are updated in place, and each method is proved to move `State()` exactly as the matching event function does and to keep the invariant `Valid()` that the constructor establishes.
- **Whole-run properties** (`McpProperties`):
  - every event preserves the manager invariant;
  - the history and the log are FIFOs of capacity 20 and 50;
  - `cleanup` is idempotent;
  - the quirks of the handlers, each proved as written: a response split across two chunks is lost by `callTool`, while `getAvailableTools` reassembles it; after a `reset`, request ids repeat and the same response answers two calls; a late `close` event from a killed child clears the new one.
- **The initialisation coordinator** (`InitCoordinator`): the instance and promise slots of `getOrCreateGlobalMCPServer` and of `getMCPServer`. It is a state machine in which awaiting is a state.
- **The agent tools** (`McpTools`): asset whitelists, collection choice, the projection built field by field, the aggregation pipeline with its error cases, and the `callTool` request each tool makes.
- **The question classifier** (`QuestionProcessor`): the first-match rule list of `processQuestion`.

Supporting modules:

- `Text`: the JavaScript string operations used, namely `includes`, `split`, `trim`, case mapping and `join`.
- `Json`: JSON values and property assignment.
- `Bounded`: the push-then-shift history idiom.
- `LineBuffer`: the newline reassembler.

Outside effects become explicit inputs:

- Killing the child, writing to its stdin and the per-request listeners are recorded in fields (`kills`, `sent`, `requests`).
- Timestamps are opaque parameters.
- `JSON.parse` and `JSON.stringify` are an abstract `Codec`, given to the manager when it is built.

## Model

| member | source | states |
|---|---|---|
| McpState.Fresh | src/lib/mcp-server.js:5-13 | a new manager satisfies the manager invariant: its empty history matches the zero count, message id 1 matches no frames sent, the log is within capacity and no request is pending |
| McpState.AddLog | src/lib/mcp-server.js:52-71 | the entry is appended last and, within capacity, the log is exactly the newest 50 of the old log plus the entry; nothing else changes |
| McpState.Track | src/lib/mcp-server.js:15-34 | the count grows by exactly 1; the returned record has the new count as id, status executing and no result; it is the newest history entry; a 🔧 entry is logged; the invariant is kept |
| McpState.TrackKeepsHistoryValid | src/lib/mcp-server.js:24-29 | push-then-shift keeps the history at min(count, 20) records numbered consecutively up to the count |
| McpState.FindCall | src/lib/mcp-server.js:37 | `find`: the first index holding the id, or none when no record has it |
| McpState.UpdateStatus | src/lib/mcp-server.js:36-50 | an absent id changes nothing and logs nothing; a present one gets the status, result and completion time while every other record is unchanged; ✅ is logged only for completed and ❌ only for error |
| McpState.CountStatus | src/lib/mcp-server.js:360-362 | a status count never exceeds the records retained |
| McpState.ToolCalls | src/lib/mcp-server.js:355-365 | `totalCalls` is the lifetime counter; `completed`, `executing` and `error` are each the number of retained records with that status, so together they partition the retained history; under the invariant the retained calls never outnumber `totalCalls` |
| McpState.StatusesPartition | src/lib/mcp-server.js:359-363 | completed + executing + error equals the number of retained records |
| McpState.CountMarked | src/lib/mcp-server.js:372-375 | a marker count never exceeds the number of log entries |
| McpState.ConsoleLogs | src/lib/mcp-server.js:367-378 | `totalLogs` is the log length; `info` counts the entries whose message holds 📤 or 📥, `notifications` those holding 📢, `errors` those holding ❌ or ⚠️, `success` those holding ✅; each count is at most the length |
| McpState.Health | src/lib/mcp-server.js:380-399 | running iff a child exists; `availableTools` is the length of the stored tool list (none for an object, number or boolean); `totalLogs` is the length of the log; the call figures agree with `getToolCalls`; completed + error never exceed the recent calls; recent logs are min(length, 10) |
| McpState.Reset | src/lib/mcp-server.js:401-409 | history, log and tools are emptied, the count goes to 0 and the message id to 1; child, `initialized` and outstanding requests are untouched |
| McpState.Cleanup | src/lib/mcp-server.js:411-417 | afterwards there is no child and `initialized` is false; the child, if any, is killed once |
| McpState.BeginInitialize | src/lib/mcp-server.js:86-111 | a previous child is killed, and the history, the log, the call counter, the message id and the stored tools are reset; the spawned child (none when configuration is missing) becomes current; the frames sent and the pending requests are kept |
| McpState.ProcessClosed | src/lib/mcp-server.js:134-137 | after a `close` event there is no current child, whichever child closed; nothing else changes |
| McpState.Send | src/lib/mcp-server.js:253-267 | the request carries the current message id, which then grows by one; the frame is written last; nothing else changes |
| McpState.SendKeepsIds | src/lib/mcp-server.js:255 | the requests since the last reset carry the ids 1, 2, 3, … in order, with no repeats |
| McpState.RequestToolsList | src/lib/mcp-server.js:166-182 | without a child nothing happens; otherwise a `tools/list` frame is sent with the next id and a pending request with an empty buffer is registered, and only the id, the frames sent and the requests change |
| McpState.NewestCallFound | src/lib/mcp-server.js:245-248 | the record just tracked is the one `updateToolCallStatus` finds |
| McpState.CallTool | src/lib/mcp-server.js:243-267 | always tracks the call with a 🔧 entry; without a child the tracked record is pushed already marked 'error' with 'MCP Server not available', a ❌ entry follows, and no message id is consumed; otherwise the record is pushed as 'executing', a 📤 entry with the request follows, `tools/call` is sent with the next id and a pending, unresolved request is registered; only the count, the history, the log, the id, the frames sent and the requests change |
| McpState.FailedCallRecorded | src/lib/mcp-server.js:245-249 | without a child, marking the just-tracked call as failed yields the history with that call pushed as 'error', and the log holding the 🔧 and ❌ entries as the newest two |
| McpState.ReadTools | src/lib/mcp-server.js:206-211 | `result.tools \|\| []`: a falsy or missing `tools` gives the empty list; an array without null is listed as it is; a truthy value that is not an array, or an array holding null, is stored as it is and then `.map` throws; reading from a missing or null result throws before anything is stored |
| McpState.ErrorMessage | src/lib/mcp-server.js:319-321 | `error.message \|\| fallback`: the message when it is a non-empty string, else the fallback |
| McpState.SettleOnce | src/lib/mcp-server.js:233-239 | once a request has settled it stays settled, and any later resolve or reject leaves its outcome unchanged |
| McpState.ToolsLine | src/lib/mcp-server.js:193-220 | a line that is not this request's response (blank, unparseable once trimmed, or for another id) changes nothing; the response detaches the listener; it ends the scan exactly when it settles the promise: an error rejects with `error.message \|\| 'Failed to get tools list'`, a readable tool list is stored and resolves it; when reading the tools throws, the scan goes on with what `result.tools \|\| []` produced stored; a settled outcome stays settled; `initialized` becomes true only when this line resolves a pending request |
| McpState.ToolsLines | src/lib/mcp-server.js:193-225 | only this request, the tools and `initialized` change; the request keeps its id, child and kind; an already settled outcome stays as it was; `initialized` is set exactly when this call resolves a pending request |
| McpState.ToolsLinesSettling | src/lib/mcp-server.js:193-225 | the first line that settles the promise decides: the buffer is kept, the listener is detached, the outcome is settled by that line and a tool list is stored; when no line settles it, the outcome is unchanged and the trailing piece becomes the buffer; with no response line at all only the buffer changes |
| McpState.ToolsLinesListening | src/lib/mcp-server.js:200-204 | the tools/list listener stays attached exactly when it was attached and no line is a frame with its id |
| McpState.ToolsChunk | src/lib/mcp-server.js:185-228 | the chunk is appended to the buffer and split into complete lines; the first line that settles the promise settles it, detaches the listener, stores a tool list and leaves the whole text in the buffer; otherwise the outcome is unchanged and the incomplete tail becomes the buffer; the listener stays attached exactly when no complete line carries the request's id; the request keeps its id and child; only the requests, the tools and `initialized` change |
| McpState.Notification | src/lib/mcp-server.js:283-299 | a notification is logged iff its data text holds none of "error", "Error", "ERROR"; missing data throws, and the line is then treated as malformed |
| McpState.ClassifyLine | src/lib/mcp-server.js:277-303 | blank iff the trimmed line is empty; malformed iff it is not blank and does not parse; a notification iff it parses with method `notifications/message`; a response iff it is not blank, parses, is not a notification and carries the request's id, and its frame is then the parsed one |
| McpState.Respond | src/lib/mcp-server.js:303-326 | the request is marked resolved and detached; with a truthy error it rejects with `error.message \|\| 'MCP Server error'` and the tracked call `find` locates becomes 'error' with the error object; otherwise it resolves with the result and the tracked call becomes 'completed' with the result; every other record and request, the count, the tools and `initialized` are unchanged |
| McpState.CallLines | src/lib/mcp-server.js:277-334 | only the requests, the history and the log change: the count, the tools, `initialized`, the child and the id never do; other requests are untouched and the invariant is kept |
| McpState.CallLinesAnswer | src/lib/mcp-server.js:277-334 | the first line that classifies as the response answers the request: it is resolved, detached and settled by that frame, and its tracked call records 'error' or 'completed'; when no line is the response only the log changes |
| McpState.SkipLine | src/lib/mcp-server.js:328-332 | a line that is not the response changes only the log, and the log stays within capacity |
| McpState.CallChunk | src/lib/mcp-server.js:272-335 | once `isResolved` is set, a data event has no effect; otherwise the chunk is split on newlines and its first response line answers the request as `CallLines` says, and with none only the log changes; the count, the tools, `initialized`, the child and the id are unchanged |
| McpState.HandleChunk | src/lib/mcp-server.js:338 | a chunk reaches only the handler of the request it is delivered to |
| McpState.HandleChunkLocal | src/lib/mcp-server.js:185-335 | what a handler makes of its request depends on that request and the chunk only, not on the rest of the state |
| McpState.DispatchFrom | src/lib/mcp-server.js:230 | listeners run in registration order; the requests before the current one are never touched again; from the current one on, a request not listening on the child is unchanged and a listening one ends exactly as its own handler leaves it on the chunk |
| McpState.DataArrived | src/lib/mcp-server.js:126-128 | with no child no data arrives; otherwise each request listening on the running child becomes what its own handler makes of the chunk and every other request is unchanged; the child, the frames sent and the id counter are kept, and so is the invariant |
| McpState.ToolsListTimeout | src/lib/mcp-server.js:233-239 | the timer rejects with 'Tools list request timeout' unless the request has already settled, and removes the listener when the child is still there |
| McpState.CallTimeout | src/lib/mcp-server.js:341-351 | after `isResolved` the timer does nothing; before it, it marks the record as an error ('Request timeout') and rejects |
| McpServer.McpServerManager.constructor | src/lib/mcp-server.js:5-13 | the object starts in the fresh state, and the invariant holds; every public method and event handler keeps it |
| McpServer.McpServerManager.AddConsoleLog | src/lib/mcp-server.js:52-71 | updates the fields in place exactly as `AddLog` |
| McpServer.McpServerManager.TrackToolCall | src/lib/mcp-server.js:15-34 | updates the fields and returns the record exactly as `Track` |
| McpServer.McpServerManager.UpdateToolCallStatus | src/lib/mcp-server.js:36-50 | searches the history with a loop and updates in place exactly as `UpdateStatus` |
| McpServer.McpServerManager.Reset | src/lib/mcp-server.js:401-409 | in place, exactly `McpState.Reset` (`resetForDemo` at lines 74-77 is the same call) |
| McpServer.McpServerManager.Cleanup | src/lib/mcp-server.js:411-417 | in place, exactly `McpState.Cleanup` |
| McpServer.McpServerManager.Initialize | src/lib/mcp-server.js:79-111 | in place, exactly `BeginInitialize` |
| McpServer.McpServerManager.OnProcessClose | src/lib/mcp-server.js:134-137 | in place, exactly `ProcessClosed` |
| McpServer.McpServerManager.GetAvailableTools | src/lib/mcp-server.js:166-182 | in place, exactly `RequestToolsList`; it reports whether a frame was sent |
| McpServer.McpServerManager.OnStartupTimer | src/lib/mcp-server.js:140-157 | the startup delay requests the tools list only while the child is still there |
| McpServer.McpServerManager.CallTool | src/lib/mcp-server.js:243-267 | in place, exactly `McpState.CallTool`; it reports whether a frame was sent |
| McpServer.McpServerManager.OnData | src/lib/mcp-server.js:338 | hands the chunk to every listening request in turn, with a loop, exactly as `DataArrived` |
| McpServer.McpServerManager.ToolsListData | src/lib/mcp-server.js:185-228 | the buffered line loop with its early exit, exactly `ToolsChunk` |
| McpServer.McpServerManager.ToolsListLine | src/lib/mcp-server.js:193-220 | one complete line, updated in place exactly as `ToolsLine`; it reports whether the line ended the scan |
| McpServer.McpServerManager.ToolCallData | src/lib/mcp-server.js:272-335 | the per-chunk line loop with its early exit, exactly `CallChunk` |
| McpServer.McpServerManager.ToolCallLine | src/lib/mcp-server.js:277-333 | one line: it answers iff the line classifies as the response, then acts as `Respond`, else as `SkipLine` |
| McpServer.McpServerManager.Answer | src/lib/mcp-server.js:303-326 | in place, exactly `Respond` |
| McpServer.McpServerManager.OnToolsListTimeout | src/lib/mcp-server.js:233-239 | in place, exactly `ToolsListTimeout` |
| McpServer.McpServerManager.OnCallTimeout | src/lib/mcp-server.js:341-351 | in place, exactly `CallTimeout` |
| McpProperties.StepPreservesValid | src/lib/mcp-server.js:15-351 | every method call and every asynchronous event preserves the manager invariant |
| McpProperties.RunPreservesValid | src/lib/mcp-server.js:15-351 | any sequence of events preserves the invariant |
| McpProperties.ReachableBounds | src/lib/mcp-server.js:27-29 | in every reachable state the history holds at most 20 entries, the log at most 50, and the message id is at least 1 |
| McpProperties.TrackAllCounts | src/lib/mcp-server.js:16 | n tracked calls raise the lifetime count by exactly n and keep the invariant |
| McpProperties.RetainsNewestTwenty | src/lib/mcp-server.js:24-29 | after at least 20 calls on a fresh manager the history is exactly the last 20 ids, in order; after 25 calls, the ids 6 to 25 |
| McpProperties.LogAllPushes | src/lib/mcp-server.js:58-63 | logging entries one by one is pushing them one by one into the bounded log |
| McpProperties.LogsKeepNewestFifty | src/lib/mcp-server.js:58-63 | after any number of log entries the log is exactly the newest 50 of everything logged, in order |
| McpProperties.CountStatusUpdate | src/lib/mcp-server.js:360-362 | replacing one record changes each status count by that record's old and new status only |
| McpProperties.CompletionMovesCount | src/lib/mcp-server.js:36-50 | completing a just-tracked call moves it from executing to completed and leaves the error count alone |
| McpProperties.CountMarkedAppend | src/lib/mcp-server.js:372-375 | a new log entry raises a marker count by one exactly when its message holds one of the markers |
| McpProperties.PrefixMarked | src/lib/mcp-server.js:372-375 | a message that starts with a marker counts in that marker's category |
| McpProperties.StatusMessagesCategorised | src/lib/mcp-server.js:45-47 | a completion message counts as success and a failure message as an error; sending and result messages count as info, notifications as notifications, malformed-line messages as errors |
| McpProperties.FailureCountedAsError | src/lib/mcp-server.js:46-47 | while the log holds fewer than 50 entries, marking a retained call as failed raises the error count by one and leaves the success count unchanged (with a full log the dropped oldest entry may itself be counted) |
| McpProperties.CleanupIdempotent | src/lib/mcp-server.js:411-417 | cleaning up twice equals cleaning up once, and at most one child is killed |
| McpProperties.ResetReusesRequestIds | src/lib/mcp-server.js:401-409 | after a reset the next request reuses id 1, which an earlier request already carried |
| McpProperties.StaleCloseDropsNewChild | src/lib/mcp-server.js:134-137 | a `close` from the killed previous child, arriving after a restart, leaves no current child although the new one was never killed |
| McpProperties.ResponseLineReaches | src/lib/mcp-server.js:277-326 | a one-line chunk holding a frame that is not a notification answers the pending call whose id it carries, and for any other pending call only logs |
| McpProperties.ResponseLineDispatched | src/lib/mcp-server.js:126-128 | with only unresolved calls pending, a one-line response chunk on the running child answers every listening call whose id it carries and leaves every other request as it was |
| McpProperties.OutOfOrderResponses | src/lib/mcp-server.js:272-326 | with calls 1 and 2 pending on the running child and their responses arriving 2 then 1, call 1 stays pending until its own response and each call resolves with its own result |
| McpProperties.QuietLinesKeepRequests | src/lib/mcp-server.js:277-334 | lines that are not the response change nothing but the log |
| McpProperties.QuietChunkKeepsRequests | src/lib/mcp-server.js:272-335 | a chunk without the response leaves every request and the history unchanged |
| McpProperties.NotificationsNeverAnswer | src/lib/mcp-server.js:283-300 | a chunk of notifications never resolves a call and never changes the history |
| McpProperties.SplitSingle | src/lib/mcp-server.js:275 | a newline-free line splits into itself; with its newline, into itself and an empty piece |
| McpProperties.SplitResponseIsLost | src/lib/mcp-server.js:275 | a response split across two chunks is never matched by `callTool`: both halves fail to parse and the request stays pending |
| McpProperties.SplitToolsResponseReassembled | src/lib/mcp-server.js:187-223 | the same split response is reassembled by `getAvailableTools`, which resolves with its tools and stops listening |
| McpProperties.ResetCrossTalk | src/lib/mcp-server.js:401-409 | a call before a reset and one after both carry id 1, and a single response resolves both |
| Bounded.Push | src/lib/mcp-server.js:24-29 | within capacity, push-then-shift keeps exactly the newest `cap` entries, the new one last |
| Bounded.PushAllIsLastN | src/lib/mcp-server.js:58-63 | any run of pushes keeps exactly the newest `cap` entries of everything pushed |
| LineBuffer.Feed | src/lib/mcp-server.js:187-223 | complete lines, each with its newline, followed by the kept piece are exactly buffer + chunk; none of them holds a newline |
| LineBuffer.FeedUnique | src/lib/mcp-server.js:190-223 | that decomposition is the only newline-free one |
| LineBuffer.SplitLineReassembled | src/lib/mcp-server.js:184-223 | a line delivered in two chunks, split at any offset, is emitted exactly once with nothing left over |
| LineBuffer.FeedAllReassembles | src/lib/mcp-server.js:185-223 | over any run of chunks, the emitted lines and the carried piece are exactly the text received |
| LineBuffer.FeedAllNewlineFree | src/lib/mcp-server.js:190-223 | no emitted line and no carried piece ever holds a newline |
| InitCoordinator.Empty | src/lib/global-mcp-store.js:4-5 | both slots start empty, which satisfies the coordinator invariant |
| InitCoordinator.Call | src/lib/global-mcp-store.js:37-73 | a ready instance is returned at once; a pending promise is awaited with no new manager; otherwise exactly one attempt starts, its promise is stored and awaited, and the instance slot and the cleanup record are untouched |
| InitCoordinator.Settle | src/lib/global-mcp-store.js:56-71 | success stores the manager even when its `initialized` flag is false; failure clears both slots; either way the promise slot is cleared |
| InitCoordinator.Resume | src/lib/global-mcp-store.js:45-53 | a waiting caller resumes only once its attempt has settled: with the stored instance when it succeeded; when it failed, with null in the global store and with the (empty) instance slot in the server module; in any other case nothing changes; the attempts, the slots and the cleaned flag are never changed |
| InitCoordinator.ResetSlots | src/lib/global-mcp-store.js:29-35 | the stored manager, if any, is cleaned up (its `initialized` flag cleared, recorded as cleaned); both slots end empty; nothing else changes |
| InitCoordinator.NoResetSingleFlight | src/lib/global-mcp-store.js:44-73 | without a reset, never more than one attempt is running |
| InitCoordinator.LaterCallsWait | src/lib/global-mcp-store.js:44-53 | while a promise is pending, any number of calls wait on it and construct nothing |
| InitCoordinator.ConcurrentCallsShareOneAttempt | src/lib/global-mcp-store.js:55-73 | n concurrent first calls start exactly one attempt and all wait on it |
| InitCoordinator.WaitersGetInstance | src/lib/global-mcp-store.js:47-48 | after a successful attempt, all its waiters get the stored instance |
| InitCoordinator.ConcurrentCallsGetOneManager | src/lib/mcp-server.js:420-472 | in both copies of the logic, n concurrent first calls all end with the same single manager |
| InitCoordinator.FailureReturnsNullAndRetries | src/lib/global-mcp-store.js:63-80 | a failed attempt gives its waiters null instead of an exception, and the next call starts a new attempt |
| InitCoordinator.ResetDuringInitialisation | src/lib/global-mcp-store.js:29-35 | a reset during a pending attempt lets a second attempt start beside it; the first still lands in the instance slot and is never cleaned up (the reset is `resetGlobalMCPServer` of the global store; the server module's `getMCPServer` has none) |
| InitCoordinator.Coordinator.constructor | src/lib/global-mcp-store.js:4-5 | the two slots start empty |
| InitCoordinator.Coordinator.GetOrCreate | src/lib/global-mcp-store.js:37-73 | updates the slots in place exactly as `Call` and returns the caller's index |
| InitCoordinator.Coordinator.AttemptSettled | src/lib/global-mcp-store.js:56-71 | updates the slots in place exactly as `Settle` |
| InitCoordinator.Coordinator.ResumeCaller | src/lib/global-mcp-store.js:75-80 | updates the slots in place exactly as `Resume` |
| InitCoordinator.Coordinator.Reset | src/lib/global-mcp-store.js:29-35 | updates the slots in place exactly as `ResetSlots` |
| McpTools.WhitelistsUpperAndDisjoint | src/lib/mcp-tools.js:7-8 | every whitelisted symbol is in capitals, and no symbol is both crypto and stock |
| McpTools.GetAssetType | src/lib/mcp-tools.js:21-30 | crypto iff the upper-cased symbol is on the 6-entry crypto list, stock iff it is on the 10-entry stock list, null iff on neither |
| McpTools.ValidateAsset | src/lib/mcp-tools.js:10-19 | false for any asset type other than 'crypto' or 'stock' |
| McpTools.ValidateAgreesWithType | src/lib/mcp-tools.js:11-30 | `validateAsset(s, t)` holds iff `getAssetType(s)` names `t` |
| McpTools.ListedSymbolsResolve | src/lib/mcp-tools.js:7-8 | each whitelisted symbol resolves to its own list's type |
| McpTools.AssetTypeIgnoresCase | src/lib/mcp-tools.js:50-51 | upper- or lower-casing a symbol first does not change its type |
| McpTools.CollectionFor | src/lib/mcp-tools.js:57 | `binanceCryptoData` exactly for crypto, `yfinanceMarketData` exactly for stock |
| Json.Assign | src/lib/mcp-tools.js:64 | after `o[key] = v`, the key reads back `v`, every other key reads as before, and no key is repeated |
| McpTools.BuildProjection | src/lib/mcp-tools.js:59-66 | `{}` without a field list; otherwise each comma-split, trimmed name maps to 1, no other key is present, and no key is repeated |
| McpTools.StageJson | src/lib/mcp-tools.js:114-185 | every built stage is a one-operator document (`$match`, `$group` or `$sort`), and a custom stage is passed through unchanged |
| McpTools.RenderAppend | src/lib/mcp-tools.js:210 | the serialised pipeline of two stage lists joined is the two serialisations joined: stages keep their order |
| McpTools.CustomOf | src/lib/mcp-tools.js:194 | custom stages are sent exactly as parsed |
| McpTools.CustomStages | src/lib/mcp-tools.js:187-201 | a missing or empty custom pipeline is an error; otherwise it succeeds iff it parses to an array, whose elements become the stages |
| McpTools.OperationStages | src/lib/mcp-tools.js:127-205 | stats adds the daily `$group` of OHLC statistics, volatility its volatility `$group`, volume its volume `$group`, trend a daily `$group` then `$sort` by day; custom gives exactly what parsing `customPipeline` gives (the missing-pipeline error, the parse error, or its stages); any other name is the unknown-operation error |
| McpTools.Pipeline | src/lib/mcp-tools.js:111-205 | the first stage is the symbol `$match`; the date `$match` follows iff days > 0; it fails iff the operation is unknown or the custom pipeline is bad |
| McpTools.PipelineExtendsLeading | src/lib/mcp-tools.js:111-125 | the match stages come first, unchanged, followed by exactly the operation's stages |
| McpTools.BuildPipeline | src/lib/mcp-tools.js:111-205 | the push/concat construction yields exactly `Pipeline` |
| McpTools.FindParams | src/lib/mcp-tools.js:68-75 | the database, collection, `{symbol}` filter, projection, one-key sort and limit each read back as given |
| McpTools.AggregateParams | src/lib/mcp-tools.js:207-211 | the database, collection and rendered pipeline each read back as given |
| McpTools.PlanFind | src/lib/mcp-tools.js:43-82 | no manager gives 'MCP Server not available'; then an unsupported symbol gives the not-supported error; otherwise a `find` on the asset's collection with the upper-cased symbol filter, the projection, `{sortBy: sortOrder}` and the limit (defaults 10, timestamp, -1) |
| McpTools.PlanAggregate | src/lib/mcp-tools.js:95-218 | the same two checks, then the pipeline's error or an `aggregate` on the asset's collection with that pipeline (days default to 30) |
| McpTools.PlanListCollections | src/lib/mcp-tools.js:222-242 | no manager gives 'MCP Server not available'; otherwise the plan is a `list-collections` call |
| McpTools.ReplyOutcomes | src/lib/mcp-tools.js:77-81 | any failure, in planning or from `callTool`, reaches the agent as text starting `Error: `; a planning failure never depends on the call; a listing with the server unavailable answers exactly `Error: MCP Server not available` |
| QuestionProcessor.StockSymbol | src/lib/question-processor.js:73-75 | EEM iff "eem" appears without "aapl"; AAPL otherwise |
| QuestionProcessor.Classify | src/lib/question-processor.js:5-119 | each rule fires exactly when its words appear and no earlier rule fired; a BTC or ETH question that its sub-rules do not answer falls through to the stock, collections and schema rules; help iff nothing matches |
| QuestionProcessor.EthHistoryNeverViaLast | src/lib/question-processor.js:39-68 | the ETH history rule is never reached through "last"; an ETH-only question with "last" gets the latest-price query |
| QuestionProcessor.PriceQuery | src/lib/question-processor.js:40-52 | the `find` reads back the database, collection, symbol filter, the fixed projection, newest-first sort and the limit |
| QuestionProcessor.BtcStatsPipeline | src/lib/question-processor.js:28-31 | two stages: the BTC `$match`, then one `$group` |
| QuestionProcessor.Respond | src/lib/question-processor.js:8-119 | tool and arguments are null exactly for the help answer, which carries the help text; each other intent names its tool and exact arguments: BTC and ETH latest price `find` limit 1, ETH history limit 10, a stock symbol's latest price in the stock collection, BTC statistics `aggregate`, `list-collections` on the database, the schema sample `find` limit 1 |
| QuestionProcessor.ProcessQuestion | src/lib/question-processor.js:2-3 | there is no tool exactly when the lower-cased question matches no rule |
| QuestionProcessor.ProcessQuestionIgnoresCase | src/lib/question-processor.js:3 | upper- or lower-casing the question changes nothing |
| QuestionProcessor.BtcLatestFindsOne | src/lib/question-processor.js:6-20 | a BTC question with a latest-word is a `find` on binanceCryptoData for BTC, newest first, limit 1 |
| QuestionProcessor.BtcStatsAggregates | src/lib/question-processor.js:22-35 | a BTC question with a statistics word and no latest-word is an `aggregate` with the match-then-group pipeline |
| QuestionProcessor.EthLimits | src/lib/question-processor.js:39-68 | ETH without BTC: a latest-word gives limit 1; otherwise "trend", "history" or "last" gives limit 10 |
| QuestionProcessor.StockQuestionSymbol | src/lib/question-processor.js:72-89 | a stock question the crypto rules leave alone reads yfinanceMarketData for its symbol, with the matching response |
| QuestionProcessor.NoMatchGivesHelp | src/lib/question-processor.js:115-119 | with no rule matching, tool and arguments are null and the help text is returned |

## Left out

- Process I/O is not modelled: spawning the child and its arguments, the stderr listener and the console output. Killing the child, writes and listeners are recorded as data instead.
- Timers are not modelled: the 3 s startup delay and the two 15 s timeouts are events the caller fires. Clearing the timeout after a response is reflected by `isResolved`.
- Data is only delivered from the current child; data from a child that is no longer current is not delivered to the listeners still attached to it. After the stale close that `McpProperties.StaleCloseDropsNewChild` exhibits, the new child is alive and keeps writing in the source: a call's response then sets `isResolved` (src/lib/mcp-server.js:308), throws on the null `this.mcpProcess.stdout` (line 311, caught as a malformed line) and the timer then does nothing (line 342), so the call never settles. In the model that response is not delivered and the call times out instead.
- The build-phase checks are left out (src/lib/mcp-server.js:81-84, 421-425). So are the environment-variable reads: missing configuration is an `Initialize` with no spawned child.
- Process errors are left out: an exception from `spawn` itself, and the `initialize` rejection when the tools list fails.
- Timestamps and `process.uptime()` are opaque inputs. `McpState.Health` covers the counters only, not the constant status and note strings.
- `JSON.parse` and `JSON.stringify` are abstract (`Codec`, `parse` and `stringify` parameters). Nothing is proved about their text format.
- Numbers are integers: the tool arguments `limit`, `sortOrder` and `days` are `int`, so fractional values are not modelled.
- McpTools.BuildProjection: keys keep insertion order. JavaScript objects list array-index-like keys (such as "0") first, but the contract speaks only of which keys map to 1, not of their order. The key `__proto__` is treated like any other: in JavaScript `projection["__proto__"] = 1` changes nothing, while the model maps it to 1.
- Json.Assign: an ordinary key is assigned for every name, including `__proto__`, whose assignment of a number is a no-op in JavaScript.
- Text.ToUpper: maps ASCII letters only. `toUpperCase` also maps other scripts and expands a few characters (ß to SS), which can change a string's length.
- Text.ToLower: maps ASCII letters only, for the same reason.
- McpState.Respond: a response without `result` resolves the promise with `undefined` in JavaScript (src/lib/mcp-server.js:324), and the tool then returns `JSON.stringify(undefined)`, which is `undefined` rather than text (src/lib/mcp-tools.js:78). The model resolves with null, as the logged entry and the tracked record do (lines 36 and 52), so the reply is the serialised null.
- McpState.ToolsLine: sets `initialized` when it resolves a pending tools/list request. In the source `initialize` sets it after awaiting `getAvailableTools` (src/lib/mcp-server.js:150-151); the two agree because `getAvailableTools` is called only from there. The same holds for `McpServer.McpServerManager.ToolsListLine`.
- McpState.ClassifyLine: says which notifications are logged only through `McpState.Notification`; its own contract does not tie a notice to the frame's data.
- McpState.ErrorMessage: a non-string `error.message` (an object, say) is treated as missing, and the fallback text is used.
- McpTools.PlanFind: awaiting the shared manager is reduced to whether one is `available`. The same holds for the other two tools; which manager serves the call is left to `InitCoordinator`.
- `cleanupMCPServer` (src/lib/mcp-server.js:474-479) refers to an undeclared variable and would throw, so it is not part of this model.
- src/lib/mcp-store.js holds only getters and setters. Its two slots are the slots of `InitCoordinator` in the `ServerModule` variant.
- The callers of the core are not part of this model: the API routes, the agent, the Bedrock client and the user interface.

=== FILE: bounded.dfy ===
/**
 * The bounded history idiom of the manager: `push` a new entry, then `shift` the
 * oldest one off when the array has grown past its capacity.
 */
module Bounded {

  /** The newest `n` entries of `s` (all of them when there are at most `n`). */
  function LastN<T>(s: seq<T>, n: nat): (r: seq<T>)
    ensures |r| == if |s| <= n then |s| else n
  {
    if |s| <= n then s else s[|s| - n..]
  }

  /**
   * One `push(x)` followed by a single `shift()` when the length then exceeds `cap`:
   * within capacity it keeps exactly the newest `cap` entries, the new one last.
   */
  function Push<T>(s: seq<T>, x: T, cap: nat): (r: seq<T>)
    ensures |s| <= cap ==> r == LastN(s + [x], cap) && |r| <= cap
    ensures cap > 0 ==> |r| > 0 && r[|r| - 1] == x
  {
    if |s| + 1 > cap then (s + [x])[1..] else s + [x]
  }

  /** Replacing the entry just pushed is pushing the replacement instead. */
  lemma PushReplaceLast<T>(s: seq<T>, x: T, y: T, cap: nat)
    requires cap > 0
    ensures var r := Push(s, x, cap); r[|r| - 1 := y] == Push(s, y, cap)
  {
  }

  /** Pushes every entry of `xs`, oldest first. */
  function PushAll<T>(s: seq<T>, xs: seq<T>, cap: nat): seq<T>
    decreases |xs|
  {
    if xs == [] then s else PushAll(Push(s, xs[0], cap), xs[1..], cap)
  }

  /** Pushing a whole sequence within capacity keeps exactly its newest `cap` entries. */
  lemma {:induction false} PushAllIsLastN<T>(s: seq<T>, xs: seq<T>, cap: nat)
    requires |s| <= cap
    ensures PushAll(s, xs, cap) == LastN(s + xs, cap)
    decreases |xs|
  {
    if xs != [] {
      PushAllIsLastN(Push(s, xs[0], cap), xs[1..], cap);
      PushThenLastN(s, xs[0], xs[1..], cap);
      assert [xs[0]] + xs[1..] == xs;
    }
  }

  /** One push followed by more entries keeps the newest `cap` of all of them. */
  lemma PushThenLastN<T>(s: seq<T>, x: T, more: seq<T>, cap: nat)
    requires |s| <= cap
    ensures LastN(Push(s, x, cap) + more, cap) == LastN(s + ([x] + more), cap)
  {
    LastNAppend(s + [x], more, cap);
    assert s + [x] + more == s + ([x] + more);
  }

  /** Trimming the front before appending more does not change the newest `n`. */
  lemma LastNAppend<T>(s: seq<T>, ys: seq<T>, n: nat)
    ensures LastN(LastN(s, n) + ys, n) == LastN(s + ys, n)
  {
    if |s| > n {
      var t := s[|s| - n..];
      assert (t + ys)[|t + ys| - n..] == (s + ys)[|s + ys| - n..];
      if |t + ys| > n {
      } else {
        assert |ys| == 0;
        assert t + ys == t && s + ys == s;
      }
    }
  }
}

=== FILE: init_coordinator.dfy ===
/**
 * The single-flight initialisation of the shared manager: two module-level slots, the
 * instance and the pending initialisation promise, read and written by concurrent
 * callers (src/lib/global-mcp-store.js lines 4-81, and the same logic in `getMCPServer`,
 * src/lib/mcp-server.js lines 420-472, over the slots of src/lib/mcp-store.js).
 *
 * Managers are named by the index of the initialisation attempt that constructed them.
 * An attempt runs `new MCPServerManager()` and `initialize()`; its end is an event that
 * says whether `initialize` resolved and, if so, whether it left the manager's
 * `initialized` flag set. A caller that waits on an attempt resumes in a later event.
 */
module InitCoordinator {
  import opened Wrappers

  /** Which of the two copies of the logic runs: they differ in what a failed attempt does. */
  datatype Variant =
    | GlobalStore   // getOrCreateGlobalMCPServer: a failure is rethrown and waiting callers get null
    | ServerModule  // getMCPServer: a failure becomes a null result and callers read the slot

  datatype AttemptState = Running | Fulfilled | Failed

  /** One constructed manager: how its initialisation ended, and its `initialized` flag. */
  datatype Attempt = Attempt(state: AttemptState, ready: bool)

  /** A call in progress or finished, with the manager it returned (`None` for null). */
  datatype Caller = Awaiting(attempt: nat) | Returned(instance: Option<nat>)

  datatype Slots = Slots(
    instance: Option<nat>,
    promise: Option<nat>,
    attempts: seq<Attempt>,
    callers: seq<Caller>,
    cleaned: seq<nat>)

  /** The slots only name constructed managers; the promise names a running attempt, the instance a fulfilled one. */
  predicate Valid(c: Slots)
  {
    && (c.instance.Some? ==> c.instance.value < |c.attempts| && c.attempts[c.instance.value].state == Fulfilled)
    && (c.promise.Some? ==> c.promise.value < |c.attempts| && c.attempts[c.promise.value].state == Running)
    && (forall i :: 0 <= i < |c.callers| && c.callers[i].Awaiting? ==> c.callers[i].attempt < |c.attempts|)
    && (forall i :: 0 <= i < |c.callers| && c.callers[i].Returned? && c.callers[i].instance.Some? ==>
          c.callers[i].instance.value < |c.attempts|)
  }

  function Empty(): (c: Slots)
    ensures Valid(c)
  {
    Slots(None, None, [], [], [])
  }

  /** The instance slot holds a manager whose `initialized` flag is set. */
  predicate InstanceReady(c: Slots)
  {
    c.instance.Some? && c.instance.value < |c.attempts| && c.attempts[c.instance.value].ready
  }

  /**
   * A new call, up to its first `await` (lines 37-73): a ready instance is returned at
   * once; a pending promise is awaited; otherwise a new manager is constructed, its
   * initialisation started, the promise slot set and awaited.
   */
  function Call(c: Slots): (r: Slots)
    ensures |r.callers| == |c.callers| + 1 && r.callers[..|c.callers|] == c.callers
    ensures InstanceReady(c) ==> r == c.(callers := c.callers + [Returned(c.instance)])
    ensures !InstanceReady(c) && c.promise.Some? ==> r == c.(callers := c.callers + [Awaiting(c.promise.value)])
    ensures !InstanceReady(c) && c.promise.None? ==>
      r == c.(attempts := c.attempts + [Attempt(Running, false)], promise := Some(|c.attempts|),
              callers := c.callers + [Awaiting(|c.attempts|)])
    ensures |r.attempts| <= |c.attempts| + 1
    ensures Valid(c) ==> Valid(r)
  {
    if InstanceReady(c) then c.(callers := c.callers + [Returned(c.instance)])
    else if c.promise.Some? then c.(callers := c.callers + [Awaiting(c.promise.value)])
    else
      var a := |c.attempts|;
      c.(attempts := c.attempts + [Attempt(Running, false)], promise := Some(a), callers := c.callers + [Awaiting(a)])
  }

  /**
   * The end of attempt `a` (lines 56-71): on success the manager is stored in the
   * instance slot; on failure both slots are cleared; in both cases the `finally`
   * clears the promise slot, whichever promise it holds by then.
   */
  function Settle(c: Slots, a: nat, succeeded: bool, ready: bool): (r: Slots)
    ensures a < |c.attempts| && c.attempts[a].state == Running ==>
      && r.promise.None?
      && r.attempts == c.attempts[a := if succeeded then Attempt(Fulfilled, ready) else Attempt(Failed, false)]
      && r.instance == (if succeeded then Some(a) else None)
      && r.callers == c.callers && r.cleaned == c.cleaned
    ensures !(a < |c.attempts| && c.attempts[a].state == Running) ==> r == c
    ensures Valid(c) ==> Valid(r)
  {
    if a >= |c.attempts| || c.attempts[a].state != Running then c
    else if succeeded then
      c.(attempts := c.attempts[a := Attempt(Fulfilled, ready)], instance := Some(a), promise := None)
    else
      c.(attempts := c.attempts[a := Attempt(Failed, false)], instance := None, promise := None)
  }

  /** Caller `i` is awaiting an attempt that has ended. */
  predicate Resumable(c: Slots, i: nat)
  {
    i < |c.callers| && c.callers[i].Awaiting? && c.callers[i].attempt < |c.attempts|
    && c.attempts[c.callers[i].attempt].state != Running
  }

  /**
   * Caller `i` resuming after the attempt it awaited ended (lines 45-53 and 75-80):
   * after a success it returns whatever the instance slot holds by now; after a failure
   * the global store returns null, while `getMCPServer`, whose attempt never rejects,
   * also reads the slot.
   */
  function Resume(c: Slots, variant: Variant, i: nat): (r: Slots)
    ensures Resumable(c, i) ==>
      r == c.(callers := c.callers[i := Returned(
        if c.attempts[c.callers[i].attempt].state == Fulfilled || variant == ServerModule then c.instance else None)])
    ensures !Resumable(c, i) ==> r == c
    ensures |r.callers| == |c.callers| && r.attempts == c.attempts
    ensures r.instance == c.instance && r.promise == c.promise && r.cleaned == c.cleaned
    ensures Valid(c) ==> Valid(r)
  {
    if i >= |c.callers| || !c.callers[i].Awaiting? || c.callers[i].attempt >= |c.attempts| then c
    else
      var state := c.attempts[c.callers[i].attempt].state;
      if state == Running then c
      else
        var result := if state == Fulfilled || variant == ServerModule then c.instance else None;
        c.(callers := c.callers[i := Returned(result)])
  }

  /**
   * `resetGlobalMCPServer` (lines 29-35): clean up the stored manager, which kills its
   * child and clears its `initialized` flag, then clear both slots. A running attempt is
   * not cancelled.
   */
  function ResetSlots(c: Slots): (r: Slots)
    ensures r.instance.None? && r.promise.None?
    ensures c.instance.Some? && c.instance.value < |c.attempts| ==>
      && r.cleaned == c.cleaned + [c.instance.value]
      && r.attempts == c.attempts[c.instance.value := c.attempts[c.instance.value].(ready := false)]
    ensures c.instance.None? ==> r == c.(promise := None)
    ensures c.instance.Some? && c.instance.value < |c.attempts| ==>
      r == c.(instance := None, promise := None, cleaned := r.cleaned, attempts := r.attempts)
    ensures |r.attempts| == |c.attempts| && r.callers == c.callers
    ensures Valid(c) ==> Valid(r)
  {
    var cleared := c.(instance := None, promise := None);
    if c.instance.Some? && c.instance.value < |c.attempts| then
      var m := c.instance.value;
      cleared.(attempts := c.attempts[m := c.attempts[m].(ready := false)], cleaned := c.cleaned + [m])
    else cleared
  }

  // ------------------------------------------------------------ properties

  /** What can happen to the slots. */
  datatype Action = CallAction | SettleAction(a: nat, succeeded: bool, ready: bool) | ResumeAction(i: nat) | ResetAction

  function Apply(c: Slots, variant: Variant, e: Action): Slots
  {
    match e
    case CallAction => Call(c)
    case SettleAction(a, succeeded, ready) => Settle(c, a, succeeded, ready)
    case ResumeAction(i) => Resume(c, variant, i)
    case ResetAction => ResetSlots(c)
  }

  function ApplyAll(c: Slots, variant: Variant, actions: seq<Action>): Slots
    decreases |actions|
  {
    if actions == [] then c else ApplyAll(Apply(c, variant, actions[0]), variant, actions[1..])
  }

  /** Every running attempt is the one the promise slot names, so at most one runs. */
  predicate SingleFlight(c: Slots)
  {
    forall x :: 0 <= x < |c.attempts| && c.attempts[x].state == Running ==> c.promise == Some(x)
  }

  /** Without resets, at most one manager is being initialised at any time. */
  lemma {:induction false} NoResetSingleFlight(c: Slots, variant: Variant, actions: seq<Action>)
    requires Valid(c) && SingleFlight(c)
    requires forall j :: 0 <= j < |actions| ==> !actions[j].ResetAction?
    ensures Valid(ApplyAll(c, variant, actions)) && SingleFlight(ApplyAll(c, variant, actions))
    decreases |actions|
  {
    if actions != [] {
      var next := Apply(c, variant, actions[0]);
      assert SingleFlight(next);
      NoResetSingleFlight(next, variant, actions[1..]);
    }
  }

  /** `n` calls with nothing in between. */
  function CallMany(c: Slots, n: nat): Slots
    decreases n
  {
    if n == 0 then c else CallMany(Call(c), n - 1)
  }

  /** While an attempt is pending and no instance is ready, every further call waits on it. */
  lemma {:induction false} LaterCallsWait(c: Slots, n: nat)
    requires !InstanceReady(c) && c.promise.Some?
    ensures CallMany(c, n).attempts == c.attempts && CallMany(c, n).promise == c.promise
    ensures CallMany(c, n).instance == c.instance
    ensures |CallMany(c, n).callers| == |c.callers| + n
    ensures CallMany(c, n).callers[..|c.callers|] == c.callers
    ensures forall i :: |c.callers| <= i < |c.callers| + n ==> CallMany(c, n).callers[i] == Awaiting(c.promise.value)
    decreases n
  {
    if n > 0 {
      var next := Call(c);
      LaterCallsWait(next, n - 1);
      var r := CallMany(c, n);
      forall i | |c.callers| <= i < |c.callers| + n
        ensures r.callers[i] == Awaiting(c.promise.value)
      {
        if i == |c.callers| {
          assert r.callers[..|next.callers|][i] == next.callers[i];
        }
      }
      assert r.callers[..|c.callers|] == r.callers[..|next.callers|][..|c.callers|];
    }
  }

  /**
   * Concurrent first calls construct exactly one manager: the first starts its
   * initialisation and every other call waits on the same attempt.
   */
  lemma ConcurrentCallsShareOneAttempt(c: Slots, n: nat)
    requires !InstanceReady(c) && c.promise.None? && n >= 1
    ensures CallMany(c, n).attempts == c.attempts + [Attempt(Running, false)]
    ensures |CallMany(c, n).callers| == |c.callers| + n
    ensures forall i :: |c.callers| <= i < |c.callers| + n ==> CallMany(c, n).callers[i] == Awaiting(|c.attempts|)
  {
    var first := Call(c);
    assert !InstanceReady(first);
    LaterCallsWait(first, n - 1);
  }

  /** Resumes callers `i` onwards, in order. */
  function ResumeFrom(c: Slots, variant: Variant, i: nat): Slots
    decreases |c.callers| - i
  {
    if i >= |c.callers| then c else ResumeFrom(Resume(c, variant, i), variant, i + 1)
  }

  /** Callers waiting on a fulfilled attempt all return the instance the slot holds. */
  lemma {:induction false} WaitersGetInstance(c: Slots, variant: Variant, i: nat, a: nat)
    requires a < |c.attempts| && c.attempts[a].state == Fulfilled
    requires forall j :: i <= j < |c.callers| ==> c.callers[j] == Awaiting(a)
    ensures |ResumeFrom(c, variant, i).callers| == |c.callers|
    ensures forall j :: i <= j < |c.callers| ==> ResumeFrom(c, variant, i).callers[j] == Returned(c.instance)
    ensures forall j :: 0 <= j < i && j < |c.callers| ==> ResumeFrom(c, variant, i).callers[j] == c.callers[j]
    decreases |c.callers| - i
  {
    if i < |c.callers| {
      WaitersGetInstance(Resume(c, variant, i), variant, i + 1, a);
    }
  }

  /**
   * Any number of concurrent first calls (ten, say): one manager is constructed, and once
   * its initialisation succeeds every call returns that same manager.
   */
  lemma ConcurrentCallsGetOneManager(variant: Variant, n: nat)
    requires n >= 1
    ensures var started := CallMany(Empty(), n);
            var done := ResumeFrom(Settle(started, 0, true, true), variant, 0);
            && |started.attempts| == 1
            && |done.callers| == n
            && forall j :: 0 <= j < n ==> done.callers[j] == Returned(Some(0))
  {
    ConcurrentCallsShareOneAttempt(Empty(), n);
    var started := CallMany(Empty(), n);
    var settled := Settle(started, 0, true, true);
    assert settled.instance == Some(0) && settled.callers == started.callers;
    WaitersGetInstance(settled, variant, 0, 0);
  }

  /** After a failed attempt the waiting callers get null and the next call starts a new attempt. */
  lemma FailureReturnsNullAndRetries(c: Slots, variant: Variant, i: nat)
    requires Valid(c) && c.promise.Some? && i < |c.callers| && c.callers[i] == Awaiting(c.promise.value)
    ensures var failed := Settle(c, c.promise.value, false, false);
            && Resume(failed, variant, i).callers[i] == Returned(None)
            && |Call(failed).attempts| == |c.attempts| + 1
  {
  }

  /**
   * A reset while an attempt runs does not cancel it: a second attempt starts, two
   * managers are being initialised at once, and when the first ends its `finally`
   * clears the promise of the second and its manager, which the reset never cleaned
   * up, becomes the shared instance.
   */
  lemma ResetDuringInitialisation()
    ensures var c1 := Call(Empty());
            var c2 := Call(ResetSlots(c1));
            var c3 := Settle(c2, 0, true, true);
            var c4 := Call(c3);
            && c2.attempts == [Attempt(Running, false), Attempt(Running, false)]
            && !SingleFlight(c2)
            && c3.promise.None? && c3.attempts[1].state == Running
            && c3.instance == Some(0) && c3.cleaned == []
            && c4.callers[2] == Returned(Some(0))
  {
  }

  // ------------------------------------------------------------ the shared object

  /** The two module-level slots and what has happened through them. */
  class Coordinator {
    var instance: Option<nat>
    var promise: Option<nat>
    /** Managers constructed, in order. */
    var attempts: seq<Attempt>
    /** Calls made, in order. */
    var callers: seq<Caller>
    /** Managers `cleanup` was called on. */
    var cleaned: seq<nat>
    const variant: Variant

    function State(): Slots
      reads this
    {
      Slots(instance, promise, attempts, callers, cleaned)
    }

    constructor(variant: Variant)
      ensures State() == Empty() && this.variant == variant
    {
      instance := None;
      promise := None;
      attempts := [];
      callers := [];
      cleaned := [];
      this.variant := variant;
    }

    /** `getOrCreateGlobalMCPServer` / `getMCPServer` up to its first `await`; `caller` names the call. */
    method GetOrCreate() returns (caller: nat)
      modifies this
      ensures State() == Call(old(State()))
      ensures caller == |old(callers)|
    {
      caller := |callers|;
      if instance.Some? && instance.value < |attempts| && attempts[instance.value].ready {
        callers := callers + [Returned(instance)];
        return;
      }
      if promise.Some? {
        callers := callers + [Awaiting(promise.value)];
        return;
      }
      var a := |attempts|;
      attempts := attempts + [Attempt(Running, false)];
      promise := Some(a);
      callers := callers + [Awaiting(a)];
    }

    /** Attempt `a` ends: `succeeded` when `initialize` resolved, `ready` its manager's `initialized` flag. */
    method AttemptSettled(a: nat, succeeded: bool, ready: bool)
      modifies this
      ensures State() == Settle(old(State()), a, succeeded, ready)
    {
      if a >= |attempts| || attempts[a].state != Running {
        return;
      }
      if succeeded {
        attempts := attempts[a := Attempt(Fulfilled, ready)];
        instance := Some(a);
      } else {
        attempts := attempts[a := Attempt(Failed, false)];
        instance := None;
        promise := None;
      }
      promise := None;
    }

    /** Caller `i` resumes after its awaited attempt ended. */
    method ResumeCaller(i: nat)
      modifies this
      ensures State() == Resume(old(State()), variant, i)
    {
      if i >= |callers| || !callers[i].Awaiting? || callers[i].attempt >= |attempts| {
        return;
      }
      var state := attempts[callers[i].attempt].state;
      if state == Running {
        return;
      }
      var result := if state == Fulfilled || variant == ServerModule then instance else None;
      callers := callers[i := Returned(result)];
    }

    /** `resetGlobalMCPServer`. */
    method Reset()
      modifies this
      ensures State() == ResetSlots(old(State()))
    {
      if instance.Some? && instance.value < |attempts| {
        var m := instance.value;
        attempts := attempts[m := attempts[m].(ready := false)];
        cleaned := cleaned + [m];
      }
      instance := None;
      promise := None;
    }
  }
}

=== FILE: json.dfy ===
/** JSON values as the source handles them: parameters, results and request frames. */
module Json {
  import opened Wrappers

  /**
   * A JSON document. Numbers are integers here (the documents the model builds and
   * inspects only ever carry integers); objects keep their keys in insertion order.
   */
  datatype Json =
    | JNull
    | JBool(b: bool)
    | JNum(n: int)
    | JStr(s: string)
    | JArr(items: seq<Json>)
    | JObj(fields: seq<(string, Json)>)

  /** JavaScript truthiness of a parsed JSON value. */
  predicate Truthy(v: Json)
  {
    match v
    case JNull => false
    case JBool(b) => b
    case JNum(n) => n != 0
    case JStr(s) => s != ""
    case JArr(_) => true
    case JObj(_) => true
  }

  /** Property access `v[key]`: the last binding of `key` in an object, `None` (undefined) otherwise. */
  function Get(v: Json, key: string): Option<Json>
    decreases if v.JObj? then |v.fields| else 0
  {
    if !v.JObj? || |v.fields| == 0 then None
    else if v.fields[|v.fields| - 1].0 == key then Some(v.fields[|v.fields| - 1].1)
    else Get(JObj(v.fields[..|v.fields| - 1]), key)
  }

  /** `key` is bound somewhere in the object's fields. */
  predicate Binds(fields: seq<(string, Json)>, key: string)
  {
    exists i :: 0 <= i < |fields| && fields[i].0 == key
  }

  /** No key is bound twice, as in every object JavaScript builds. */
  predicate DistinctKeys(fields: seq<(string, Json)>)
  {
    forall i, j :: 0 <= i < j < |fields| ==> fields[i].0 != fields[j].0
  }

  /** In an object without repeated keys, each key reads back the value bound to it. */
  lemma {:induction false} GetDistinct(fields: seq<(string, Json)>)
    requires DistinctKeys(fields)
    ensures forall i :: 0 <= i < |fields| ==> Get(JObj(fields), fields[i].0) == Some(fields[i].1)
  {
    if |fields| > 0 {
      var init := fields[..|fields| - 1];
      GetDistinct(init);
      forall i | 0 <= i < |fields| - 1
        ensures Get(JObj(fields), fields[i].0) == Some(fields[i].1)
      {
        assert init[i] == fields[i];
      }
    }
  }

  /** Every binding of `key` takes the value `v`, in place. */
  function Overwrite(fields: seq<(string, Json)>, key: string, v: Json): seq<(string, Json)>
  {
    seq(|fields|, i requires 0 <= i < |fields| => if fields[i].0 == key then (key, v) else fields[i])
  }

  lemma {:induction false} GetOverwrite(fields: seq<(string, Json)>, key: string, v: Json, k: string)
    ensures Get(JObj(Overwrite(fields, key, v)), k)
         == if k == key && Binds(fields, key) then Some(v) else Get(JObj(fields), k)
  {
    if |fields| > 0 {
      var n := |fields|;
      var init := fields[..n - 1];
      var o := Overwrite(fields, key, v);
      assert o[..n - 1] == Overwrite(init, key, v);
      GetOverwrite(init, key, v, k);
      if Binds(fields, key) && fields[n - 1].0 != key {
        var i :| 0 <= i < n && fields[i].0 == key;
        assert init[i].0 == key;
      }
      if Binds(init, key) {
        var i :| 0 <= i < n - 1 && init[i].0 == key;
        assert fields[i].0 == key;
      }
    }
  }

  lemma OverwriteGets(fields: seq<(string, Json)>, key: string, v: Json)
    ensures forall k :: Get(JObj(Overwrite(fields, key, v)), k)
                      == if k == key && Binds(fields, key) then Some(v) else Get(JObj(fields), k)
  {
    forall k {
      GetOverwrite(fields, key, v, k);
    }
  }

  /**
   * Property assignment `o[key] = v`: a key already bound keeps its place and takes the
   * new value; a new key is added last.
   */
  function Assign(fields: seq<(string, Json)>, key: string, v: Json): (r: seq<(string, Json)>)
    ensures Get(JObj(r), key) == Some(v)
    ensures forall k :: k != key ==> Get(JObj(r), k) == Get(JObj(fields), k)
    ensures DistinctKeys(fields) ==> DistinctKeys(r)
  {
    if Binds(fields, key) then
      OverwriteGets(fields, key, v);
      Overwrite(fields, key, v)
    else
      assert (fields + [(key, v)])[..|fields|] == fields;
      fields + [(key, v)]
  }
}

=== FILE: line_buffer.dfy ===
/**
 * The newline reassembler of the tools/list response handler: each data chunk is
 * appended to a pending buffer, the buffer is split on '\n', every piece but the last
 * is a complete line, and the last piece becomes the new buffer.
 */
module LineBuffer {
  import opened Text

  /** Lines, each followed by the newline that ended it. */
  function Terminated(lines: seq<string>): string
  {
    if lines == [] then "" else lines[0] + "\n" + Terminated(lines[1..])
  }

  /** The complete lines a data event yields and the partial line it carries over. */
  datatype Fed = Fed(complete: seq<string>, rest: string)

  /** True when no complete line and not the carried-over piece holds a newline. */
  predicate NewlineFree(f: Fed)
  {
    Free(f.rest, '\n') && forall k :: 0 <= k < |f.complete| ==> Free(f.complete[k], '\n')
  }

  /** One data event: `buffer += chunk; lines = buffer.split('\n')`; keep the last piece. */
  function Feed(buffer: string, chunk: string): (r: Fed)
    ensures Terminated(r.complete) + r.rest == buffer + chunk
    ensures NewlineFree(r)
  {
    var pieces := Split(buffer + chunk, '\n');
    JoinSplit(buffer + chunk, '\n');
    SplitPiecesFree(buffer + chunk, '\n');
    JoinIsTerminated(pieces);
    Fed(pieces[..|pieces| - 1], pieces[|pieces| - 1])
  }

  /** A newline join is the terminated prefix followed by the last piece. */
  lemma {:induction false} JoinIsTerminated(pieces: seq<string>)
    requires |pieces| >= 1
    ensures Join(pieces, '\n') == Terminated(pieces[..|pieces| - 1]) + pieces[|pieces| - 1]
  {
    if |pieces| > 1 {
      JoinIsTerminated(pieces[1..]);
      assert pieces[1..][..|pieces| - 2] == pieces[..|pieces| - 1][1..];
    }
  }

  /**
   * The complete lines and the carried piece are determined by the text alone: any
   * newline-free decomposition of `buffer + chunk` is the one `Feed` produces.
   */
  lemma FeedUnique(buffer: string, chunk: string, f: Fed)
    requires Terminated(f.complete) + f.rest == buffer + chunk
    requires NewlineFree(f)
    ensures Feed(buffer, chunk) == f
  {
    var pieces := f.complete + [f.rest];
    assert pieces[..|pieces| - 1] == f.complete;
    JoinIsTerminated(pieces);
    SplitUnique(buffer + chunk, '\n', pieces);
  }

  /**
   * A line delivered in two chunks, split at any offset, is emitted exactly once and
   * nothing is left over.
   */
  lemma SplitLineReassembled(line: string, k: nat)
    requires Free(line, '\n') && k <= |line| + 1
    ensures var whole := line + "\n";
            var first := Feed("", whole[..k]);
            var second := Feed(first.rest, whole[k..]);
            first.complete + second.complete == [line] && second.rest == ""
  {
    var whole := line + "\n";
    if k <= |line| {
      assert whole[..k] == line[..k];
      FeedUnique("", whole[..k], Fed([], line[..k]));
      assert line[..k] + whole[k..] == line + "\n";
      FeedUnique(line[..k], whole[k..], Fed([line], ""));
    } else {
      assert whole[..k] == whole && whole[k..] == "";
      FeedUnique("", whole, Fed([line], ""));
      FeedUnique("", "", Fed([], ""));
    }
  }

  /** Feeds a sequence of chunks in order, collecting every complete line. */
  function FeedAll(buffer: string, chunks: seq<string>): Fed
    decreases |chunks|
  {
    if chunks == [] then Fed([], buffer)
    else
      var f := Feed(buffer, chunks[0]);
      var g := FeedAll(f.rest, chunks[1..]);
      Fed(f.complete + g.complete, g.rest)
  }

  /** Concatenation of chunks, in arrival order. */
  function Concat(chunks: seq<string>): string
  {
    if chunks == [] then "" else chunks[0] + Concat(chunks[1..])
  }

  lemma {:induction false} TerminatedAppend(a: seq<string>, b: seq<string>)
    ensures Terminated(a + b) == Terminated(a) + Terminated(b)
  {
    if a != [] {
      TerminatedAppend(a[1..], b);
      assert (a + b)[1..] == a[1..] + b;
    } else {
      assert a + b == b;
    }
  }

  /**
   * Over any run of data events, the lines emitted, each with its newline, followed by
   * the carried-over piece are exactly the text received: nothing is lost or repeated.
   */
  lemma {:induction false} FeedAllReassembles(buffer: string, chunks: seq<string>)
    ensures Terminated(FeedAll(buffer, chunks).complete) + FeedAll(buffer, chunks).rest
            == buffer + Concat(chunks)
    decreases |chunks|
  {
    if chunks != [] {
      var f := Feed(buffer, chunks[0]);
      FeedAllReassembles(f.rest, chunks[1..]);
      var g := FeedAll(f.rest, chunks[1..]);
      TerminatedAppend(f.complete, g.complete);
      var a, b, c := Terminated(f.complete), Terminated(g.complete), Concat(chunks[1..]);
      assert b + g.rest == f.rest + c;
      assert a + f.rest == buffer + chunks[0];
      Assoc(a, b, g.rest);
      Assoc(a, f.rest, c);
      Assoc(buffer, chunks[0], c);
      assert FeedAll(buffer, chunks) == Fed(f.complete + g.complete, g.rest);
    }
  }

  lemma Assoc(a: string, b: string, c: string)
    ensures (a + b) + c == a + (b + c)
  {
  }

  /** Starting from a newline-free buffer, no emitted line and no carried piece holds a newline. */
  lemma {:induction false} FeedAllNewlineFree(buffer: string, chunks: seq<string>)
    requires Free(buffer, '\n')
    ensures NewlineFree(FeedAll(buffer, chunks))
    decreases |chunks|
  {
    if chunks != [] {
      var f := Feed(buffer, chunks[0]);
      FeedAllNewlineFree(f.rest, chunks[1..]);
      var g := FeedAll(f.rest, chunks[1..]);
      var all := f.complete + g.complete;
      forall k | 0 <= k < |all| ensures Free(all[k], '\n') {
        if k >= |f.complete| { assert all[k] == g.complete[k - |f.complete|]; }
      }
    }
  }
}

=== FILE: mcp_properties.dfy ===
/**
 * What the manager guarantees over whole runs, and the behaviours of the request
 * handlers that follow from the way src/lib/mcp-server.js is written.
 */
module McpProperties {
  import opened Wrappers
  import opened Json
  import opened Text
  import opened McpState
  import LineBuffer
  import Bounded

  // ------------------------------------------------------------ runs

  /** Everything that can happen to a manager: a public method call or an asynchronous event. */
  datatype Event =
    | TrackCall(tool: string, params: Json, now: Timestamp)
    | StatusUpdate(id: nat, status: Status, result: Json, now: Timestamp)
    | ConsoleLog(message: string, data: Json, now: Timestamp)
    | ResetState
    | CleanupProcess
    | InitializeStart(spawned: Option<ProcessHandle>)
    | ChildClosed(child: ProcessHandle)
    | StartupDelay
    | CallRequested(tool: string, params: Json, now: Timestamp)
    | StdoutData(chunk: string, now: Timestamp)
    | ToolsListTimer(k: nat)
    | CallTimer(k: nat, now: Timestamp)

  function Step(s: ManagerState, codec: Codec, e: Event): ManagerState
  {
    match e
    case TrackCall(tool, params, now) => Track(s, tool, params, now).state
    case StatusUpdate(id, status, result, now) => UpdateStatus(s, id, status, result, now)
    case ConsoleLog(message, data, now) => AddLog(s, message, data, now)
    case ResetState => Reset(s)
    case CleanupProcess => Cleanup(s)
    case InitializeStart(spawned) => BeginInitialize(s, spawned)
    case ChildClosed(child) => ProcessClosed(s, child)
    case StartupDelay => RequestToolsList(s)
    case CallRequested(tool, params, now) => CallTool(s, tool, params, now)
    case StdoutData(chunk, now) => DataArrived(s, codec, chunk, now)
    case ToolsListTimer(k) => ToolsListTimeout(s, k)
    case CallTimer(k, now) => CallTimeout(s, k, now)
  }

  function Run(s: ManagerState, codec: Codec, events: seq<Event>): ManagerState
    decreases |events|
  {
    if events == [] then s else Run(Step(s, codec, events[0]), codec, events[1..])
  }

  /** Every event preserves the manager's invariant. */
  lemma StepPreservesValid(s: ManagerState, codec: Codec, e: Event)
    requires Valid(s)
    ensures Valid(Step(s, codec, e))
  {
  }

  /**
   * In every state a manager can reach, at most 20 calls and 50 log entries are
   * retained, the retained calls are the newest ones with consecutive ids, and the
   * frames written since the last reset carry the ids 1, 2, ... in order.
   */
  lemma {:induction false} RunPreservesValid(s: ManagerState, codec: Codec, events: seq<Event>)
    requires Valid(s)
    ensures Valid(Run(s, codec, events))
    decreases |events|
  {
    if events != [] {
      StepPreservesValid(s, codec, events[0]);
      RunPreservesValid(Step(s, codec, events[0]), codec, events[1..]);
    }
  }

  lemma ReachableBounds(codec: Codec, events: seq<Event>)
    ensures |Run(Fresh(), codec, events).history| <= HISTORY_CAPACITY
    ensures |Run(Fresh(), codec, events).logs| <= LOG_CAPACITY
    ensures Run(Fresh(), codec, events).messageId >= 1
  {
    RunPreservesValid(Fresh(), codec, events);
  }

  // ------------------------------------------------------------ the bounded history

  /** Tracks the calls one after another. */
  function TrackAll(s: ManagerState, calls: seq<(string, Json)>, now: Timestamp): ManagerState
    decreases |calls|
  {
    if calls == [] then s else TrackAll(Track(s, calls[0].0, calls[0].1, now).state, calls[1..], now)
  }

  lemma {:induction false} TrackAllCounts(s: ManagerState, calls: seq<(string, Json)>, now: Timestamp)
    requires Valid(s)
    ensures TrackAll(s, calls, now).callCount == s.callCount + |calls|
    ensures Valid(TrackAll(s, calls, now))
    decreases |calls|
  {
    if calls != [] {
      TrackAllCounts(Track(s, calls[0].0, calls[0].1, now).state, calls[1..], now);
    }
  }

  /**
   * After at least 20 calls on a fresh manager the history holds exactly the last 20,
   * numbered up to the number of calls: after 25 calls, the ids 6 to 25.
   */
  lemma RetainsNewestTwenty(calls: seq<(string, Json)>, now: Timestamp)
    requires |calls| >= HISTORY_CAPACITY
    ensures |TrackAll(Fresh(), calls, now).history| == HISTORY_CAPACITY
    ensures forall i :: 0 <= i < HISTORY_CAPACITY ==>
      TrackAll(Fresh(), calls, now).history[i].id == |calls| - HISTORY_CAPACITY + 1 + i
  {
    TrackAllCounts(Fresh(), calls, now);
  }

  /** Adds the entries to the console log one after another. */
  function LogAll(s: ManagerState, entries: seq<LogEntry>): ManagerState
    decreases |entries|
  {
    if entries == [] then s
    else LogAll(AddLog(s, entries[0].message, entries[0].data, entries[0].timestamp), entries[1..])
  }

  lemma {:induction false} LogAllPushes(s: ManagerState, entries: seq<LogEntry>)
    ensures LogAll(s, entries).logs == Bounded.PushAll(s.logs, entries, LOG_CAPACITY)
    decreases |entries|
  {
    if entries != [] {
      var e := entries[0];
      assert LogEntry(e.timestamp, e.message, e.data) == e;
      LogAllPushes(AddLog(s, e.message, e.data, e.timestamp), entries[1..]);
    }
  }

  /**
   * The console log is a FIFO of capacity 50: however many entries are added, it holds
   * exactly the newest 50 of everything logged, in order.
   */
  lemma LogsKeepNewestFifty(s: ManagerState, entries: seq<LogEntry>)
    requires |s.logs| <= LOG_CAPACITY
    ensures LogAll(s, entries).logs == Bounded.LastN(s.logs + entries, LOG_CAPACITY)
  {
    LogAllPushes(s, entries);
    Bounded.PushAllIsLastN(s.logs, entries, LOG_CAPACITY);
  }

  // ------------------------------------------------------------ statistics

  /** Changing one record changes each status count by that record alone. */
  lemma {:induction false} CountStatusUpdate(h: seq<ToolCallRecord>, i: nat, rec: ToolCallRecord, status: Status)
    requires i < |h|
    ensures CountStatus(h[i := rec], status)
      == CountStatus(h, status) - (if h[i].status == status then 1 else 0) + (if rec.status == status then 1 else 0)
  {
    if i > 0 {
      CountStatusUpdate(h[1..], i - 1, rec, status);
      assert h[i := rec][1..] == h[1..][i - 1 := rec];
    }
  }

  /** Completing a call just tracked moves it from the executing count to the completed count. */
  lemma CompletionMovesCount(s: ManagerState, tool: string, params: Json, result: Json, t0: Timestamp, t1: Timestamp)
    requires Valid(s)
    ensures var t := Track(s, tool, params, t0);
            var r := UpdateStatus(t.state, t.call.id, Completed, result, t1);
            && ToolCalls(r).completed == ToolCalls(t.state).completed + 1
            && ToolCalls(r).executing + 1 == ToolCalls(t.state).executing
            && ToolCalls(r).error == ToolCalls(t.state).error
  {
    var t := Track(s, tool, params, t0);
    var h := t.state.history;
    NewestCallFound(h, t.state.callCount);
    var rec := h[|h| - 1].(status := Completed, result := Some(result), completedAt := Some(t1));
    CountStatusUpdate(h, |h| - 1, rec, Completed);
    CountStatusUpdate(h, |h| - 1, rec, Executing);
    CountStatusUpdate(h, |h| - 1, rec, Error);
  }

  /** Appending an entry adds one to a category exactly when its message carries a marker of it. */
  lemma {:induction false} CountMarkedAppend(logs: seq<LogEntry>, e: LogEntry, markers: seq<string>)
    ensures CountMarked(logs + [e], markers) == CountMarked(logs, markers) + (if HasMarker(e.message, markers) then 1 else 0)
  {
    if logs != [] {
      CountMarkedAppend(logs[1..], e, markers);
      assert (logs + [e])[1..] == logs[1..] + [e];
    }
  }

  lemma PrefixMarked(marker: string, rest: string, markers: seq<string>)
    requires marker in markers
    ensures HasMarker(marker + rest, markers)
  {
    ContainsAt(marker + rest, marker, 0);
  }

  /** The status messages fall under the categories their markers name. */
  lemma StatusMessagesCategorised(id: nat)
    ensures HasMarker(CompletedMessage(id), SUCCESS_MARKERS)
    ensures HasMarker(FailedMessage(id), ERROR_MARKERS)
    ensures HasMarker(SENDING_MESSAGE, INFO_MARKERS) && HasMarker(RESULT_MESSAGE, INFO_MARKERS)
    ensures HasMarker(NOTIFICATION_MESSAGE, NOTIFICATION_MARKERS) && HasMarker(MALFORMED_MESSAGE, ERROR_MARKERS)
  {
    PrefixMarked(SUCCESS_MARK, " Tool Call #" + NatToString(id) + " completed successfully", SUCCESS_MARKERS);
    assert CompletedMessage(id) == SUCCESS_MARK + (" Tool Call #" + NatToString(id) + " completed successfully");
    PrefixMarked(FAILURE_MARK, " Tool Call #" + NatToString(id) + " failed:", ERROR_MARKERS);
    assert FailedMessage(id) == FAILURE_MARK + (" Tool Call #" + NatToString(id) + " failed:");
    PrefixMarked(OUTBOUND_MARK, " Sending MCP request:", INFO_MARKERS);
    PrefixMarked(INBOUND_MARK, " MCP result received:", INFO_MARKERS);
    PrefixMarked(NOTIFICATION_MARK, " MCP notification:", NOTIFICATION_MARKERS);
    PrefixMarked(WARNING_MARK, " Skipping malformed JSON line:", ERROR_MARKERS);
  }

  /** While the log has room, a failed call adds one to the console's error count. */
  lemma FailureCountedAsError(s: ManagerState, id: nat, result: Json, now: Timestamp)
    requires |s.logs| < LOG_CAPACITY
    requires FindCall(s.history, id).Some?
    ensures ConsoleLogs(UpdateStatus(s, id, Error, result, now)).errors == ConsoleLogs(s).errors + 1
    ensures ConsoleLogs(UpdateStatus(s, id, Error, result, now)).success == ConsoleLogs(s).success
            + (if HasMarker(FailedMessage(id), SUCCESS_MARKERS) then 1 else 0)
  {
    var e := LogEntry(now, FailedMessage(id), result);
    assert UpdateStatus(s, id, Error, result, now).logs == s.logs + [e];
    CountMarkedAppend(s.logs, e, ERROR_MARKERS);
    CountMarkedAppend(s.logs, e, SUCCESS_MARKERS);
    StatusMessagesCategorised(id);
  }

  // ------------------------------------------------------------ lifecycle

  /** `cleanup` twice is `cleanup` once: the child is killed at most once. */
  lemma CleanupIdempotent(s: ManagerState)
    ensures Cleanup(Cleanup(s)) == Cleanup(s)
    ensures |Cleanup(s).kills| <= |s.kills| + 1
  {
  }

  /**
   * After a reset the id counter starts again at 1, so the next request reuses an id
   * that was already written since the previous reset.
   */
  lemma ResetReusesRequestIds(s: ManagerState, tool: string, params: Json, now: Timestamp)
    requires Valid(s) && s.process.Some? && s.messageId > 1
    ensures var r := CallTool(Reset(s), tool, params, now);
            && r.sent[|r.sent| - 1].id == 1
            && exists j :: 0 <= j < |s.sent| && s.sent[j].id == 1
  {
    var j := |s.sent| - (s.messageId - 1);
    assert s.sent[j].id == 1;
  }

  /**
   * The close handler clears whatever child is current: a close from a child replaced
   * by a later `initialize` leaves the manager without its new, still running child.
   */
  lemma StaleCloseDropsNewChild(s: ManagerState, previous: ProcessHandle, current: ProcessHandle)
    requires s.process == Some(previous) && previous != current && current !in s.kills
    ensures var r := ProcessClosed(BeginInitialize(s, Some(current)), previous);
            && r.process.None?
            && current !in r.kills
            && previous in r.kills
  {
  }

  // ------------------------------------------------------------ the tools/call handler

  /** Lines none of which answers the request change only the console log. */
  lemma {:induction false} QuietLinesKeepRequests(s: ManagerState, codec: Codec, k: nat, lines: seq<string>, now: Timestamp)
    requires IsToolCall(s, k) && !s.requests[k].kind.isResolved
    requires forall i :: 0 <= i < |lines| ==> !ClassifyLine(lines[i], codec, s.requests[k].id).Response?
    ensures CallLines(s, codec, k, lines, now) == s.(logs := CallLines(s, codec, k, lines, now).logs)
    decreases |lines|
  {
    if lines != [] {
      var kind := ClassifyLine(lines[0], codec, s.requests[k].id);
      var next := SkipLine(s, lines[0], kind, now);
      assert forall i :: 0 <= i < |lines[1..]| ==> lines[1..][i] == lines[i + 1];
      QuietLinesKeepRequests(next, codec, k, lines[1..], now);
    }
  }

  /** A chunk none of whose lines answers the request leaves every request as it was. */
  lemma QuietChunkKeepsRequests(s: ManagerState, codec: Codec, k: nat, chunk: string, now: Timestamp)
    requires IsToolCall(s, k)
    requires forall i :: 0 <= i < |Split(chunk, '\n')| ==>
               !ClassifyLine(Split(chunk, '\n')[i], codec, s.requests[k].id).Response?
    ensures CallChunk(s, codec, k, chunk, now).requests == s.requests
    ensures CallChunk(s, codec, k, chunk, now).history == s.history
  {
    if !s.requests[k].kind.isResolved {
      QuietLinesKeepRequests(s, codec, k, Split(chunk, '\n'), now);
    }
  }

  /**
   * A notification never settles a call, even when it carries the request's id: a
   * chunk whose every frame is a notification leaves every request as it was.
   */
  lemma NotificationsNeverAnswer(s: ManagerState, codec: Codec, k: nat, chunk: string, now: Timestamp)
    requires IsToolCall(s, k)
    requires forall line :: line in Split(chunk, '\n') && codec.parse(line).Some? ==>
               codec.parse(line).value.methodName == Some(NOTIFICATION_METHOD)
    ensures CallChunk(s, codec, k, chunk, now).requests == s.requests
    ensures CallChunk(s, codec, k, chunk, now).history == s.history
  {
    var lines := Split(chunk, '\n');
    forall i | 0 <= i < |lines| ensures !ClassifyLine(lines[i], codec, s.requests[k].id).Response? {
      assert lines[i] in lines;
    }
    QuietChunkKeepsRequests(s, codec, k, chunk, now);
  }

  /** A newline-free line splits into itself alone, and with a newline after it into it and "". */
  lemma SplitSingle(line: string)
    requires Free(line, '\n')
    ensures Split(line, '\n') == [line]
    ensures Split(line + "\n", '\n') == [line, ""]
  {
    SplitUnique(line, '\n', [line]);
    assert Join([line, ""], '\n') == line + "\n";
    SplitUnique(line + "\n", '\n', [line, ""]);
  }

  /**
   * The tools/call handler parses each chunk on its own: a response line that arrives
   * in two chunks, neither of which parses by itself, never settles the call, which is
   * left for its timer to fail.
   */
  lemma SplitResponseIsLost(s: ManagerState, codec: Codec, k: nat, first: string, second: string, now: Timestamp)
    requires IsToolCall(s, k) && !s.requests[k].kind.isResolved
    requires Free(first + second, '\n')
    requires codec.parse(first).None? && codec.parse(second).None?
    ensures var s1 := CallChunk(s, codec, k, first, now);
            var s2 := CallChunk(s1, codec, k, second + "\n", now);
            s2.requests == s.requests
  {
    assert Free(first, '\n') && Free(second, '\n') by {
      assert forall i :: 0 <= i < |first| ==> first[i] == (first + second)[i];
      assert forall i :: 0 <= i < |second| ==> second[i] == (first + second)[|first| + i];
    }
    UnparsedChunkQuiet(s, codec, k, first, "", now);
    assert first + "" == first;
    var s1 := CallChunk(s, codec, k, first, now);
    UnparsedChunkQuiet(s1, codec, k, second, "\n", now);
  }

  /** The pieces of one unparsable line, with or without its newline, answer nothing. */
  lemma UnparsedPiecesQuiet(codec: Codec, id: int, line: string, end: string)
    requires Free(line, '\n') && codec.parse(line).None?
    requires end == "" || end == "\n"
    ensures forall i :: 0 <= i < |Split(line + end, '\n')| ==>
              !ClassifyLine(Split(line + end, '\n')[i], codec, id).Response?
  {
    SplitSingle(line);
    assert !ClassifyLine(line, codec, id).Response?;
    if end == "" {
      assert line + end == line;
    } else {
      assert Trim("") == "";
      assert ClassifyLine("", codec, id) == Blank;
    }
  }

  /** A chunk holding one unparsable line, with or without its newline, answers nothing. */
  lemma UnparsedChunkQuiet(s: ManagerState, codec: Codec, k: nat, line: string, end: string, now: Timestamp)
    requires IsToolCall(s, k)
    requires Free(line, '\n') && codec.parse(line).None?
    requires end == "" || end == "\n"
    ensures CallChunk(s, codec, k, line + end, now).requests == s.requests
    ensures CallChunk(s, codec, k, line + end, now).history == s.history
  {
    UnparsedPiecesQuiet(codec, s.requests[k].id, line, end);
    QuietChunkKeepsRequests(s, codec, k, line + end, now);
  }

  // ------------------------------------------------------------ the tools/list handler

  /**
   * The tools/list handler buffers partial lines: the same response split across two
   * chunks settles the request with the listed tools and stores them.
   */
  lemma SplitToolsResponseReassembled(s: ManagerState, codec: Codec, k: nat, first: string, second: string, tools: seq<Json>)
    requires IsToolsList(s, k) && s.requests[k].kind.buffer == "" && s.requests[k].outcome.Pending?
    requires Free(first + second, '\n') && Trim(first + second) != ""
    requires codec.parse(Trim(first + second)) ==
             Some(Frame(Some(s.requests[k].id), None, None, Some(JObj([("tools", JArr(tools))])), None))
    requires tools != [] && JNull !in tools
    ensures var s1 := ToolsChunk(s, codec, k, first);
            var s2 := ToolsChunk(s1, codec, k, second + "\n");
            s2.requests[k].outcome == Resolved(JArr(tools)) && s2.tools == JArr(tools) && !s2.requests[k].listening
  {
    assert Free(first, '\n') by {
      assert forall i :: 0 <= i < |first| ==> first[i] == (first + second)[i];
    }
    PartialLineBuffered(s, codec, k, first);
    LineCompleted(ToolsChunk(s, codec, k, first), codec, k, first, second, tools);
  }

  /** A chunk without a newline only grows the buffer of a tools/list request. */
  lemma PartialLineBuffered(s: ManagerState, codec: Codec, k: nat, first: string)
    requires IsToolsList(s, k) && s.requests[k].kind.buffer == ""
    requires Free(first, '\n')
    ensures var s1 := ToolsChunk(s, codec, k, first);
            IsToolsList(s1, k) && s1.requests[k] == s.requests[k].(kind := ToolsList(first))
  {
    LineBuffer.FeedUnique("", first, LineBuffer.Fed([], first));
  }

  /** The chunk that ends a buffered tools/list response settles the request with its tools. */
  lemma LineCompleted(s: ManagerState, codec: Codec, k: nat, first: string, second: string, tools: seq<Json>)
    requires IsToolsList(s, k) && s.requests[k].kind.buffer == first && s.requests[k].outcome.Pending?
    requires Free(first + second, '\n') && Trim(first + second) != ""
    requires codec.parse(Trim(first + second)) ==
             Some(Frame(Some(s.requests[k].id), None, None, Some(JObj([("tools", JArr(tools))])), None))
    requires tools != [] && JNull !in tools
    ensures var s2 := ToolsChunk(s, codec, k, second + "\n");
            s2.requests[k].outcome == Resolved(JArr(tools)) && s2.tools == JArr(tools) && !s2.requests[k].listening
  {
    FeedCompletes(first, second);
    var req := s.requests[k];
    var buffered := s.(requests := s.requests[k := req.(kind := ToolsList(req.kind.buffer + (second + "\n")))]);
    ResponseLineSettles(buffered, codec, k, first + second, tools);
  }

  /** Feeding the end of a buffered line, newline included, yields that one line and no rest. */
  lemma FeedCompletes(first: string, second: string)
    requires Free(first + second, '\n')
    ensures LineBuffer.Feed(first, second + "\n") == LineBuffer.Fed([first + second], "")
  {
    assert LineBuffer.Terminated([first + second]) == first + second + "\n";
    assert first + (second + "\n") == first + second + "\n";
    LineBuffer.FeedUnique(first, second + "\n", LineBuffer.Fed([first + second], ""));
  }

  /** A complete tools/list response line settles the pending request with its tools. */
  lemma ResponseLineSettles(s: ManagerState, codec: Codec, k: nat, line: string, tools: seq<Json>)
    requires IsToolsList(s, k) && s.requests[k].outcome.Pending? && Trim(line) != ""
    requires codec.parse(Trim(line)) ==
             Some(Frame(Some(s.requests[k].id), None, None, Some(JObj([("tools", JArr(tools))])), None))
    requires tools != [] && JNull !in tools
    ensures var r := ToolsLines(s, codec, k, [line], "");
            r.requests[k].outcome == Resolved(JArr(tools)) && r.tools == JArr(tools) && !r.requests[k].listening
  {
    assert ReadTools(Some(JObj([("tools", JArr(tools))]))) == ToolsListed(tools);
  }

  // ------------------------------------------------------------ reset while a call is pending

  /**
   * A reset does not touch pending requests, and restarts the ids: a call sent before
   * the reset and one sent after it share id 1, so the single response to either
   * settles both.
   */
  lemma ResetCrossTalk(codec: Codec, child: ProcessHandle, line: string, now: Timestamp)
    requires Free(line, '\n') && Trim(line) != ""
    requires codec.parse(line) == Some(Frame(Some(1), None, None, Some(JStr("ok")), None))
    ensures var s1 := CallTool(BeginInitialize(Fresh(), Some(child)), "before", JObj([]), now);
            var s2 := CallTool(Reset(s1), "after", JObj([]), now);
            var s3 := DataArrived(s2, codec, line, now);
            && |s3.requests| == 2
            && s2.requests[0].id == 1 && s2.requests[1].id == 1
            && s3.requests[0].outcome == Resolved(JStr("ok"))
            && s3.requests[1].outcome == Resolved(JStr("ok"))
  {
    FirstCallPending(child, now);
    var s1 := CallTool(BeginInitialize(Fresh(), Some(child)), "before", JObj([]), now);
    CallAfterResetPending(s1, child, now);
    BothAnswered(CallTool(Reset(s1), "after", JObj([]), now), codec, child, line, now);
  }

  /** The first call to a freshly started child is pending under id 1. */
  lemma FirstCallPending(child: ProcessHandle, now: Timestamp)
    ensures var s1 := CallTool(BeginInitialize(Fresh(), Some(child)), "before", JObj([]), now);
            s1.process == Some(child) && s1.requests == [Request(1, child, true, Pending, ToolCall(1, false))]
  {
    var s0 := BeginInitialize(Fresh(), Some(child));
    assert s0.requests == [] && s0.process == Some(child) && s0.callCount == 0 && s0.messageId == 1;
  }

  /** After a reset, the next call is pending under id 1 and tracked as call 1 again. */
  lemma CallAfterResetPending(s: ManagerState, child: ProcessHandle, now: Timestamp)
    requires s.process == Some(child) && s.requests == [Request(1, child, true, Pending, ToolCall(1, false))]
    ensures var r := CallTool(Reset(s), "after", JObj([]), now);
            && r.process == Some(child)
            && r.requests == [Request(1, child, true, Pending, ToolCall(1, false)), Request(1, child, true, Pending, ToolCall(1, false))]
  {
    var z := Reset(s);
    assert z.process == Some(child) && z.requests == s.requests && z.callCount == 0 && z.messageId == 1;
  }

  /** One response line reaches, and settles, two pending calls that share its id. */
  lemma BothAnswered(s: ManagerState, codec: Codec, child: ProcessHandle, line: string, now: Timestamp)
    requires s.process == Some(child)
    requires s.requests == [Request(1, child, true, Pending, ToolCall(1, false)), Request(1, child, true, Pending, ToolCall(1, false))]
    requires Free(line, '\n') && Trim(line) != ""
    requires codec.parse(line) == Some(Frame(Some(1), None, None, Some(JStr("ok")), None))
    ensures DataArrived(s, codec, line, now).requests[0].outcome == Resolved(JStr("ok"))
    ensures DataArrived(s, codec, line, now).requests[1].outcome == Resolved(JStr("ok"))
  {
    var a := HandleChunk(s, codec, 0, line, now);
    LineAnswers(s, codec, 0, line, now);
    var b := HandleChunk(a, codec, 1, line, now);
    LineAnswers(a, codec, 1, line, now);
    assert DispatchFrom(s, codec, child, line, now, 0) == DispatchFrom(a, codec, child, line, now, 1);
    assert DispatchFrom(a, codec, child, line, now, 1) == DispatchFrom(b, codec, child, line, now, 2);
  }

  /** A single response line settles the pending tool call it answers. */
  lemma LineAnswers(s: ManagerState, codec: Codec, k: nat, line: string, now: Timestamp)
    requires IsToolCall(s, k) && !s.requests[k].kind.isResolved
    requires Free(line, '\n') && Trim(line) != ""
    requires codec.parse(line) == Some(Frame(Some(s.requests[k].id), None, None, Some(JStr("ok")), None))
    ensures HandleChunk(s, codec, k, line, now).requests[k].outcome == Resolved(JStr("ok"))
    ensures forall j :: 0 <= j < |s.requests| && j != k ==> HandleChunk(s, codec, k, line, now).requests[j] == s.requests[j]
  {
    SplitSingle(line);
    var kind := ClassifyLine(line, codec, s.requests[k].id);
    assert kind == Response(Frame(Some(s.requests[k].id), None, None, Some(JStr("ok")), None));
  }

  // ------------------------------------------------------------ responses out of order

  /**
   * Two calls pending on the running child under ids 1 and 2, whose responses arrive in
   * the order 2, then 1: every listener sees every chunk, and each picks out its own
   * response, so each call resolves with its own result.
   */
  lemma OutOfOrderResponses(s: ManagerState, codec: Codec, child: ProcessHandle, c1: nat, c2: nat,
                            line1: string, line2: string, v1: Json, v2: Json, now: Timestamp)
    requires s.process == Some(child)
    requires s.requests == [Request(1, child, true, Pending, ToolCall(c1, false)),
                            Request(2, child, true, Pending, ToolCall(c2, false))]
    requires Free(line1, '\n') && Trim(line1) != "" && codec.parse(line1) == Some(Frame(Some(1), None, None, Some(v1), None))
    requires Free(line2, '\n') && Trim(line2) != "" && codec.parse(line2) == Some(Frame(Some(2), None, None, Some(v2), None))
    ensures var s1 := DataArrived(s, codec, line2, now);
            var s2 := DataArrived(s1, codec, line1, now);
            && s1.requests[0].outcome == Pending && s1.requests[1].outcome == Resolved(v2)
            && s2.requests[0].outcome == Resolved(v1) && s2.requests[1].outcome == Resolved(v2)
  {
    SecondAnsweredFirst(s, codec, child, c1, c2, line2, v2, now);
    FirstAnsweredSecond(DataArrived(s, codec, line2, now), codec, child, c1, line1, v1, now);
  }

  /** The response for id 2 answers the second call and leaves the first one listening. */
  lemma SecondAnsweredFirst(s: ManagerState, codec: Codec, child: ProcessHandle, c1: nat, c2: nat,
                            line2: string, v2: Json, now: Timestamp)
    requires s.process == Some(child)
    requires |s.requests| == 2
    requires s.requests[0] == Request(1, child, true, Pending, ToolCall(c1, false))
    requires s.requests[1] == Request(2, child, true, Pending, ToolCall(c2, false))
    requires Free(line2, '\n') && Trim(line2) != "" && codec.parse(line2) == Some(Frame(Some(2), None, None, Some(v2), None))
    ensures var s1 := DataArrived(s, codec, line2, now);
            && s1.process == Some(child)
            && |s1.requests| == 2
            && s1.requests[0] == Request(1, child, true, Pending, ToolCall(c1, false))
            && s1.requests[1] == Request(2, child, false, Resolved(v2), ToolCall(c2, true))
  {
    var f := Frame(Some(2), None, None, Some(v2), None);
    assert CallOutcome(f) == Resolved(v2);
    assert ListensOn(s, 0, child) && ListensOn(s, 1, child);
    LineReachesRequest(s, codec, 0, line2, f, now);
    LineReachesRequest(s, codec, 1, line2, f, now);
    var s1 := DataArrived(s, codec, line2, now);
    assert s1.requests[0] == HandleChunk(s, codec, 0, line2, now).requests[0];
    assert s1.requests[1] == HandleChunk(s, codec, 1, line2, now).requests[1];
  }

  /**
   * A chunk of one response line on the running child: every pending call listening on
   * it whose id the frame carries is answered, every other request stays as it was.
   */
  lemma ResponseLineDispatched(s: ManagerState, codec: Codec, line: string, f: Frame, now: Timestamp)
    requires s.process.Some?
    requires forall j :: 0 <= j < |s.requests| ==> s.requests[j].kind.ToolCall? && !s.requests[j].kind.isResolved
    requires Free(line, '\n') && Trim(line) != "" && codec.parse(line) == Some(f) && f.methodName.None?
    ensures var r := DataArrived(s, codec, line, now);
            && |r.requests| == |s.requests|
            && forall j :: 0 <= j < |s.requests| ==>
                 r.requests[j] ==
                   if ListensOn(s, j, s.process.value) && f.id == Some(s.requests[j].id)
                   then s.requests[j].(listening := false, outcome := CallOutcome(f), kind := ToolCall(s.requests[j].kind.callId, true))
                   else s.requests[j]
  {
    forall j | 0 <= j < |s.requests| && ListensOn(s, j, s.process.value)
      ensures HandleChunk(s, codec, j, line, now).requests[j] ==
                if f.id == Some(s.requests[j].id)
                then s.requests[j].(listening := false, outcome := CallOutcome(f), kind := ToolCall(s.requests[j].kind.callId, true))
                else s.requests[j]
    {
      LineReachesRequest(s, codec, j, line, f, now);
    }
  }

  /** Then the response for id 1 answers the first call; the second, detached, is not reached. */
  lemma FirstAnsweredSecond(s: ManagerState, codec: Codec, child: ProcessHandle, c1: nat,
                            line1: string, v1: Json, now: Timestamp)
    requires s.process == Some(child) && |s.requests| == 2
    requires s.requests[0] == Request(1, child, true, Pending, ToolCall(c1, false)) && !s.requests[1].listening
    requires Free(line1, '\n') && Trim(line1) != "" && codec.parse(line1) == Some(Frame(Some(1), None, None, Some(v1), None))
    ensures var s2 := DataArrived(s, codec, line1, now);
            s2.requests[0].outcome == Resolved(v1) && s2.requests[1] == s.requests[1]
  {
    LineReachesRequest(s, codec, 0, line1, Frame(Some(1), None, None, Some(v1), None), now);
    assert ListensOn(s, 0, child) && !ListensOn(s, 1, child);
  }

  /**
   * A chunk of one line holding a frame that is not a notification: the pending call it
   * answers is answered by it, any other pending call only logs.
   */
  lemma ResponseLineReaches(s: ManagerState, codec: Codec, k: nat, line: string, f: Frame, now: Timestamp)
    requires IsToolCall(s, k) && !s.requests[k].kind.isResolved
    requires Free(line, '\n') && Trim(line) != "" && codec.parse(line) == Some(f) && f.methodName.None?
    ensures f.id == Some(s.requests[k].id) ==> Answered(s, HandleChunk(s, codec, k, line, now), k, f, now)
    ensures f.id != Some(s.requests[k].id) ==> HandleChunk(s, codec, k, line, now) == s.(logs := HandleChunk(s, codec, k, line, now).logs)
  {
    SplitSingle(line);
    assert ClassifyLine(line, codec, s.requests[k].id).Response? <==> f.id == Some(s.requests[k].id);
  }

  /** The same, for the request alone: its own response answers it, any other frame leaves it as it was. */
  lemma LineReachesRequest(s: ManagerState, codec: Codec, k: nat, line: string, f: Frame, now: Timestamp)
    requires IsToolCall(s, k) && !s.requests[k].kind.isResolved
    requires Free(line, '\n') && Trim(line) != "" && codec.parse(line) == Some(f) && f.methodName.None?
    ensures HandleChunk(s, codec, k, line, now).requests[k] ==
              if f.id == Some(s.requests[k].id)
              then s.requests[k].(listening := false, outcome := CallOutcome(f), kind := ToolCall(s.requests[k].kind.callId, true))
              else s.requests[k]
  {
    ResponseLineReaches(s, codec, k, line, f, now);
  }
}

=== FILE: mcp_server.dfy ===
/**
 * The manager object itself (src/lib/mcp-server.js, class MCPServerManager): its
 * fields are updated in place by its methods and by the listeners and timers its
 * requests install. Every method is proved to move the object's `State()` exactly as
 * the corresponding event of `McpState` does, so the invariant and the lemmas proved
 * there hold of the object.
 */
module McpServer {
  import opened Wrappers
  import opened Json
  import opened Text
  import opened McpState
  import LineBuffer

  class McpServerManager {
    var mcpProcess: Option<ProcessHandle>
    var mcpMessageId: int
    var availableTools: Json
    var toolCallCount: nat
    var toolCallHistory: seq<ToolCallRecord>
    var consoleLogs: seq<LogEntry>
    var initialized: bool
    /** Children killed by `cleanup`. */
    var killed: seq<ProcessHandle>
    /** Frames written to the child's standard input. */
    var written: seq<RpcRequest>
    /** Every request issued, with its listener and promise. */
    var requests: seq<Request>
    /** The JSON reader and writer the handlers use. */
    const codec: Codec

    function State(): ManagerState
      reads this
    {
      ManagerState(mcpProcess, mcpMessageId, availableTools, toolCallCount, toolCallHistory,
                   consoleLogs, initialized, killed, written, requests)
    }

    predicate Valid()
      reads this
    {
      McpState.Valid(State())
    }

    constructor(codec: Codec)
      ensures State() == Fresh() && this.codec == codec
      ensures Valid()
    {
      mcpProcess := None;
      mcpMessageId := 1;
      availableTools := JArr([]);
      toolCallCount := 0;
      toolCallHistory := [];
      consoleLogs := [];
      initialized := false;
      killed := [];
      written := [];
      requests := [];
      this.codec := codec;
    }

    /** `getToolCalls`. */
    function GetToolCalls(): ToolCallSummary
      reads this
    {
      ToolCalls(State())
    }

    /** `getConsoleLogs`. */
    function GetConsoleLogs(): LogSummary
      reads this
    {
      ConsoleLogs(State())
    }

    /** `getHealthStatus`. */
    function GetHealthStatus(): HealthStatus
      reads this
    {
      Health(State())
    }

    method AddConsoleLog(message: string, data: Json, now: Timestamp)
      modifies this
      ensures State() == AddLog(old(State()), message, data, now)
      ensures old(Valid()) ==> Valid()
    {
      consoleLogs := consoleLogs + [LogEntry(now, message, data)];
      if |consoleLogs| > LOG_CAPACITY {
        consoleLogs := consoleLogs[1..];
      }
    }

    method TrackToolCall(tool: string, params: Json, now: Timestamp) returns (call: ToolCallRecord)
      modifies this
      ensures Tracked(State(), call) == Track(old(State()), tool, params, now)
      ensures old(Valid()) ==> Valid()
    {
      toolCallCount := toolCallCount + 1;
      call := ToolCallRecord(toolCallCount, now, tool, params, Executing, None, None);
      toolCallHistory := toolCallHistory + [call];
      if |toolCallHistory| > HISTORY_CAPACITY {
        toolCallHistory := toolCallHistory[1..];
      }
      AddConsoleLog(TrackMessage(toolCallCount, tool), params, now);
    }

    method UpdateToolCallStatus(callId: nat, status: Status, result: Json, now: Timestamp)
      modifies this
      ensures State() == UpdateStatus(old(State()), callId, status, result, now)
      ensures old(Valid()) ==> Valid()
    {
      var i := 0;
      while i < |toolCallHistory| && toolCallHistory[i].id != callId
        invariant 0 <= i <= |toolCallHistory|
        invariant forall j :: 0 <= j < i ==> toolCallHistory[j].id != callId
      {
        i := i + 1;
      }
      if i < |toolCallHistory| {
        assert FindCall(toolCallHistory, callId) == Some(i);
        var call := toolCallHistory[i];
        toolCallHistory := toolCallHistory[i := call.(status := status, result := Some(result), completedAt := Some(now))];
        if status == Completed {
          AddConsoleLog(CompletedMessage(callId), JNull, now);
        } else if status == Error {
          AddConsoleLog(FailedMessage(callId), result, now);
        }
      } else {
        assert FindCall(toolCallHistory, callId).None?;
      }
    }

    method Reset()
      modifies this
      ensures State() == McpState.Reset(old(State()))
      ensures old(Valid()) ==> Valid()
    {
      toolCallHistory := [];
      toolCallCount := 0;
      consoleLogs := [];
      availableTools := JArr([]);
      mcpMessageId := 1;
    }

    method Cleanup()
      modifies this
      ensures State() == McpState.Cleanup(old(State()))
      ensures old(Valid()) ==> Valid()
    {
      if mcpProcess.Some? {
        killed := killed + [mcpProcess.value];
        mcpProcess := None;
      }
      initialized := false;
    }

    /** `initialize`, up to the startup delay; `spawned` is the child, absent when the configuration is missing. */
    method Initialize(spawned: Option<ProcessHandle>)
      modifies this
      ensures State() == BeginInitialize(old(State()), spawned)
      ensures old(Valid()) ==> Valid()
    {
      if mcpProcess.Some? {
        Cleanup();
      }
      Reset();
      if spawned.Some? {
        mcpProcess := spawned;
      }
    }

    /** The `close` handler installed by `initialize`. */
    method OnProcessClose(closed: ProcessHandle)
      modifies this
      ensures State() == ProcessClosed(old(State()), closed)
      ensures old(Valid()) ==> Valid()
    {
      mcpProcess := None;
    }

    /** `getAvailableTools`; `sent` is false when it rejected for want of a child. */
    method GetAvailableTools() returns (sent: bool)
      modifies this
      ensures State() == RequestToolsList(old(State()))
      ensures sent <==> old(mcpProcess).Some?
      ensures old(Valid()) ==> Valid()
    {
      if mcpProcess.None? {
        return false;
      }
      var id := mcpMessageId;
      mcpMessageId := mcpMessageId + 1;
      written := written + [RpcRequest(id, "tools/list", JObj([]))];
      requests := requests + [Request(id, mcpProcess.value, true, Pending, ToolsList(""))];
      return true;
    }

    /** The startup delay of `initialize` elapsing. */
    method OnStartupTimer()
      modifies this
      ensures State() == RequestToolsList(old(State()))
      ensures old(Valid()) ==> Valid()
    {
      if mcpProcess.None? {
        return;
      }
      var _ := GetAvailableTools();
    }

    /** `callTool`; `sent` is false when it rejected for want of a child. */
    method CallTool(tool: string, params: Json, now: Timestamp) returns (sent: bool)
      modifies this
      ensures State() == McpState.CallTool(old(State()), tool, params, now)
      ensures sent <==> old(mcpProcess).Some?
      ensures old(Valid()) ==> Valid()
    {
      var call := TrackToolCall(tool, params, now);
      if mcpProcess.None? {
        NewestCallFound(toolCallHistory, toolCallCount);
        UpdateToolCallStatus(call.id, Error, JStr(NOT_AVAILABLE), now);
        return false;
      }
      var request := RpcRequest(mcpMessageId, "tools/call", CallParams(tool, params));
      mcpMessageId := mcpMessageId + 1;
      AddConsoleLog(SENDING_MESSAGE, RequestJson(request), now);
      written := written + [request];
      requests := requests + [Request(request.id, mcpProcess.value, true, Pending, ToolCall(call.id, false))];
      return true;
    }

    /** A chunk of the running child's stdout, delivered to each listener in turn. */
    method OnData(chunk: string, now: Timestamp)
      modifies this
      ensures State() == DataArrived(old(State()), codec, chunk, now)
      ensures old(Valid()) ==> Valid()
    {
      if mcpProcess.None? {
        return;
      }
      var proc := mcpProcess.value;
      var k := 0;
      while k < |requests|
        invariant 0 <= k <= |requests| == |old(requests)|
        invariant DispatchFrom(State(), codec, proc, chunk, now, k) == DataArrived(old(State()), codec, chunk, now)
      {
        if ListensOn(State(), k, proc) {
          if requests[k].kind.ToolsList? {
            ToolsListData(k, chunk);
          } else {
            ToolCallData(k, chunk, now);
          }
        }
        k := k + 1;
      }
    }

    /** The tools/list listener of request `k`. */
    method ToolsListData(k: nat, chunk: string)
      requires IsToolsList(State(), k)
      modifies this
      ensures State() == ToolsChunk(old(State()), codec, k, chunk)
      ensures old(Valid()) ==> Valid()
    {
      var buffer := requests[k].kind.buffer + chunk;
      requests := requests[k := requests[k].(kind := ToolsList(buffer))];
      var lines := Split(buffer, '\n');
      var last := |lines| - 1;
      ghost var fed := LineBuffer.Feed(old(requests)[k].kind.buffer, chunk);
      assert fed.complete == lines[..last] && fed.rest == lines[last];
      assert lines[0..last] == lines[..last];
      ghost var goal := ToolsLines(State(), codec, k, lines[0..last], lines[last]);
      var i := 0;
      while i < last
        invariant 0 <= i <= last
        invariant IsToolsList(State(), k)
        invariant ToolsLines(State(), codec, k, lines[i..last], lines[last]) == goal
      {
        assert lines[i..last][0] == lines[i] && lines[i..last][1..] == lines[i + 1..last];
        var settled := ToolsListLine(k, lines[i]);
        if settled {
          return;
        }
        i := i + 1;
      }
      assert lines[i..last] == [];
      requests := requests[k := requests[k].(kind := ToolsList(lines[last]))];
    }

    /** One complete line of a tools/list data event; `settled` when it ended the scan. */
    method ToolsListLine(k: nat, line: string) returns (settled: bool)
      requires IsToolsList(State(), k)
      modifies this
      ensures settled <==> ToolsLine(old(State()), codec, k, line).Stop?
      ensures State() == ToolsLine(old(State()), codec, k, line).state
    {
      var request := requests[k];
      var text := Trim(line);
      var parsed := codec.parse(text);
      if text == "" || parsed.None? || parsed.value.id != Some(request.id) {
        return false;
      }
      var response := parsed.value;
      if HasError(response) {
        var message := ErrorMessage(response.error.value, "Failed to get tools list");
        requests := requests[k := request.(listening := false, outcome := Settle(request.outcome, Rejected(message)))];
        return true;
      }
      match ReadTools(response.result) {
        case ToolsListed(tools) =>
          availableTools := JArr(tools);
          // the continuation of `initialize` once its tools/list promise resolves
          if request.outcome.Pending? {
            initialized := true;
          }
          requests := requests[k := request.(listening := false, outcome := Settle(request.outcome, Resolved(JArr(tools))))];
          return true;
        case ToolsThrow(stored) =>
          requests := requests[k := request.(listening := false)];
          if stored.Some? {
            availableTools := stored.value;
          }
          return false;
      }
    }

    /** The tools/call listener of request `k`. */
    method ToolCallData(k: nat, chunk: string, now: Timestamp)
      requires IsToolCall(State(), k)
      modifies this
      ensures State() == CallChunk(old(State()), codec, k, chunk, now)
      ensures old(Valid()) ==> Valid()
    {
      if requests[k].kind.isResolved {
        return;
      }
      var id := requests[k].id;
      var lines := Split(chunk, '\n');
      ghost var goal := CallLines(State(), codec, k, lines, now);
      assert lines[0..] == lines;
      var i := 0;
      while i < |lines|
        invariant 0 <= i <= |lines|
        invariant IsToolCall(State(), k) && !requests[k].kind.isResolved && requests[k].id == id
        invariant CallLines(State(), codec, k, lines[i..], now) == goal
      {
        CallLinesStep(State(), codec, k, lines, i, now);
        var answered := ToolCallLine(k, lines[i], now);
        if answered {
          return;
        }
        i := i + 1;
      }
      assert lines[i..] == [];
    }

    /** Handling the lines from `i` on is handling line `i`, then the rest unless it answered. */
    static lemma CallLinesStep(s: ManagerState, codec: Codec, k: nat, lines: seq<string>, i: nat, now: Timestamp)
      requires IsToolCall(s, k) && !s.requests[k].kind.isResolved && i < |lines|
      ensures var kind := ClassifyLine(lines[i], codec, s.requests[k].id);
              && (kind.Response? ==> CallLines(s, codec, k, lines[i..], now) == Respond(s, k, kind.frame, now))
              && (!kind.Response? ==>
                    var t := SkipLine(s, lines[i], kind, now);
                    && IsToolCall(t, k) && !t.requests[k].kind.isResolved && t.requests[k].id == s.requests[k].id
                    && CallLines(s, codec, k, lines[i..], now) == CallLines(t, codec, k, lines[i + 1..], now))
    {
      assert lines[i..][1..] == lines[i + 1..];
    }

    /** One line of a tools/call data event; `answered` when it was the response and ended the scan. */
    method ToolCallLine(k: nat, line: string, now: Timestamp) returns (answered: bool)
      requires IsToolCall(State(), k) && !requests[k].kind.isResolved
      modifies this
      ensures answered <==> ClassifyLine(line, codec, old(requests)[k].id).Response?
      ensures answered ==> State() == Respond(old(State()), k, ClassifyLine(line, codec, old(requests)[k].id).frame, now)
      ensures !answered ==> State() == SkipLine(old(State()), line, ClassifyLine(line, codec, old(requests)[k].id), now)
    {
      if Trim(line) == "" {
        return false;
      }
      var parsed := codec.parse(line);
      if parsed.None? {
        AddConsoleLog(MALFORMED_MESSAGE, JStr(line), now);
      } else if parsed.value.methodName == Some(NOTIFICATION_METHOD) {
        var action := Notification(parsed.value.data, codec);
        if action.LogIt? {
          AddConsoleLog(NOTIFICATION_MESSAGE, action.data, now);
        } else if action.ThrowsTypeError? {
          AddConsoleLog(MALFORMED_MESSAGE, JStr(line), now);
        }
      } else if parsed.value.id == Some(requests[k].id) {
        Answer(k, parsed.value, now);
        return true;
      }
      return false;
    }

    /** The matching response reaching the tools/call listener of request `k`. */
    method Answer(k: nat, response: Frame, now: Timestamp)
      requires IsToolCall(State(), k) && !requests[k].kind.isResolved
      modifies this
      ensures State() == Respond(old(State()), k, response, now)
    {
      AddConsoleLog(RESULT_MESSAGE, OrNull(response.result), now);
      var request := requests[k];
      var callId := request.kind.callId;
      if HasError(response) {
        var outcome := Rejected(ErrorMessage(response.error.value, "MCP Server error"));
        requests := requests[k := request.(listening := false, outcome := outcome, kind := ToolCall(callId, true))];
        UpdateToolCallStatus(callId, Error, response.error.value, now);
      } else {
        var outcome := Resolved(OrNull(response.result));
        requests := requests[k := request.(listening := false, outcome := outcome, kind := ToolCall(callId, true))];
        UpdateToolCallStatus(callId, Completed, OrNull(response.result), now);
      }
    }

    /** The tools/list timer of request `k`. */
    method OnToolsListTimeout(k: nat)
      modifies this
      ensures State() == ToolsListTimeout(old(State()), k)
      ensures old(Valid()) ==> Valid()
    {
      if !IsToolsList(State(), k) {
        return;
      }
      var request := requests[k];
      var detach := mcpProcess == Some(request.proc);
      requests := requests[k := request.(listening := request.listening && !detach,
                                         outcome := Settle(request.outcome, Rejected(TOOLS_TIMEOUT)))];
    }

    /** The tools/call timer of request `k`. */
    method OnCallTimeout(k: nat, now: Timestamp)
      modifies this
      ensures State() == CallTimeout(old(State()), k, now)
      ensures old(Valid()) ==> Valid()
    {
      if !IsToolCall(State(), k) || requests[k].kind.isResolved {
        return;
      }
      var request := requests[k];
      var detach := mcpProcess == Some(request.proc);
      requests := requests[k := request.(listening := request.listening && !detach,
                                         outcome := Rejected(REQUEST_TIMEOUT),
                                         kind := ToolCall(request.kind.callId, true))];
      UpdateToolCallStatus(request.kind.callId, Error, JStr(REQUEST_TIMEOUT), now);
    }
  }
}

=== FILE: mcp_state.dfy ===
/**
 * The state of one MCP server manager (src/lib/mcp-server.js, class MCPServerManager)
 * as a value, and every event that changes it as a function from the old state to
 * the new one.
 *
 * Besides the fields of the JavaScript object, the state records what the manager
 * does to its environment: the processes it killed (`kills`), the request frames it
 * wrote to the child's standard input (`sent`), and, for every request it issued, the
 * state of that request's stdout listener and promise (`requests`). Asynchrony is a
 * sequence of events: a chunk of stdout data arrives, a request's timer fires, the
 * child process closes, the startup delay elapses.
 */
module McpState {
  import opened Wrappers
  import opened Json
  import opened Text
  import Bounded
  import LineBuffer

  type Timestamp = string

  /** Retained tool-call records (mcp-server.js line 27). */
  const HISTORY_CAPACITY: nat := 20
  /** Retained console log entries (mcp-server.js line 61). */
  const LOG_CAPACITY: nat := 50

  // ------------------------------------------------------------ records

  datatype Status = Executing | Completed | Error

  /** A tool call as `trackToolCall` creates it; `result` and `completedAt` appear on the first status update. */
  datatype ToolCallRecord = ToolCallRecord(
    id: nat,
    timestamp: Timestamp,
    tool: string,
    params: Json,
    status: Status,
    result: Option<Json>,
    completedAt: Option<Timestamp>)

  datatype LogEntry = LogEntry(timestamp: Timestamp, message: string, data: Json)

  /** The identity of a spawned child process. */
  datatype ProcessHandle = ProcessHandle(pid: nat)

  /** A JSON-RPC request frame written to the child's standard input. */
  datatype RpcRequest = RpcRequest(id: int, methodName: string, params: Json)

  /** The settlement of a request's promise. */
  datatype Outcome = Pending | Resolved(value: Json) | Rejected(message: string)

  /** What only one kind of request carries: the tools/list line buffer, or the tracked call and its `isResolved` flag. */
  datatype RequestKind = ToolsList(buffer: string) | ToolCall(callId: nat, isResolved: bool)

  /**
   * One issued request with the state of its closure: the listener it attached to the
   * stdout of process `proc`, and its promise.
   */
  datatype Request = Request(id: int, proc: ProcessHandle, listening: bool, outcome: Outcome, kind: RequestKind)

  /**
   * What `JSON.parse` yields for a line, reduced to the members the handlers read:
   * `id` (when it is a number), `method`, `params.data`, `result` and `error`;
   * `None` stands for a member that is undefined.
   */
  datatype Frame = Frame(id: Option<int>, methodName: Option<string>, data: Option<Json>, result: Option<Json>, error: Option<Json>)

  /** `JSON.parse` (None when it throws) and `JSON.stringify`, which the model leaves abstract. */
  datatype Codec = Codec(parse: string -> Option<Frame>, stringify: Json -> string)

  /** The manager's fields and the environment effects it has caused so far. */
  datatype ManagerState = ManagerState(
    process: Option<ProcessHandle>,
    messageId: int,
    /** `availableTools`: whatever `result.tools || []` produced, an array or not. */
    tools: Json,
    callCount: nat,
    history: seq<ToolCallRecord>,
    logs: seq<LogEntry>,
    initialized: bool,
    kills: seq<ProcessHandle>,
    sent: seq<RpcRequest>,
    requests: seq<Request>)

  // ------------------------------------------------------------ log messages

  const TOOL_MARK := "\U{1F527}"
  const SUCCESS_MARK := "\U{2705}"
  const FAILURE_MARK := "\U{274C}"
  const WARNING_MARK := "\U{26A0}\U{FE0F}"
  const OUTBOUND_MARK := "\U{1F4E4}"
  const INBOUND_MARK := "\U{1F4E5}"
  const NOTIFICATION_MARK := "\U{1F4E2}"

  function TrackMessage(count: nat, tool: string): string
  {
    TOOL_MARK + " MCP Tool Call #" + NatToString(count) + ": " + tool
  }

  function CompletedMessage(id: nat): string
  {
    SUCCESS_MARK + " Tool Call #" + NatToString(id) + " completed successfully"
  }

  function FailedMessage(id: nat): string
  {
    FAILURE_MARK + " Tool Call #" + NatToString(id) + " failed:"
  }

  const SENDING_MESSAGE := OUTBOUND_MARK + " Sending MCP request:"
  const NOTIFICATION_MESSAGE := NOTIFICATION_MARK + " MCP notification:"
  const RESULT_MESSAGE := INBOUND_MARK + " MCP result received:"
  const MALFORMED_MESSAGE := WARNING_MARK + " Skipping malformed JSON line:"

  const NOT_AVAILABLE := "MCP Server not available"
  const REQUEST_TIMEOUT := "Request timeout"
  const TOOLS_TIMEOUT := "Tools list request timeout"

  // ------------------------------------------------------------ invariant

  /** The history holds the newest `min(callCount, 20)` calls, with consecutive ids ending at `callCount`. */
  predicate HistoryValid(history: seq<ToolCallRecord>, callCount: nat)
  {
    && |history| == (if callCount < HISTORY_CAPACITY then callCount else HISTORY_CAPACITY)
    && forall i :: 0 <= i < |history| ==> history[i].id == callCount - |history| + 1 + i
  }

  /**
   * Request ids are allocated from one counter: the last `messageId - 1` frames written
   * carry the ids 1, 2, ..., `messageId - 1`, in that order.
   */
  predicate IdsValid(sent: seq<RpcRequest>, messageId: int)
  {
    && 1 <= messageId <= |sent| + 1
    && forall j :: |sent| - (messageId - 1) <= j < |sent| ==> sent[j].id == j - |sent| + messageId
  }

  /** A tool call's `isResolved` flag is set exactly when its promise is settled. */
  predicate RequestsValid(requests: seq<Request>)
  {
    forall k :: 0 <= k < |requests| && requests[k].kind.ToolCall? ==>
      (requests[k].kind.isResolved <==> !requests[k].outcome.Pending?)
  }

  predicate Valid(s: ManagerState)
  {
    && HistoryValid(s.history, s.callCount)
    && |s.logs| <= LOG_CAPACITY
    && IdsValid(s.sent, s.messageId)
    && RequestsValid(s.requests)
  }

  // ------------------------------------------------------------ construction and tracking

  /** A freshly constructed manager (mcp-server.js lines 5-13). */
  function Fresh(): (s: ManagerState)
    ensures Valid(s)
  {
    ManagerState(None, 1, JArr([]), 0, [], [], false, [], [], [])
  }

  /** `addConsoleLog`: push an entry, dropping the oldest beyond 50. */
  function AddLog(s: ManagerState, message: string, data: Json, now: Timestamp): (r: ManagerState)
    ensures |s.logs| <= LOG_CAPACITY ==> |r.logs| <= LOG_CAPACITY
    ensures |r.logs| > 0 && r.logs[|r.logs| - 1] == LogEntry(now, message, data)
    ensures |s.logs| <= LOG_CAPACITY ==> r.logs == Bounded.LastN(s.logs + [LogEntry(now, message, data)], LOG_CAPACITY)
    ensures r == s.(logs := r.logs)
  {
    s.(logs := Bounded.Push(s.logs, LogEntry(now, message, data), LOG_CAPACITY))
  }

  /** The state after `trackToolCall` and the record it returns. */
  datatype Tracked = Tracked(state: ManagerState, call: ToolCallRecord)

  /**
   * `trackToolCall`: one more call in the lifetime count, a new executing record whose id
   * is that count appended to the history (oldest evicted beyond 20), and a 🔧 log entry.
   */
  function Track(s: ManagerState, tool: string, params: Json, now: Timestamp): (t: Tracked)
    ensures t.state.callCount == s.callCount + 1
    ensures t.call.id == t.state.callCount && t.call.status == Executing
    ensures t.call.tool == tool && t.call.params == params
    ensures t.call.result.None? && t.call.completedAt.None?
    ensures |t.state.history| > 0 && t.state.history[|t.state.history| - 1] == t.call
    ensures Valid(s) ==> Valid(t.state)
    ensures |t.state.logs| > 0 && t.state.logs[|t.state.logs| - 1] == LogEntry(now, TrackMessage(t.call.id, tool), params)
    ensures t.state == s.(callCount := t.state.callCount, history := t.state.history, logs := t.state.logs)
  {
    var n := s.callCount + 1;
    var call := ToolCallRecord(n, now, tool, params, Executing, None, None);
    var history := Bounded.Push(s.history, call, HISTORY_CAPACITY);
    TrackKeepsHistoryValid(s.history, s.callCount, call);
    Tracked(AddLog(s.(callCount := n, history := history), TrackMessage(n, tool), params, now), call)
  }

  lemma TrackKeepsHistoryValid(h: seq<ToolCallRecord>, count: nat, call: ToolCallRecord)
    requires call.id == count + 1
    ensures HistoryValid(h, count) ==> HistoryValid(Bounded.Push(h, call, HISTORY_CAPACITY), count + 1)
  {
    if !HistoryValid(h, count) { return; }
    var h' := Bounded.Push(h, call, HISTORY_CAPACITY);
    if |h| < HISTORY_CAPACITY {
      assert h' == h + [call];
    } else {
      assert h' == h[1..] + [call];
      forall i | 0 <= i < |h'| ensures h'[i].id == count + 1 - |h'| + 1 + i {
        if i < |h'| - 1 { assert h'[i] == h[i + 1]; }
      }
    }
  }

  /** The position of the first retained record with this id (`Array.prototype.find`). */
  function FindCall(history: seq<ToolCallRecord>, id: nat): (r: Option<nat>)
    ensures r.Some? ==> r.value < |history| && history[r.value].id == id
    ensures r.Some? ==> forall j :: 0 <= j < r.value ==> history[j].id != id
    ensures r.None? ==> forall j :: 0 <= j < |history| ==> history[j].id != id
  {
    if history == [] then None
    else if history[0].id == id then Some(0)
    else match FindCall(history[1..], id)
      case None => None
      case Some(j) => Some(j + 1)
  }

  /**
   * `updateToolCallStatus`: when a retained record has the id, set its status, result
   * and completion time, then log ✅ for completion or ❌ (with the result) for an error;
   * when no record has the id, nothing changes.
   */
  function UpdateStatus(s: ManagerState, id: nat, status: Status, result: Json, now: Timestamp): (r: ManagerState)
    ensures FindCall(s.history, id).None? ==> r == s
    ensures FindCall(s.history, id).Some? ==>
      var i := FindCall(s.history, id).value;
      && |r.history| == |s.history|
      && r.history[i] == s.history[i].(status := status, result := Some(result), completedAt := Some(now))
      && r.history == s.history[i := r.history[i]]
      && (forall j :: 0 <= j < |s.history| && j != i ==> r.history[j] == s.history[j])
      && r.logs == (match status
                    case Completed => AddLog(s, CompletedMessage(id), JNull, now).logs
                    case Error => AddLog(s, FailedMessage(id), result, now).logs
                    case Executing => s.logs)
    ensures r == s.(history := r.history, logs := r.logs)
    ensures Valid(s) ==> Valid(r)
  {
    match FindCall(s.history, id)
    case None => s
    case Some(i) =>
      var updated := s.history[i].(status := status, result := Some(result), completedAt := Some(now));
      var s1 := s.(history := s.history[i := updated]);
      assert HistoryValid(s.history, s.callCount) ==> HistoryValid(s1.history, s1.callCount);
      match status
      case Completed => AddLog(s1, CompletedMessage(id), JNull, now)
      case Error => AddLog(s1, FailedMessage(id), result, now)
      case Executing => s1
  }

  // ------------------------------------------------------------ summaries

  /** The number of retained records with this status (`filter(...).length`). */
  function CountStatus(history: seq<ToolCallRecord>, status: Status): (n: nat)
    ensures n <= |history|
  {
    if history == [] then 0
    else (if history[0].status == status then 1 else 0) + CountStatus(history[1..], status)
  }

  datatype ToolCallSummary = ToolCallSummary(
    totalCalls: nat, recentCalls: seq<ToolCallRecord>, completed: nat, executing: nat, error: nat)

  /** `getToolCalls` (lines 355-365). */
  function ToolCalls(s: ManagerState): (r: ToolCallSummary)
    ensures r.totalCalls == s.callCount && r.recentCalls == s.history
    ensures r.completed == CountStatus(s.history, Completed)
    ensures r.executing == CountStatus(s.history, Executing)
    ensures r.error == CountStatus(s.history, Error)
    ensures r.completed + r.executing + r.error == |s.history|
    ensures Valid(s) ==> |r.recentCalls| <= r.totalCalls
  {
    StatusesPartition(s.history);
    ToolCallSummary(s.callCount, s.history,
      CountStatus(s.history, Completed), CountStatus(s.history, Executing), CountStatus(s.history, Error))
  }

  /** Every retained record is counted under exactly one status. */
  lemma {:induction false} StatusesPartition(history: seq<ToolCallRecord>)
    ensures CountStatus(history, Completed) + CountStatus(history, Executing) + CountStatus(history, Error) == |history|
  {
    if history != [] {
      StatusesPartition(history[1..]);
    }
  }

  /** The message contains at least one of the markers. */
  predicate HasMarker(message: string, markers: seq<string>)
  {
    exists m :: m in markers && Contains(message, m)
  }

  /** The number of entries whose message contains one of the markers. */
  function CountMarked(logs: seq<LogEntry>, markers: seq<string>): (n: nat)
    ensures n <= |logs|
  {
    if logs == [] then 0
    else (if HasMarker(logs[0].message, markers) then 1 else 0) + CountMarked(logs[1..], markers)
  }

  const INFO_MARKERS := [OUTBOUND_MARK, INBOUND_MARK]
  const NOTIFICATION_MARKERS := [NOTIFICATION_MARK]
  const ERROR_MARKERS := [FAILURE_MARK, WARNING_MARK]
  const SUCCESS_MARKERS := [SUCCESS_MARK]

  datatype LogSummary = LogSummary(
    logs: seq<LogEntry>, totalLogs: nat, info: nat, notifications: nat, errors: nat, success: nat)

  /** JavaScript `.length`: defined on arrays and strings, undefined (None) on anything else. */
  function Length(j: Json): Option<nat>
  {
    match j
    case JArr(items) => Some(|items|)
    case JStr(t) => Some(|t|)
    case _ => None
  }

  datatype HealthStatus = HealthStatus(
    running: bool, availableTools: Option<nat>, totalCalls: nat, recentCalls: nat,
    completed: nat, error: nat, totalLogs: nat, recentLogs: nat)

  /** `getHealthStatus` (lines 380-399), without the clock and the process uptime. */
  function Health(s: ManagerState): (h: HealthStatus)
    ensures h.running <==> s.process.Some?
    ensures h.totalCalls == ToolCalls(s).totalCalls && h.recentCalls == |ToolCalls(s).recentCalls|
    ensures h.completed == ToolCalls(s).completed && h.error == ToolCalls(s).error
    ensures h.completed + h.error <= h.recentCalls
    ensures h.recentLogs == if |s.logs| < 10 then |s.logs| else 10
    ensures h.totalLogs == |s.logs| && h.recentLogs <= h.totalLogs
    ensures s.tools.JArr? ==> h.availableTools == Some(|s.tools.items|)
    ensures s.tools.JObj? || s.tools.JNum? || s.tools.JBool? ==> h.availableTools.None?
  {
    var summary := ToolCalls(s);
    HealthStatus(s.process.Some?, Length(s.tools), s.callCount, |s.history|,
      summary.completed, summary.error, |s.logs|, |Bounded.LastN(s.logs, 10)|)
  }

  /** `getConsoleLogs` (lines 367-378): four independent marker scans over the retained logs. */
  function ConsoleLogs(s: ManagerState): (r: LogSummary)
    ensures r.logs == s.logs && r.totalLogs == |s.logs|
    ensures r.info <= r.totalLogs && r.notifications <= r.totalLogs
    ensures r.errors <= r.totalLogs && r.success <= r.totalLogs
    ensures r.info == CountMarked(s.logs, [OUTBOUND_MARK, INBOUND_MARK])
    ensures r.notifications == CountMarked(s.logs, [NOTIFICATION_MARK])
    ensures r.errors == CountMarked(s.logs, [FAILURE_MARK, WARNING_MARK])
    ensures r.success == CountMarked(s.logs, [SUCCESS_MARK])
  {
    LogSummary(s.logs, |s.logs|,
      CountMarked(s.logs, INFO_MARKERS), CountMarked(s.logs, NOTIFICATION_MARKERS),
      CountMarked(s.logs, ERROR_MARKERS), CountMarked(s.logs, SUCCESS_MARKERS))
  }

  // ------------------------------------------------------------ lifecycle

  /** `reset` (lines 401-409): empties history, logs and tools and restarts both counters. */
  function Reset(s: ManagerState): (r: ManagerState)
    ensures r.history == [] && r.logs == [] && r.tools == JArr([])
    ensures r.callCount == 0 && r.messageId == 1
    ensures r.process == s.process && r.initialized == s.initialized
    ensures r.kills == s.kills && r.sent == s.sent && r.requests == s.requests
    ensures RequestsValid(s.requests) ==> Valid(r)
  {
    s.(history := [], callCount := 0, logs := [], tools := JArr([]), messageId := 1)
  }

  /** `cleanup` (lines 411-417): kill the child if there is one, then forget it. */
  function Cleanup(s: ManagerState): (r: ManagerState)
    ensures r.process.None? && !r.initialized
    ensures r.kills == if s.process.Some? then s.kills + [s.process.value] else s.kills
    ensures r == s.(process := None, initialized := false, kills := r.kills)
  {
    if s.process.Some? then
      s.(kills := s.kills + [s.process.value], process := None, initialized := false)
    else
      s.(initialized := false)
  }

  /**
   * The synchronous part of `initialize` (lines 86-121): clean up a running child, reset,
   * then keep the child just spawned; `None` when the configuration is missing.
   */
  function BeginInitialize(s: ManagerState, spawned: Option<ProcessHandle>): (r: ManagerState)
    ensures r.process == spawned
    ensures r.history == [] && r.logs == [] && r.callCount == 0 && r.messageId == 1
    ensures r.kills == if s.process.Some? then s.kills + [s.process.value] else s.kills
    ensures r.initialized == (s.initialized && s.process.None?)
    ensures r == s.(process := spawned, history := [], logs := [], callCount := 0, messageId := 1,
                    tools := JArr([]), kills := r.kills, initialized := r.initialized)
    ensures RequestsValid(s.requests) ==> Valid(r)
  {
    var cleaned := if s.process.Some? then Cleanup(s) else s;
    Reset(cleaned).(process := spawned)
  }

  /** The child's `close` event (lines 134-137): whichever child closed, the field is cleared. */
  function ProcessClosed(s: ManagerState, closed: ProcessHandle): (r: ManagerState)
    ensures r.process.None?
    ensures r == s.(process := None)
    ensures Valid(s) ==> Valid(r)
  {
    s.(process := None)
  }

  /** The JSON of a request frame as `JSON.stringify(request)` sees it. */
  function RequestJson(req: RpcRequest): Json
  {
    JObj([("jsonrpc", JStr("2.0")), ("id", JNum(req.id)), ("method", JStr(req.methodName)), ("params", req.params)])
  }

  /** Writes one frame with the next id from the shared counter. */
  function Send(s: ManagerState, name: string, params: Json): (r: ManagerState)
    ensures r.messageId == s.messageId + 1
    ensures r.sent == s.sent + [RpcRequest(s.messageId, name, params)]
    ensures r == s.(messageId := r.messageId, sent := r.sent)
    ensures IdsValid(s.sent, s.messageId) ==> IdsValid(r.sent, r.messageId)
  {
    SendKeepsIds(s.sent, s.messageId, RpcRequest(s.messageId, name, params));
    s.(messageId := s.messageId + 1, sent := s.sent + [RpcRequest(s.messageId, name, params)])
  }

  lemma SendKeepsIds(sent: seq<RpcRequest>, m: int, req: RpcRequest)
    requires req.id == m
    ensures IdsValid(sent, m) ==> IdsValid(sent + [req], m + 1)
  {
  }

  /**
   * `getAvailableTools` up to the point where it waits (lines 166-183, 230): without a
   * child it rejects at once; otherwise tools/list takes the next id, is written, and its
   * listener attached. The startup delay (lines 140-150) runs it when a child exists.
   */
  function RequestToolsList(s: ManagerState): (r: ManagerState)
    ensures s.process.None? ==> r == s
    ensures s.process.Some? ==>
      && r.sent == s.sent + [RpcRequest(s.messageId, "tools/list", JObj([]))]
      && r.requests == s.requests + [Request(s.messageId, s.process.value, true, Pending, ToolsList(""))]
      && r.messageId == s.messageId + 1
    ensures r == s.(messageId := r.messageId, sent := r.sent, requests := r.requests)
    ensures Valid(s) ==> Valid(r)
  {
    if s.process.None? then s
    else
      var sent := Send(s, "tools/list", JObj([]));
      sent.(requests := s.requests + [Request(s.messageId, s.process.value, true, Pending, ToolsList(""))])
  }

  /** The arguments frame of a tools/call request. */
  function CallParams(tool: string, params: Json): Json
  {
    JObj([("name", JStr(tool)), ("arguments", params)])
  }

  /** In a valid history the lifetime count names the newest record, and `find` reaches it. */
  lemma NewestCallFound(h: seq<ToolCallRecord>, count: nat)
    ensures HistoryValid(h, count) && count > 0 ==> FindCall(h, count) == Some(|h| - 1)
  {
    if HistoryValid(h, count) && count > 0 {
      assert h[|h| - 1].id == count;
      var i := FindCall(h, count).value;
      assert h[i].id == count - |h| + 1 + i;
    }
  }

  /** Two entries logged in turn: the log keeps the newest 50 of the old entries and the two. */
  lemma LogsTwice(logs: seq<LogEntry>, first: LogEntry, second: LogEntry)
    ensures |logs| <= LOG_CAPACITY ==>
              Bounded.Push(Bounded.Push(logs, first, LOG_CAPACITY), second, LOG_CAPACITY) ==
              Bounded.LastN(logs + [first, second], LOG_CAPACITY)
  {
    Bounded.LastNAppend(logs + [first], [second], LOG_CAPACITY);
    assert logs + [first] + [second] == logs + [first, second];
  }

  /** Without a child, the tracked call is marked as failed in place and a ❌ entry follows the 🔧 one. */
  lemma FailedCallRecorded(s: ManagerState, tool: string, params: Json, now: Timestamp)
    ensures Valid(s) ==>
            var t := Track(s, tool, params, now);
            var r := UpdateStatus(t.state, t.call.id, Error, JStr(NOT_AVAILABLE), now);
            && r.history == Bounded.Push(s.history, t.call.(status := Error, result := Some(JStr(NOT_AVAILABLE)), completedAt := Some(now)),
                                         HISTORY_CAPACITY)
            && r.logs == Bounded.LastN(s.logs + [LogEntry(now, TrackMessage(t.call.id, tool), params),
                                                 LogEntry(now, FailedMessage(t.call.id), JStr(NOT_AVAILABLE))], LOG_CAPACITY)
  {
    if Valid(s) {
      var t := Track(s, tool, params, now);
      NewestCallFound(t.state.history, t.state.callCount);
      Bounded.PushReplaceLast(s.history, t.call,
        t.call.(status := Error, result := Some(JStr(NOT_AVAILABLE)), completedAt := Some(now)), HISTORY_CAPACITY);
      LogsTwice(s.logs, LogEntry(now, TrackMessage(t.call.id, tool), params), LogEntry(now, FailedMessage(t.call.id), JStr(NOT_AVAILABLE)));
    }
  }

  /**
   * `callTool` up to the point where it waits (lines 243-267, 338-341): the call is
   * tracked; without a child it is marked as an error and no request id is used;
   * otherwise the request takes the next id, is logged, written, and its listener attached.
   */
  function CallTool(s: ManagerState, tool: string, params: Json, now: Timestamp): (r: ManagerState)
    ensures r.callCount == s.callCount + 1
    ensures s.process.None? ==> r.messageId == s.messageId && r.sent == s.sent && r.requests == s.requests
    ensures Valid(s) && s.process.None? ==>
      && |r.history| > 0
      && r.history[|r.history| - 1].id == r.callCount
      && r.history[|r.history| - 1].status == Error
      && r.history[|r.history| - 1].result == Some(JStr(NOT_AVAILABLE))
    ensures s.process.Some? ==>
      && r.messageId == s.messageId + 1
      && r.sent == s.sent + [RpcRequest(s.messageId, "tools/call", CallParams(tool, params))]
      && r.requests == s.requests + [Request(s.messageId, s.process.value, true, Pending, ToolCall(r.callCount, false))]
      && |r.history| > 0
      && r.history[|r.history| - 1] == ToolCallRecord(r.callCount, now, tool, params, Executing, None, None)
    ensures r == s.(callCount := r.callCount, history := r.history, logs := r.logs,
                    messageId := r.messageId, sent := r.sent, requests := r.requests)
    ensures s.process.Some? ==>
      r.history == Bounded.Push(s.history, ToolCallRecord(r.callCount, now, tool, params, Executing, None, None), HISTORY_CAPACITY)
    ensures s.process.Some? && |s.logs| <= LOG_CAPACITY ==>
      r.logs == Bounded.LastN(s.logs + [LogEntry(now, TrackMessage(r.callCount, tool), params),
                                        LogEntry(now, SENDING_MESSAGE, RequestJson(RpcRequest(s.messageId, "tools/call", CallParams(tool, params))))],
                              LOG_CAPACITY)
    ensures Valid(s) && s.process.None? ==>
      r.history == Bounded.Push(s.history, ToolCallRecord(r.callCount, now, tool, params, Error, Some(JStr(NOT_AVAILABLE)), Some(now)),
                                HISTORY_CAPACITY)
    ensures Valid(s) && s.process.None? ==>
      r.logs == Bounded.LastN(s.logs + [LogEntry(now, TrackMessage(r.callCount, tool), params),
                                        LogEntry(now, FailedMessage(r.callCount), JStr(NOT_AVAILABLE))],
                              LOG_CAPACITY)
    ensures Valid(s) ==> Valid(r)
  {
    var t := Track(s, tool, params, now);
    if s.process.None? then
      FailedCallRecorded(s, tool, params, now);
      UpdateStatus(t.state, t.call.id, Error, JStr(NOT_AVAILABLE), now)
    else
      var req := RpcRequest(s.messageId, "tools/call", CallParams(tool, params));
      LogsTwice(s.logs, LogEntry(now, TrackMessage(t.call.id, tool), params), LogEntry(now, SENDING_MESSAGE, RequestJson(req)));
      var logged := AddLog(t.state, SENDING_MESSAGE, RequestJson(req), now);
      var sent := Send(logged, "tools/call", CallParams(tool, params));
      sent.(requests := s.requests + [Request(s.messageId, s.process.value, true, Pending, ToolCall(t.call.id, false))])
  }

  // ------------------------------------------------------------ stdout data: tools/list

  /** What reading `response.result.tools` and listing the names does (lines 209-211). */
  datatype ToolsReply =
    | ToolsListed(tools: seq<Json>)    // stored and resolved
    | ToolsThrow(stored: Option<Json>)  // a TypeError, after storing `result.tools` when `stored` is present

  /**
   * `result.tools || []` is stored first; `.map(t => t.name)` then throws when the stored
   * value is not an array (it has no `map`) or holds a null.
   */
  function ReadTools(result: Option<Json>): (reply: ToolsReply)
    ensures reply.ToolsListed? && reply.tools != [] ==> result.Some? && Get(result.value, "tools") == Some(JArr(reply.tools))
    ensures reply.ToolsListed? ==> JNull !in reply.tools
    ensures reply.ToolsThrow? && reply.stored.Some? ==>
              && result.Some? && Get(result.value, "tools") == reply.stored
              && Truthy(reply.stored.value)
              && (!reply.stored.value.JArr? || JNull in reply.stored.value.items)
    ensures result.Some? && !result.value.JNull? && Get(result.value, "tools").Some? ==>
              var t := Get(result.value, "tools").value;
              Truthy(t) && !t.JArr? ==> reply == ToolsThrow(Some(t))
    ensures result.None? || result == Some(JNull) ==> reply == ToolsThrow(None)
    ensures result.Some? && !result.value.JNull? ==>
              var t := Get(result.value, "tools");
              && (t.None? || !Truthy(t.value) ==> reply == ToolsListed([]))
              && (t.Some? && t.value.JArr? && JNull !in t.value.items ==> reply == ToolsListed(t.value.items))
              && (t.Some? && t.value.JArr? && JNull in t.value.items ==> reply == ToolsThrow(t))
  {
    if result.None? || result.value.JNull? then ToolsThrow(None)
    else
      var t := Get(result.value, "tools");
      if t.None? || !Truthy(t.value) then ToolsListed([])
      else if !t.value.JArr? || JNull in t.value.items then ToolsThrow(Some(t.value))
      else ToolsListed(t.value.items)
  }

  /** `error.message || fallback` when the message is a string. */
  function ErrorMessage(error: Json, fallback: string): (m: string)
    ensures fallback != "" ==> m != ""
    ensures Get(error, "message") == Some(JStr(m)) || m == fallback
    ensures Get(error, "message").Some? && Get(error, "message").value.JStr? && Get(error, "message").value.s != "" ==>
              m == Get(error, "message").value.s
    ensures !(Get(error, "message").Some? && Get(error, "message").value.JStr? && Get(error, "message").value.s != "") ==>
              m == fallback
  {
    match Get(error, "message")
    case Some(JStr(m)) => if m != "" then m else fallback
    case _ => fallback
  }

  /** The error member is present and truthy (`if (response.error)`). */
  predicate HasError(f: Frame)
  {
    f.error.Some? && Truthy(f.error.value)
  }

  /** An argument that may be undefined, after a `= null` default. */
  function OrNull(v: Option<Json>): Json
  {
    if v.Some? then v.value else JNull
  }

  /** Settles a promise: only the first settlement counts. */
  function Settle(o: Outcome, settlement: Outcome): (r: Outcome)
    ensures o.Pending? ==> r == settlement
    ensures !o.Pending? ==> r == o
  {
    if o.Pending? then settlement else o
  }

  /** Once settled, a promise ignores every later settlement, and a settled outcome stays settled. */
  lemma SettleOnce(o: Outcome, first: Outcome, later: Outcome)
    requires !first.Pending?
    ensures !Settle(o, first).Pending?
    ensures Settle(Settle(o, first), later) == Settle(o, first)
    ensures !o.Pending? ==> Settle(o, first) == o
  {
  }

  predicate IsToolsList(s: ManagerState, k: nat)
  {
    k < |s.requests| && s.requests[k].kind.ToolsList?
  }

  predicate IsToolCall(s: ManagerState, k: nat)
  {
    k < |s.requests| && s.requests[k].kind.ToolCall?
  }

  /**
   * The response to request `id` carried by a line of tools/list data: the line is not
   * blank once trimmed, the trimmed text parses, and the frame has that id.
   */
  function ToolsResponse(line: string, codec: Codec, id: int): (f: Option<Frame>)
    ensures f.Some? <==> Trim(line) != "" && codec.parse(Trim(line)).Some? && codec.parse(Trim(line)).value.id == Some(id)
    ensures f.Some? ==> codec.parse(Trim(line)) == f
  {
    var l := Trim(line);
    if l == "" then None
    else match codec.parse(l)
      case None => None
      case Some(f) => if f.id == Some(id) then Some(f) else None
  }

  /**
   * How a tools/list response settles the promise (lines 206-211): an error rejects with
   * its message or 'Failed to get tools list', a readable tool list resolves with it;
   * none when reading the tools throws.
   */
  function ToolsSettlement(f: Frame): (o: Option<Outcome>)
    ensures HasError(f) ==> o == Some(Rejected(ErrorMessage(f.error.value, "Failed to get tools list")))
    ensures !HasError(f) && ReadTools(f.result).ToolsListed? ==> o == Some(Resolved(JArr(ReadTools(f.result).tools)))
    ensures !HasError(f) && ReadTools(f.result).ToolsThrow? ==> o.None?
  {
    if HasError(f) then Some(Rejected(ErrorMessage(f.error.value, "Failed to get tools list")))
    else match ReadTools(f.result)
      case ToolsListed(tools) => Some(Resolved(JArr(tools)))
      case ToolsThrow(_) => None
  }

  /** The line is the response to request `id` and settles its promise. */
  predicate SettlesTools(line: string, codec: Codec, id: int)
  {
    ToolsResponse(line, codec, id).Some? && ToolsSettlement(ToolsResponse(line, codec, id).value).Some?
  }

  /** The index of the first true flag, or `|flags|`. */
  function FirstTrue(flags: seq<bool>): (i: nat)
    ensures i <= |flags|
    ensures i < |flags| ==> flags[i]
    ensures forall j :: 0 <= j < i ==> !flags[j]
    decreases |flags|
  {
    if flags == [] || flags[0] then 0 else 1 + FirstTrue(flags[1..])
  }

  /** Which lines settle the promise of request `id`. */
  function SettlingFlags(lines: seq<string>, codec: Codec, id: int): (flags: seq<bool>)
    ensures |flags| == |lines|
    ensures forall j :: 0 <= j < |lines| ==> flags[j] == SettlesTools(lines[j], codec, id)
  {
    seq(|lines|, j requires 0 <= j < |lines| => SettlesTools(lines[j], codec, id))
  }

  /** The index of the first line that settles the promise of request `id`, or `|lines|`. */
  function FirstSettling(lines: seq<string>, codec: Codec, id: int): (i: nat)
    ensures i <= |lines|
    ensures i < |lines| ==> SettlesTools(lines[i], codec, id)
    ensures forall j :: 0 <= j < i ==> !SettlesTools(lines[j], codec, id)
  {
    FirstTrue(SettlingFlags(lines, codec, id))
  }

  /** The scan for a settling line, one line at a time. */
  lemma FirstSettlingCons(lines: seq<string>, codec: Codec, id: int)
    requires lines != []
    ensures FirstSettling(lines, codec, id) ==
              if SettlesTools(lines[0], codec, id) then 0 else 1 + FirstSettling(lines[1..], codec, id)
  {
    assert SettlingFlags(lines, codec, id)[1..] == SettlingFlags(lines[1..], codec, id);
  }

  /** After one line, the tools/list scan either stops or goes on with the next line. */
  datatype LineStep = Stop(state: ManagerState) | Continue(state: ManagerState)

  /**
   * One complete line of a tools/list data event (lines 193-220): a blank or
   * unparseable line, or a frame for another id, is skipped; the frame with the
   * request's id detaches the listener and settles the promise, except when reading its
   * tools throws, which is skipped like a malformed line.
   */
  function ToolsLine(s: ManagerState, codec: Codec, k: nat, line: string): (r: LineStep)
    requires IsToolsList(s, k)
    ensures |r.state.requests| == |s.requests| && IsToolsList(r.state, k)
    ensures r.state.requests[k].id == s.requests[k].id && r.state.requests[k].proc == s.requests[k].proc
    ensures r.state.requests[k].kind == s.requests[k].kind
    ensures forall j :: 0 <= j < |s.requests| && j != k ==> r.state.requests[j] == s.requests[j]
    ensures r.Continue? ==> r.state.requests[k].outcome == s.requests[k].outcome
    ensures !s.requests[k].outcome.Pending? ==> r.state.requests[k].outcome == s.requests[k].outcome
    ensures r.state == s.(requests := r.state.requests, tools := r.state.tools, initialized := r.state.initialized)
    ensures r.state.initialized <==> s.initialized || (s.requests[k].outcome.Pending? && r.state.requests[k].outcome.Resolved?)
    ensures ToolsResponse(line, codec, s.requests[k].id).None? ==> r == Continue(s)
    ensures ToolsResponse(line, codec, s.requests[k].id).Some? ==> !r.state.requests[k].listening
    ensures r.Stop? <==> SettlesTools(line, codec, s.requests[k].id)
    ensures r.Stop? ==>
              var o := ToolsSettlement(ToolsResponse(line, codec, s.requests[k].id).value).value;
              && r.state.requests[k].outcome == Settle(s.requests[k].outcome, o)
              && r.state.tools == (if o.Resolved? then o.value else s.tools)
    ensures ToolsResponse(line, codec, s.requests[k].id).Some? && r.Continue? ==>
              var stored := ReadTools(ToolsResponse(line, codec, s.requests[k].id).value.result).stored;
              r.state.tools == (if stored.Some? then stored.value else s.tools)
  {
    var req := s.requests[k];
    var l := Trim(line);
    var f := codec.parse(l);
    if l == "" || f.None? || f.value.id != Some(req.id) then Continue(s)
    else if HasError(f.value) then
      var msg := ErrorMessage(f.value.error.value, "Failed to get tools list");
      Stop(s.(requests := s.requests[k := req.(listening := false, outcome := Settle(req.outcome, Rejected(msg)))]))
    else match ReadTools(f.value.result)
      case ToolsListed(tools) =>
        Stop(s.(tools := JArr(tools),
                initialized := s.initialized || req.outcome.Pending?,
                requests := s.requests[k := req.(listening := false, outcome := Settle(req.outcome, Resolved(JArr(tools))))]))
      case ToolsThrow(stored) =>
        var detached := s.(requests := s.requests[k := req.(listening := false)]);
        Continue(if stored.Some? then detached.(tools := stored.value) else detached)
  }

  /**
   * The complete lines of one tools/list data event, from the first onwards, until one
   * settles the promise. When none does, the carried-over piece becomes the buffer.
   */
  function ToolsLines(s: ManagerState, codec: Codec, k: nat, lines: seq<string>, rest: string): (r: ManagerState)
    requires IsToolsList(s, k)
    ensures |r.requests| == |s.requests| && IsToolsList(r, k)
    ensures r.requests[k].id == s.requests[k].id && r.requests[k].proc == s.requests[k].proc
    ensures forall j :: 0 <= j < |s.requests| && j != k ==> r.requests[j] == s.requests[j]
    ensures !s.requests[k].outcome.Pending? ==> r.requests[k].outcome == s.requests[k].outcome
    ensures r == s.(requests := r.requests, tools := r.tools, initialized := r.initialized)
    ensures !s.initialized ==> (r.initialized <==> s.requests[k].outcome.Pending? && r.requests[k].outcome.Resolved?)
    ensures Valid(s) ==> Valid(r)
    decreases |lines|
  {
    if lines == [] then s.(requests := s.requests[k := s.requests[k].(kind := ToolsList(rest))])
    else match ToolsLine(s, codec, k, lines[0])
      case Stop(t) => t
      case Continue(t) => ToolsLines(t, codec, k, lines[1..], rest)
  }

  /**
   * The first line that settles the promise decides the outcome, detaches the listener
   * and keeps the buffer; when none does, the outcome is unchanged and the trailing piece
   * becomes the buffer; with no response line at all only the buffer changes.
   */
  lemma {:induction false} ToolsLinesSettling(s: ManagerState, codec: Codec, k: nat, lines: seq<string>, rest: string)
    requires IsToolsList(s, k)
    ensures var r := ToolsLines(s, codec, k, lines, rest);
            FirstSettling(lines, codec, s.requests[k].id) == |lines| ==>
              r.requests[k].kind == ToolsList(rest) && r.requests[k].outcome == s.requests[k].outcome
    ensures var r := ToolsLines(s, codec, k, lines, rest);
            var i := FirstSettling(lines, codec, s.requests[k].id);
            i < |lines| ==>
              var o := ToolsSettlement(ToolsResponse(lines[i], codec, s.requests[k].id).value).value;
              && r.requests[k].kind == s.requests[k].kind && !r.requests[k].listening
              && r.requests[k].outcome == Settle(s.requests[k].outcome, o)
              && (o.Resolved? ==> r.tools == o.value)
    ensures NoToolsResponse(lines, codec, s.requests[k].id) ==>
              ToolsLines(s, codec, k, lines, rest) == s.(requests := s.requests[k := s.requests[k].(kind := ToolsList(rest))])
    decreases |lines|
  {
    if lines != [] {
      var id := s.requests[k].id;
      var step := ToolsLine(s, codec, k, lines[0]);
      NoToolsResponseCons(lines, codec, id);
      FirstSettlingCons(lines, codec, id);
      if step.Stop? {
        assert ToolsLines(s, codec, k, lines, rest) == step.state;
      } else {
        var tail := lines[1..];
        assert ToolsLines(s, codec, k, lines, rest) == ToolsLines(step.state, codec, k, tail, rest);
        ToolsLinesSettling(step.state, codec, k, tail, rest);
        var j := FirstSettling(tail, codec, id);
        assert j < |tail| ==> lines[1 + j] == tail[j];
        if ToolsResponse(lines[0], codec, id).None? {
          assert step.state == s;
        }
      }
    }
  }

  /** The tools/list listener stays attached exactly when no line of the event is a response to it. */
  lemma {:induction false} ToolsLinesListening(s: ManagerState, codec: Codec, k: nat, lines: seq<string>, rest: string)
    requires IsToolsList(s, k)
    ensures ToolsLines(s, codec, k, lines, rest).requests[k].listening <==>
              s.requests[k].listening && NoToolsResponse(lines, codec, s.requests[k].id)
    decreases |lines|
  {
    if lines != [] {
      var id := s.requests[k].id;
      var step := ToolsLine(s, codec, k, lines[0]);
      var tail := lines[1..];
      NoToolsResponseCons(lines, codec, id);
      if step.Stop? {
        assert ToolsLines(s, codec, k, lines, rest) == step.state;
        assert ToolsResponse(lines[0], codec, id).Some?;
      } else {
        assert ToolsLines(s, codec, k, lines, rest) == ToolsLines(step.state, codec, k, tail, rest);
        ToolsLinesListening(step.state, codec, k, tail, rest);
      }
    }
  }

  /** No line is a frame with the request's id. */
  predicate NoToolsResponse(lines: seq<string>, codec: Codec, id: int)
  {
    forall i :: 0 <= i < |lines| ==> ToolsResponse(lines[i], codec, id).None?
  }

  lemma NoToolsResponseCons(lines: seq<string>, codec: Codec, id: int)
    requires lines != []
    ensures NoToolsResponse(lines, codec, id) <==> ToolsResponse(lines[0], codec, id).None? && NoToolsResponse(lines[1..], codec, id)
  {
    var tail := lines[1..];
    assert forall i :: 0 <= i < |tail| ==> tail[i] == lines[1 + i];
  }

  /**
   * One data event for a tools/list listener: append the chunk to its buffer and process
   * the complete lines; the buffer keeps the whole text when a line settles the request.
   */
  function ToolsChunk(s: ManagerState, codec: Codec, k: nat, chunk: string): (r: ManagerState)
    requires IsToolsList(s, k)
    ensures |r.requests| == |s.requests|
    ensures forall j :: 0 <= j < |s.requests| && j != k ==> r.requests[j] == s.requests[j]
    ensures r == s.(requests := r.requests, tools := r.tools, initialized := r.initialized)
    ensures IsToolsList(r, k) && r.requests[k].id == s.requests[k].id && r.requests[k].proc == s.requests[k].proc
    ensures var fed := LineBuffer.Feed(s.requests[k].kind.buffer, chunk);
            r.requests[k].listening <==> s.requests[k].listening && NoToolsResponse(fed.complete, codec, s.requests[k].id)
    ensures var fed := LineBuffer.Feed(s.requests[k].kind.buffer, chunk);
            FirstSettling(fed.complete, codec, s.requests[k].id) == |fed.complete| ==>
              r.requests[k].kind == ToolsList(fed.rest) && r.requests[k].outcome == s.requests[k].outcome
    ensures var fed := LineBuffer.Feed(s.requests[k].kind.buffer, chunk);
            var i := FirstSettling(fed.complete, codec, s.requests[k].id);
            i < |fed.complete| ==>
              var o := ToolsSettlement(ToolsResponse(fed.complete[i], codec, s.requests[k].id).value).value;
              && r.requests[k].kind == ToolsList(s.requests[k].kind.buffer + chunk) && !r.requests[k].listening
              && r.requests[k].outcome == Settle(s.requests[k].outcome, o)
              && (o.Resolved? ==> r.tools == o.value)
    ensures Valid(s) ==> Valid(r)
  {
    var req := s.requests[k];
    var fed := LineBuffer.Feed(req.kind.buffer, chunk);
    ToolsLinesListening(s.(requests := s.requests[k := req.(kind := ToolsList(req.kind.buffer + chunk))]), codec, k, fed.complete, fed.rest);
    ToolsLinesSettling(s.(requests := s.requests[k := req.(kind := ToolsList(req.kind.buffer + chunk))]), codec, k, fed.complete, fed.rest);
    ToolsLines(s.(requests := s.requests[k := req.(kind := ToolsList(req.kind.buffer + chunk))]), codec, k, fed.complete, fed.rest)
  }

  // ------------------------------------------------------------ stdout data: tools/call

  /** What the notification branch does with `params.data` (lines 283-299). */
  datatype NotificationAction = LogIt(data: Json) | Quiet | ThrowsTypeError

  const ERROR_TERMS := ["error", "Error", "ERROR"]

  /**
   * A notification is logged unless its data, or the JSON text of non-string data,
   * contains an error term; undefined data makes `JSON.stringify` return undefined and
   * the `includes` call throw.
   */
  function Notification(data: Option<Json>, codec: Codec): (a: NotificationAction)
    ensures a.LogIt? ==> data == Some(a.data)
    ensures data.None? <==> a.ThrowsTypeError?
    ensures a.Quiet? <==> data.Some? && HasMarker(NotificationText(data.value, codec), ERROR_TERMS)
  {
    match data
    case None => ThrowsTypeError
    case Some(d) =>
      if HasMarker(NotificationText(d, codec), ERROR_TERMS) then Quiet else LogIt(d)
  }

  /** The text searched for error terms: a string as it is, anything else as its JSON text. */
  function NotificationText(d: Json, codec: Codec): string
  {
    if d.JStr? then d.s else codec.stringify(d)
  }

  const NOTIFICATION_METHOD := "notifications/message"

  /** What one line of a tools/call data event is to the listener of request `id`. */
  datatype LineKind = Blank | Malformed | Notice(action: NotificationAction) | Response(frame: Frame) | Other

  function ClassifyLine(line: string, codec: Codec, id: int): (kind: LineKind)
    ensures kind.Response? ==> codec.parse(line) == Some(kind.frame) && kind.frame.id == Some(id)
    ensures kind.Response? ==> kind.frame.methodName != Some(NOTIFICATION_METHOD)
    ensures kind.Blank? <==> Trim(line) == ""
    ensures kind.Response? <==>
              && Trim(line) != "" && codec.parse(line).Some?
              && codec.parse(line).value.methodName != Some(NOTIFICATION_METHOD)
              && codec.parse(line).value.id == Some(id)
    ensures kind.Malformed? <==> Trim(line) != "" && codec.parse(line).None?
    ensures kind.Notice? <==>
              Trim(line) != "" && codec.parse(line).Some? && codec.parse(line).value.methodName == Some(NOTIFICATION_METHOD)
  {
    if Trim(line) == "" then Blank
    else match codec.parse(line)
      case None => Malformed
      case Some(f) =>
        if f.methodName == Some(NOTIFICATION_METHOD) then Notice(Notification(f.data, codec))
        else if f.id == Some(id) then Response(f)
        else Other
  }

  /** How a response settles the tools/call promise (lines 319-325). */
  function CallOutcome(f: Frame): Outcome
  {
    if HasError(f) then Rejected(ErrorMessage(f.error.value, "MCP Server error")) else Resolved(OrNull(f.result))
  }

  /** The status a response gives the tracked call: 'error' or 'completed'. */
  function CallStatus(f: Frame): Status
  {
    if HasError(f) then Error else Completed
  }

  /** What a response records as the tracked call's result: the error object, or the result. */
  function CallResult(f: Frame): Json
  {
    if HasError(f) then f.error.value else OrNull(f.result)
  }

  /**
   * `after` is `before` once `updateToolCallStatus(id, status, result)` has run: the
   * record `find` locates, if any, takes the status, result and time; the others are kept.
   */
  predicate Recorded(before: seq<ToolCallRecord>, after: seq<ToolCallRecord>, id: nat, status: Status, result: Json, now: Timestamp)
  {
    && |after| == |before|
    && forall j :: 0 <= j < |before| ==>
         after[j] == (if FindCall(before, id) == Some(j)
                      then before[j].(status := status, result := Some(result), completedAt := Some(now))
                      else before[j])
  }

  /**
   * Request `k` of `s` has been answered by `f` in `r`: it is resolved, detached and
   * settled by `f`, and its tracked call records the outcome.
   */
  predicate Answered(s: ManagerState, r: ManagerState, k: nat, f: Frame, now: Timestamp)
    requires IsToolCall(s, k)
  {
    var req := s.requests[k];
    && |r.requests| == |s.requests|
    && r.requests[k] == req.(listening := false, outcome := CallOutcome(f), kind := ToolCall(req.kind.callId, true))
    && Recorded(s.history, r.history, req.kind.callId, CallStatus(f), CallResult(f), now)
  }

  /**
   * The matching response (lines 303-326): log it, mark the request resolved and detach
   * its listener, then record the outcome on the tracked call and settle the promise.
   */
  function Respond(s: ManagerState, k: nat, f: Frame, now: Timestamp): (r: ManagerState)
    requires IsToolCall(s, k) && !s.requests[k].kind.isResolved
    ensures |r.requests| == |s.requests| && IsToolCall(r, k)
    ensures r.requests[k] == s.requests[k].(listening := false, outcome := r.requests[k].outcome,
                                            kind := ToolCall(s.requests[k].kind.callId, true))
    ensures HasError(f) ==> r.requests[k].outcome == Rejected(ErrorMessage(f.error.value, "MCP Server error"))
    ensures !HasError(f) ==> r.requests[k].outcome == Resolved(OrNull(f.result))
    ensures forall j :: 0 <= j < |s.requests| && j != k ==> r.requests[j] == s.requests[j]
    ensures r.callCount == s.callCount && r.process == s.process && r.sent == s.sent && r.messageId == s.messageId
    ensures r.tools == s.tools && r.initialized == s.initialized && r.kills == s.kills
    ensures Answered(s, r, k, f, now)
    ensures r == s.(requests := r.requests, history := r.history, logs := r.logs)
    ensures Valid(s) ==> Valid(r)
  {
    var req := s.requests[k];
    var logged := AddLog(s, RESULT_MESSAGE, OrNull(f.result), now);
    var outcome := if HasError(f) then Rejected(ErrorMessage(f.error.value, "MCP Server error"))
                   else Resolved(OrNull(f.result));
    var marked := logged.(requests := s.requests[k := req.(listening := false, outcome := outcome,
                                                           kind := ToolCall(req.kind.callId, true))]);
    if HasError(f) then UpdateStatus(marked, req.kind.callId, Error, f.error.value, now)
    else UpdateStatus(marked, req.kind.callId, Completed, OrNull(f.result), now)
  }

  /** What each line is to the listener of request `id`. */
  function LineKinds(lines: seq<string>, codec: Codec, id: int): (kinds: seq<LineKind>)
    ensures |kinds| == |lines|
    ensures forall j :: 0 <= j < |lines| ==> kinds[j] == ClassifyLine(lines[j], codec, id)
  {
    seq(|lines|, j requires 0 <= j < |lines| => ClassifyLine(lines[j], codec, id))
  }

  /** Which of the kinds are responses. */
  function ResponseKinds(kinds: seq<LineKind>): (flags: seq<bool>)
    ensures |flags| == |kinds|
    ensures forall j :: 0 <= j < |kinds| ==> flags[j] == kinds[j].Response?
  {
    seq(|kinds|, j requires 0 <= j < |kinds| => kinds[j].Response?)
  }

  /** The frame of the first response among the kinds, if any. */
  function FirstFrame(kinds: seq<LineKind>): Option<Frame>
    decreases |kinds|
  {
    if kinds == [] then None
    else if kinds[0].Response? then Some(kinds[0].frame)
    else FirstFrame(kinds[1..])
  }

  /** The first frame is the one at the first response index. */
  lemma {:induction false} FirstFrameAt(kinds: seq<LineKind>)
    ensures var i := FirstTrue(ResponseKinds(kinds));
            FirstFrame(kinds) == if i < |kinds| then Some(kinds[i].frame) else None
    decreases |kinds|
  {
    if kinds != [] && !kinds[0].Response? {
      var tail := kinds[1..];
      FirstFrameAt(tail);
      assert ResponseKinds(kinds)[1..] == ResponseKinds(tail);
      var j := FirstTrue(ResponseKinds(tail));
      assert j < |tail| ==> kinds[1 + j] == tail[j];
    }
  }

  /** The index of the first line that is the response to request `id`, or `|lines|`. */
  function FirstResponse(lines: seq<string>, codec: Codec, id: int): (i: nat)
    ensures i <= |lines|
    ensures i < |lines| ==> ClassifyLine(lines[i], codec, id).Response?
    ensures forall j :: 0 <= j < i ==> !ClassifyLine(lines[j], codec, id).Response?
  {
    FirstTrue(ResponseKinds(LineKinds(lines, codec, id)))
  }

  /** The scan for the response, one line at a time. */
  lemma FirstResponseCons(lines: seq<string>, codec: Codec, id: int)
    requires lines != []
    ensures FirstResponse(lines, codec, id) ==
              if ClassifyLine(lines[0], codec, id).Response? then 0 else 1 + FirstResponse(lines[1..], codec, id)
  {
    assert LineKinds(lines, codec, id)[1..] == LineKinds(lines[1..], codec, id);
    assert ResponseKinds(LineKinds(lines, codec, id))[1..] == ResponseKinds(LineKinds(lines[1..], codec, id));
  }

  /** The frame of the first response line, if any. */
  function FirstResponseFrame(lines: seq<string>, codec: Codec, id: int): (f: Option<Frame>)
    ensures var i := FirstResponse(lines, codec, id);
            f == if i < |lines| then Some(ClassifyLine(lines[i], codec, id).frame) else None
  {
    FirstFrameAt(LineKinds(lines, codec, id));
    FirstFrame(LineKinds(lines, codec, id))
  }

  /** The first response frame, one line at a time. */
  lemma FirstResponseFrameCons(lines: seq<string>, codec: Codec, id: int)
    requires lines != []
    ensures FirstResponseFrame(lines, codec, id) ==
              if ClassifyLine(lines[0], codec, id).Response? then Some(ClassifyLine(lines[0], codec, id).frame)
              else FirstResponseFrame(lines[1..], codec, id)
  {
    assert LineKinds(lines, codec, id)[1..] == LineKinds(lines[1..], codec, id);
  }

  /**
   * The lines of one chunk, from the first onwards (lines 275-334): blank lines are
   * skipped, unparseable ones logged as malformed, notifications logged or not and
   * skipped, frames for other ids ignored; the first frame with the request's id ends
   * the scan.
   */
  function CallLines(s: ManagerState, codec: Codec, k: nat, lines: seq<string>, now: Timestamp): (r: ManagerState)
    requires IsToolCall(s, k) && !s.requests[k].kind.isResolved
    ensures |r.requests| == |s.requests| && IsToolCall(r, k)
    ensures forall j :: 0 <= j < |s.requests| && j != k ==> r.requests[j] == s.requests[j]
    ensures r.callCount == s.callCount && r.process == s.process && r.sent == s.sent && r.messageId == s.messageId
    ensures r.tools == s.tools && r.initialized == s.initialized && r.kills == s.kills
    ensures r == s.(requests := r.requests, history := r.history, logs := r.logs)
    ensures Valid(s) ==> Valid(r)
    decreases |lines|
  {
    if lines == [] then s
    else
      var kind := ClassifyLine(lines[0], codec, s.requests[k].id);
      if kind.Response? then Respond(s, k, kind.frame, now)
      else CallLines(SkipLine(s, lines[0], kind, now), codec, k, lines[1..], now)
  }

  /**
   * The first response line decides: it answers the request and the lines after it are
   * not read; with no response line only the console log changes, and the request stays
   * unresolved.
   */
  lemma {:induction false} CallLinesAnswer(s: ManagerState, codec: Codec, k: nat, lines: seq<string>, now: Timestamp)
    requires IsToolCall(s, k) && !s.requests[k].kind.isResolved
    ensures var r := CallLines(s, codec, k, lines, now);
            FirstResponseFrame(lines, codec, s.requests[k].id).None? ==> r == s.(logs := r.logs)
    ensures var r := CallLines(s, codec, k, lines, now);
            var f := FirstResponseFrame(lines, codec, s.requests[k].id);
            f.Some? ==> Answered(s, r, k, f.value, now)
    decreases |lines|
  {
    if lines != [] {
      var id := s.requests[k].id;
      var kind := ClassifyLine(lines[0], codec, id);
      FirstResponseFrameCons(lines, codec, id);
      if kind.Response? {
        assert CallLines(s, codec, k, lines, now) == Respond(s, k, kind.frame, now);
      } else {
        var t := SkipLine(s, lines[0], kind, now);
        assert CallLines(s, codec, k, lines, now) == CallLines(t, codec, k, lines[1..], now);
        CallLinesAnswer(t, codec, k, lines[1..], now);
        assert t.requests == s.requests && t.history == s.history;
      }
    }
  }

  /** A line that does not answer the request: at most one console entry. */
  function SkipLine(s: ManagerState, line: string, kind: LineKind, now: Timestamp): (r: ManagerState)
    requires !kind.Response?
    ensures r == s.(logs := r.logs)
    ensures |s.logs| <= LOG_CAPACITY ==> |r.logs| <= LOG_CAPACITY
  {
    match kind
    case Malformed => AddLog(s, MALFORMED_MESSAGE, JStr(line), now)
    case Notice(LogIt(d)) => AddLog(s, NOTIFICATION_MESSAGE, d, now)
    case Notice(ThrowsTypeError) => AddLog(s, MALFORMED_MESSAGE, JStr(line), now)
    case _ => s
  }

  /** One data event for a tools/call listener: nothing once resolved, otherwise its own chunk split on '\n'. */
  function CallChunk(s: ManagerState, codec: Codec, k: nat, chunk: string, now: Timestamp): (r: ManagerState)
    requires IsToolCall(s, k)
    ensures s.requests[k].kind.isResolved ==> r == s
    ensures |r.requests| == |s.requests|
    ensures forall j :: 0 <= j < |s.requests| && j != k ==> r.requests[j] == s.requests[j]
    ensures r == s.(requests := r.requests, history := r.history, logs := r.logs)
    ensures !s.requests[k].kind.isResolved ==>
              var lines := Split(chunk, '\n');
              var i := FirstResponse(lines, codec, s.requests[k].id);
              && (i == |lines| ==> r == s.(logs := r.logs))
              && (i < |lines| ==> Answered(s, r, k, ClassifyLine(lines[i], codec, s.requests[k].id).frame, now))
    ensures Valid(s) ==> Valid(r)
  {
    if s.requests[k].kind.isResolved then s
    else
      CallLinesAnswer(s, codec, k, Split(chunk, '\n'), now);
      CallLines(s, codec, k, Split(chunk, '\n'), now)
  }

  // ------------------------------------------------------------ stdout data: dispatch

  /** Runs the listener of request `k` on a chunk. */
  function HandleChunk(s: ManagerState, codec: Codec, k: nat, chunk: string, now: Timestamp): (r: ManagerState)
    requires k < |s.requests|
    ensures |r.requests| == |s.requests|
    ensures forall j :: 0 <= j < |s.requests| && j != k ==> r.requests[j] == s.requests[j]
    ensures r.process == s.process && r.sent == s.sent && r.messageId == s.messageId
    ensures Valid(s) ==> Valid(r)
  {
    if s.requests[k].kind.ToolsList? then ToolsChunk(s, codec, k, chunk)
    else CallChunk(s, codec, k, chunk, now)
  }

  /** What a listener makes of a chunk depends on its own request only, not on the rest of the state. */
  lemma HandleChunkLocal(s: ManagerState, t: ManagerState, codec: Codec, k: nat, chunk: string, now: Timestamp)
    requires k < |s.requests| && k < |t.requests| && s.requests[k] == t.requests[k]
    ensures HandleChunk(s, codec, k, chunk, now).requests[k] == HandleChunk(t, codec, k, chunk, now).requests[k]
  {
    var a := HandleChunk(s, codec, k, chunk, now);
    var b := HandleChunk(t, codec, k, chunk, now);
    if s.requests[k].kind.ToolsList? {
      assert a.requests[k].kind == b.requests[k].kind;
      assert a.requests[k].outcome == b.requests[k].outcome;
    } else if !s.requests[k].kind.isResolved {
      var lines := Split(chunk, '\n');
      var i := FirstResponse(lines, codec, s.requests[k].id);
      if i < |lines| {
        assert Answered(s, a, k, ClassifyLine(lines[i], codec, s.requests[k].id).frame, now);
        assert Answered(t, b, k, ClassifyLine(lines[i], codec, s.requests[k].id).frame, now);
      }
    }
  }

  /** The same, for every request index at once. */
  lemma HandleChunkLocalAll(s: ManagerState, t: ManagerState, codec: Codec, chunk: string, now: Timestamp)
    ensures forall j :: 0 <= j < |s.requests| && j < |t.requests| && s.requests[j] == t.requests[j] ==>
              HandleChunk(s, codec, j, chunk, now).requests[j] == HandleChunk(t, codec, j, chunk, now).requests[j]
  {
    forall j | 0 <= j < |s.requests| && j < |t.requests| && s.requests[j] == t.requests[j]
      ensures HandleChunk(s, codec, j, chunk, now).requests[j] == HandleChunk(t, codec, j, chunk, now).requests[j]
    {
      HandleChunkLocal(s, t, codec, j, chunk, now);
    }
  }

  /** The listener of request `k` is attached to the stdout of `proc`. */
  predicate ListensOn(s: ManagerState, k: nat, proc: ProcessHandle)
  {
    k < |s.requests| && s.requests[k].listening && s.requests[k].proc == proc
  }

  /**
   * Delivers a chunk to the listeners of requests `k` onwards, in the order they were
   * attached, each only while it listens on the stdout of `proc`.
   */
  function DispatchFrom(s: ManagerState, codec: Codec, proc: ProcessHandle, chunk: string, now: Timestamp, k: nat): (r: ManagerState)
    ensures |r.requests| == |s.requests|
    ensures forall j :: 0 <= j < k && j < |s.requests| ==> r.requests[j] == s.requests[j]
    ensures forall j :: k <= j < |s.requests| && !ListensOn(s, j, proc) ==> r.requests[j] == s.requests[j]
    ensures forall j :: k <= j < |s.requests| && ListensOn(s, j, proc) ==>
              r.requests[j] == HandleChunk(s, codec, j, chunk, now).requests[j]
    ensures r.process == s.process && r.sent == s.sent && r.messageId == s.messageId
    ensures Valid(s) ==> Valid(r)
    decreases |s.requests| - k
  {
    if k >= |s.requests| then s
    else
      var next := if ListensOn(s, k, proc) then HandleChunk(s, codec, k, chunk, now) else s;
      HandleChunkLocalAll(next, s, codec, chunk, now);
      DispatchFrom(next, codec, proc, chunk, now, k + 1)
  }

  /** A chunk of the running child's stdout reaches every listener attached to it. */
  function DataArrived(s: ManagerState, codec: Codec, chunk: string, now: Timestamp): (r: ManagerState)
    ensures s.process.None? ==> r == s
    ensures |r.requests| == |s.requests|
    ensures s.process.Some? ==>
              forall j :: 0 <= j < |s.requests| && !ListensOn(s, j, s.process.value) ==> r.requests[j] == s.requests[j]
    ensures s.process.Some? ==>
              forall j :: 0 <= j < |s.requests| && ListensOn(s, j, s.process.value) ==>
                r.requests[j] == HandleChunk(s, codec, j, chunk, now).requests[j]
    ensures r.process == s.process && r.sent == s.sent && r.messageId == s.messageId
    ensures Valid(s) ==> Valid(r)
  {
    if s.process.None? then s else DispatchFrom(s, codec, s.process.value, chunk, now, 0)
  }

  // ------------------------------------------------------------ timers

  /**
   * The tools/list timer (lines 233-239): detach the listener when it is on the running
   * child's stdout, and reject unless already settled. It is never cleared.
   */
  function ToolsListTimeout(s: ManagerState, k: nat): (r: ManagerState)
    ensures |r.requests| == |s.requests|
    ensures IsToolsList(s, k) ==> r.requests[k].outcome == Settle(s.requests[k].outcome, Rejected(TOOLS_TIMEOUT))
    ensures IsToolsList(s, k) && s.process == Some(s.requests[k].proc) ==> !r.requests[k].listening
    ensures forall j :: 0 <= j < |s.requests| && j != k ==> r.requests[j] == s.requests[j]
    ensures r == s.(requests := r.requests)
    ensures Valid(s) ==> Valid(r)
  {
    if !IsToolsList(s, k) then s
    else
      var req := s.requests[k];
      var detach := s.process == Some(req.proc);
      s.(requests := s.requests[k := req.(listening := req.listening && !detach,
                                          outcome := Settle(req.outcome, Rejected(TOOLS_TIMEOUT)))])
  }

  /**
   * The tools/call timer (lines 341-351): once the request is resolved nothing happens;
   * otherwise it becomes resolved, its listener is detached when on the running child's
   * stdout, the call is marked as an error "Request timeout" and the promise rejected.
   */
  function CallTimeout(s: ManagerState, k: nat, now: Timestamp): (r: ManagerState)
    ensures IsToolCall(s, k) && s.requests[k].kind.isResolved ==> r == s
    ensures IsToolCall(s, k) && !s.requests[k].kind.isResolved ==>
      && |r.requests| == |s.requests|
      && r.requests[k].kind == ToolCall(s.requests[k].kind.callId, true)
      && r.requests[k].outcome == Rejected(REQUEST_TIMEOUT)
      && r == UpdateStatus(s.(requests := r.requests), s.requests[k].kind.callId, Error, JStr(REQUEST_TIMEOUT), now)
    ensures |r.requests| == |s.requests|
    ensures forall j :: 0 <= j < |s.requests| && j != k ==> r.requests[j] == s.requests[j]
    ensures Valid(s) ==> Valid(r)
  {
    if !IsToolCall(s, k) || s.requests[k].kind.isResolved then s
    else
      var req := s.requests[k];
      var detach := s.process == Some(req.proc);
      var marked := s.(requests := s.requests[k := req.(listening := req.listening && !detach,
                                                          outcome := Rejected(REQUEST_TIMEOUT),
                                                          kind := ToolCall(req.kind.callId, true))]);
      UpdateStatus(marked, req.kind.callId, Error, JStr(REQUEST_TIMEOUT), now)
  }
}

=== FILE: mcp_tools.dfy ===
/**
 * The three tools the agent calls (`mcp_find`, `mcp_aggregate`, `mcp_list_collections`):
 * asset validation, collection choice, projection and pipeline building, and the
 * `callTool` request each tool plans. Awaiting the shared manager is reduced to whether
 * one is `available`; the call itself is the manager's `CallTool`.
 */
module McpTools {
  import opened Wrappers
  import opened Json
  import opened Text
  import McpState

  // ---------------------------------------------------------------- assets

  const ALLOWED_CRYPTO_ASSETS: seq<string> := ["BTC", "ETH", "XRP", "SOL", "DOGE", "ADA"]
  const ALLOWED_STOCK_ASSETS: seq<string> :=
    ["HYG", "LQD", "TLT", "GLD", "USO", "EEM", "QQQ", "SPY", "XLE", "VNQ"]

  const DATABASE := "agentic_capital_markets"
  const CRYPTO_COLLECTION := "binanceCryptoData"
  const STOCK_COLLECTION := "yfinanceMarketData"

  datatype AssetType = Crypto | Stock

  /** The name the tools use for an asset type. */
  function TypeName(t: AssetType): string
  {
    match t
    case Crypto => "crypto"
    case Stock => "stock"
  }

  /** No letter of `s` is a lower-case ASCII letter. */
  predicate UpperCase(s: string)
  {
    forall i :: 0 <= i < |s| ==> !('a' <= s[i] <= 'z')
  }

  lemma UpperCaseFixed(s: string)
    requires UpperCase(s)
    ensures ToUpper(s) == s
  {
  }

  /** Every whitelisted symbol is written in capitals, and no symbol is on both lists. */
  lemma WhitelistsUpperAndDisjoint()
    ensures forall x :: x in ALLOWED_CRYPTO_ASSETS ==> UpperCase(x)
    ensures forall x :: x in ALLOWED_STOCK_ASSETS ==> UpperCase(x)
    ensures forall x :: x in ALLOWED_CRYPTO_ASSETS ==> x !in ALLOWED_STOCK_ASSETS
  {
  }

  /**
   * `getAssetType`: the list the upper-cased symbol is on. The crypto list is consulted
   * first, but as the lists are disjoint each answer is exactly list membership.
   */
  function GetAssetType(symbol: string): (t: Option<AssetType>)
    ensures t == Some(Crypto) <==> ToUpper(symbol) in ALLOWED_CRYPTO_ASSETS
    ensures t == Some(Stock) <==> ToUpper(symbol) in ALLOWED_STOCK_ASSETS
    ensures t == None <==> ToUpper(symbol) !in ALLOWED_CRYPTO_ASSETS + ALLOWED_STOCK_ASSETS
  {
    WhitelistsUpperAndDisjoint();
    var upper := ToUpper(symbol);
    if upper in ALLOWED_CRYPTO_ASSETS then Some(Crypto)
    else if upper in ALLOWED_STOCK_ASSETS then Some(Stock)
    else None
  }

  /** `validateAsset`: the upper-cased symbol is on the list named by `assetType`. */
  function ValidateAsset(symbol: string, assetType: string): (ok: bool)
    ensures assetType != "crypto" && assetType != "stock" ==> !ok
  {
    var upper := ToUpper(symbol);
    if assetType == "crypto" then upper in ALLOWED_CRYPTO_ASSETS
    else if assetType == "stock" then upper in ALLOWED_STOCK_ASSETS
    else false
  }

  /** The two lookups agree: a symbol validates for exactly the type `getAssetType` names. */
  lemma ValidateAgreesWithType(symbol: string, assetType: string)
    ensures ValidateAsset(symbol, assetType)
        <==> GetAssetType(symbol).Some? && TypeName(GetAssetType(symbol).value) == assetType
  {
  }

  /** Each whitelisted symbol has the type of its list. */
  lemma ListedSymbolsResolve(symbol: string)
    ensures symbol in ALLOWED_CRYPTO_ASSETS ==> GetAssetType(symbol) == Some(Crypto)
    ensures symbol in ALLOWED_STOCK_ASSETS ==> GetAssetType(symbol) == Some(Stock)
  {
    WhitelistsUpperAndDisjoint();
    if symbol in ALLOWED_CRYPTO_ASSETS + ALLOWED_STOCK_ASSETS {
      UpperCaseFixed(symbol);
    }
  }

  /**
   * The lookup ignores case: upper- or lower-casing the symbol first (as the tool bodies
   * do before calling `getAssetType`) changes nothing.
   */
  lemma AssetTypeIgnoresCase(symbol: string)
    ensures GetAssetType(ToUpper(symbol)) == GetAssetType(symbol)
    ensures GetAssetType(ToLower(symbol)) == GetAssetType(symbol)
  {
    ToUpperIdempotent(symbol);
    UpperOfLower(symbol);
    SameUpperSameType(ToUpper(symbol), symbol);
    SameUpperSameType(ToLower(symbol), symbol);
  }

  lemma UpperOfLower(s: string)
    ensures ToUpper(ToLower(s)) == ToUpper(s)
  {
    assert forall i :: 0 <= i < |s| ==> UpperChar(LowerChar(s[i])) == UpperChar(s[i]);
  }

  lemma SameUpperSameType(a: string, b: string)
    requires ToUpper(a) == ToUpper(b)
    ensures GetAssetType(a) == GetAssetType(b)
  {
  }

  /** The collection an asset's documents live in. */
  function CollectionFor(t: AssetType): (c: string)
    ensures c == CRYPTO_COLLECTION <==> t == Crypto
    ensures c == STOCK_COLLECTION <==> t == Stock
  {
    assert CRYPTO_COLLECTION[0] != STOCK_COLLECTION[0];
    match t
    case Crypto => CRYPTO_COLLECTION
    case Stock => STOCK_COLLECTION
  }

  /** The message of the error an unsupported symbol raises (it quotes the symbol as given). */
  function UnsupportedMessage(symbol: string): string
  {
    "Asset '" + symbol + "' is not supported. Supported crypto: " + JoinWith(ALLOWED_CRYPTO_ASSETS, ", ")
    + ". Supported stocks: " + JoinWith(ALLOWED_STOCK_ASSETS, ", ")
  }

  // ---------------------------------------------------------------- projection

  /** JavaScript truthiness of an optional string argument. */
  predicate Given(arg: Option<string>)
  {
    arg.Some? && arg.value != ""
  }

  /** `fields.split(',').map(f => f.trim())`. */
  function FieldNames(fields: string): seq<string>
  {
    var pieces := Split(fields, ',');
    seq(|pieces|, i requires 0 <= i < |pieces| => Trim(pieces[i]))
  }

  /**
   * `p` is the projection for `fields`: `{}` when no field list is given, otherwise an
   * object with one key per trimmed field name, each mapped to 1.
   */
  ghost predicate ProjectsFields(p: Json, fields: Option<string>)
  {
    && p.JObj?
    && DistinctKeys(p.fields)
    && (!Given(fields) ==> p == JObj([]))
    && (Given(fields) ==>
          forall k :: Get(p, k) == if k in FieldNames(fields.value) then Some(JNum(1)) else None)
  }

  /** Assigning the next field name keeps the projection equal to the names seen so far. */
  lemma ProjectionStep(acc: seq<(string, Json)>, names: seq<string>, i: nat)
    requires i < |names|
    requires forall k :: Get(JObj(acc), k) == if k in names[..i] then Some(JNum(1)) else None
    ensures forall k :: Get(JObj(Assign(acc, names[i], JNum(1))), k)
                      == if k in names[..i + 1] then Some(JNum(1)) else None
  {
    assert names[..i + 1] == names[..i] + [names[i]];
  }

  /** Builds the projection by assigning `projection[field] = 1` for each listed field. */
  method BuildProjection(fields: Option<string>) returns (projection: Json)
    ensures ProjectsFields(projection, fields)
  {
    projection := JObj([]);
    if Given(fields) {
      var names := FieldNames(fields.value);
      var acc: seq<(string, Json)> := [];
      for i := 0 to |names|
        invariant DistinctKeys(acc)
        invariant forall k :: Get(JObj(acc), k) == if k in names[..i] then Some(JNum(1)) else None
      {
        ProjectionStep(acc, names, i);
        acc := Assign(acc, names[i], JNum(1));
      }
      assert names[..|names|] == names;
      projection := JObj(acc);
    }
  }

  // ---------------------------------------------------------------- pipeline

  /** The aggregation stages the tool can emit; `Custom` carries a caller-supplied stage. */
  datatype Stage =
    | MatchSymbol(symbol: string)
    | MatchSince(cutoff: string)
    | GroupStats
    | GroupTrend
    | SortByDay
    | GroupVolatility
    | GroupVolume
    | Custom(stage: Json)

  function Field(name: string, value: Json): Json
  {
    JObj([(name, value)])
  }

  /** The stage operator of a built (non-custom) stage. */
  function Operator(s: Stage): string
  {
    match s
    case MatchSymbol(_) => "$match"
    case MatchSince(_) => "$match"
    case SortByDay => "$sort"
    case _ => "$group"
  }

  /** The document a stage is sent as; every built stage is a one-operator document. */
  function StageJson(s: Stage): (j: Json)
    ensures !s.Custom? ==> j.JObj? && |j.fields| == 1 && j.fields[0].0 == Operator(s)
    ensures s.Custom? ==> j == s.stage
  {
    match s
    case MatchSymbol(symbol) => Field("$match", Field("symbol", JStr(symbol)))
    case MatchSince(cutoff) =>
      Field("$match", Field("timestamp", Field("$gte", Field("$date", JStr(cutoff)))))
    case GroupStats =>
      Field("$group", JObj([
        ("_id", JNull),
        ("avgClose", Field("$avg", JStr("$close"))),
        ("minClose", Field("$min", JStr("$close"))),
        ("maxClose", Field("$max", JStr("$close"))),
        ("avgVolume", Field("$avg", JStr("$volume"))),
        ("totalRecords", Field("$sum", JNum(1))),
        ("latestPrice", Field("$last", JStr("$close"))),
        ("latestTimestamp", Field("$last", JStr("$timestamp")))]))
    case GroupTrend =>
      Field("$group", JObj([
        ("_id", JObj([
          ("year", Field("$year", JStr("$timestamp"))),
          ("month", Field("$month", JStr("$timestamp"))),
          ("day", Field("$dayOfMonth", JStr("$timestamp")))])),
        ("avgClose", Field("$avg", JStr("$close"))),
        ("avgVolume", Field("$avg", JStr("$volume")))]))
    case SortByDay =>
      Field("$sort", JObj([("_id.year", JNum(1)), ("_id.month", JNum(1)), ("_id.day", JNum(1))]))
    case GroupVolatility =>
      Field("$group", JObj([
        ("_id", JNull),
        ("avgClose", Field("$avg", JStr("$close"))),
        ("stdDev", Field("$stdDevPop", JStr("$close"))),
        ("volatility", Field("$multiply", JArr([
          Field("$divide", JArr([Field("$stdDevPop", JStr("$close")), Field("$avg", JStr("$close"))])),
          JNum(100)])))]))
    case GroupVolume =>
      Field("$group", JObj([
        ("_id", JNull),
        ("totalVolume", Field("$sum", JStr("$volume"))),
        ("avgVolume", Field("$avg", JStr("$volume"))),
        ("maxVolume", Field("$max", JStr("$volume"))),
        ("minVolume", Field("$min", JStr("$volume")))]))
    case Custom(stage) => stage
  }

  /** The pipeline as sent: each stage rendered in order. */
  function Render(stages: seq<Stage>): (docs: seq<Json>)
    ensures |docs| == |stages|
    ensures forall i :: 0 <= i < |stages| ==> docs[i] == StageJson(stages[i])
  {
    seq(|stages|, i requires 0 <= i < |stages| => StageJson(stages[i]))
  }

  /** Rendering distributes over concatenation, so pushed stages render after the ones before them. */
  lemma RenderAppend(a: seq<Stage>, b: seq<Stage>)
    ensures Render(a + b) == Render(a) + Render(b)
  {
    assert forall i :: 0 <= i < |a + b| ==> Render(a + b)[i] == (Render(a) + Render(b))[i];
  }

  /** The operation names the aggregate tool accepts. */
  predicate Supported(operation: string)
  {
    operation == "stats" || operation == "trend" || operation == "volatility"
    || operation == "volume" || operation == "custom"
  }

  const DEFAULT_DAYS := 30
  const CUSTOM_REQUIRED := "Custom pipeline is required for 'custom' operation"
  const INVALID_CUSTOM := "Invalid custom pipeline JSON: "
  const NOT_AN_ARRAY := "Custom pipeline must be an array of aggregation stages"

  function UnknownOperation(operation: string): string
  {
    "Unknown operation: " + operation + ". Supported operations: stats, trend, volatility, volume, custom"
  }

  /** The stages every pipeline starts with: the symbol match, then the date match when `days > 0`. */
  function Leading(upper: string, days: int, cutoff: string): seq<Stage>
  {
    [MatchSymbol(upper)] + (if days > 0 then [MatchSince(cutoff)] else [])
  }

  /** Caller-supplied stages, kept as they are. */
  function CustomOf(items: seq<Json>): (stages: seq<Stage>)
    ensures Render(stages) == items
  {
    seq(|items|, i requires 0 <= i < |items| => Custom(items[i]))
  }

  /**
   * The stages a custom pipeline contributes. `parse` stands for `JSON.parse`, failing
   * with its message; a parse failure and a non-array both surface as an invalid-JSON error.
   */
  function CustomStages(customPipeline: Option<string>, parse: string -> Result<Json>): (r: Result<seq<Stage>>)
    ensures !Given(customPipeline) ==> r == Err(CUSTOM_REQUIRED)
    ensures r.Ok? <==> Given(customPipeline) && parse(customPipeline.value).Ok? && parse(customPipeline.value).value.JArr?
    ensures r.Ok? ==> Render(r.value) == parse(customPipeline.value).value.items
  {
    if !Given(customPipeline) then Err(CUSTOM_REQUIRED)
    else
      match parse(customPipeline.value)
      case Err(m) => Err(INVALID_CUSTOM + m)
      case Ok(v) =>
        if v.JArr? then Ok(CustomOf(v.items))
        else Err(INVALID_CUSTOM + NOT_AN_ARRAY)
  }

  /** The stages the named operation appends after the leading matches. */
  function OperationStages(operation: string, customPipeline: Option<string>, parse: string -> Result<Json>): (r: Result<seq<Stage>>)
    ensures !Supported(operation) ==> r == Err(UnknownOperation(operation))
    ensures operation == "stats" || operation == "volatility" || operation == "volume" ==> r.Ok? && |r.value| == 1 && Operator(r.value[0]) == "$group"
    ensures operation == "trend" ==> r.Ok? && |r.value| == 2 && Operator(r.value[0]) == "$group" && Operator(r.value[1]) == "$sort"
    ensures operation == "stats" ==> r == Ok([GroupStats])
    ensures operation == "trend" ==> r == Ok([GroupTrend, SortByDay])
    ensures operation == "volatility" ==> r == Ok([GroupVolatility])
    ensures operation == "volume" ==> r == Ok([GroupVolume])
    ensures operation == "custom" ==> r == CustomStages(customPipeline, parse)
  {
    if operation == "stats" then Ok([GroupStats])
    else if operation == "trend" then Ok([GroupTrend, SortByDay])
    else if operation == "volatility" then Ok([GroupVolatility])
    else if operation == "volume" then Ok([GroupVolume])
    else if operation == "custom" then CustomStages(customPipeline, parse)
    else Err(UnknownOperation(operation))
  }

  /** The whole pipeline, or the error that aborts the tool. */
  function Pipeline(upper: string, days: int, cutoff: string, operation: string,
                    customPipeline: Option<string>, parse: string -> Result<Json>): (r: Result<seq<Stage>>)
    ensures r.Ok? ==> |r.value| > 0 && r.value[0] == MatchSymbol(upper)
    ensures r.Ok? ==> (|r.value| > 1 && r.value[1] == MatchSince(cutoff) <==> days > 0)
    ensures r.Err? <==> !Supported(operation) || (operation == "custom" && CustomStages(customPipeline, parse).Err?)
  {
    match OperationStages(operation, customPipeline, parse)
    case Ok(tail) => Ok(Leading(upper, days, cutoff) + tail)
    case Err(m) => Err(m)
  }

  /** The match stages come first, unchanged, whatever the operation appends. */
  lemma PipelineExtendsLeading(upper: string, days: int, cutoff: string, operation: string,
                               customPipeline: Option<string>, parse: string -> Result<Json>)
    ensures var r := Pipeline(upper, days, cutoff, operation, customPipeline, parse);
            r.Ok? ==> Leading(upper, days, cutoff) <= r.value
                      && r.value[|Leading(upper, days, cutoff)|..] == OperationStages(operation, customPipeline, parse).value
  {
  }

  /**
   * Builds the pipeline step by step: push the symbol match, push the date match when
   * `days > 0`, then push or concatenate the operation's stages, or stop with an error.
   */
  method BuildPipeline(upper: string, days: int, cutoff: string, operation: string,
                       customPipeline: Option<string>, parse: string -> Result<Json>)
    returns (r: Result<seq<Stage>>)
    ensures r == Pipeline(upper, days, cutoff, operation, customPipeline, parse)
  {
    var pipeline := [MatchSymbol(upper)];
    if days > 0 {
      pipeline := pipeline + [MatchSince(cutoff)];
    }
    ghost var leading := pipeline;
    assert leading == Leading(upper, days, cutoff);
    if operation == "stats" {
      pipeline := pipeline + [GroupStats];
    } else if operation == "trend" {
      pipeline := pipeline + [GroupTrend];
      pipeline := pipeline + [SortByDay];
      assert pipeline == leading + [GroupTrend, SortByDay];
    } else if operation == "volatility" {
      pipeline := pipeline + [GroupVolatility];
    } else if operation == "volume" {
      pipeline := pipeline + [GroupVolume];
    } else if operation == "custom" {
      if !Given(customPipeline) {
        return Err(CUSTOM_REQUIRED);
      }
      var parsed := parse(customPipeline.value);
      if parsed.Err? {
        return Err(INVALID_CUSTOM + parsed.message);
      }
      if !parsed.value.JArr? {
        return Err(INVALID_CUSTOM + NOT_AN_ARRAY);
      }
      var items := parsed.value.items;
      pipeline := pipeline + CustomOf(items);
    } else {
      return Err(UnknownOperation(operation));
    }
    r := Ok(pipeline);
  }

  // ---------------------------------------------------------------- tool bodies

  /** The `callTool(name, params)` request a tool makes. */
  datatype Invocation = Invocation(tool: string, params: Json)

  function OrDefault<T>(arg: Option<T>, default: T): T
  {
    if arg.Some? then arg.value else default
  }

  const DEFAULT_LIMIT := 10
  const DEFAULT_SORT_BY := "timestamp"
  const DEFAULT_SORT_ORDER := -1

  /** The `find` arguments: each named parameter reads back as given. */
  function FindParams(collection: string, upper: string, projection: Json, sort: Json, limit: int): (params: Json)
    ensures Get(params, "database") == Some(JStr(DATABASE))
    ensures Get(params, "collection") == Some(JStr(collection))
    ensures Get(params, "filter") == Some(Field("symbol", JStr(upper)))
    ensures Get(params, "projection") == Some(projection)
    ensures Get(params, "sort") == Some(sort)
    ensures Get(params, "limit") == Some(JNum(limit))
  {
    var fields := [("database", JStr(DATABASE)), ("collection", JStr(collection)),
                   ("filter", Field("symbol", JStr(upper))), ("projection", projection),
                   ("sort", sort), ("limit", JNum(limit))];
    GetDistinct(fields);
    assert fields[0].0 == "database" && fields[1].0 == "collection" && fields[2].0 == "filter"
        && fields[3].0 == "projection" && fields[4].0 == "sort" && fields[5].0 == "limit";
    JObj(fields)
  }

  /** The `aggregate` arguments: each named parameter reads back as given. */
  function AggregateParams(collection: string, stages: seq<Stage>): (params: Json)
    ensures Get(params, "database") == Some(JStr(DATABASE))
    ensures Get(params, "collection") == Some(JStr(collection))
    ensures Get(params, "pipeline") == Some(JArr(Render(stages)))
  {
    var fields := [("database", JStr(DATABASE)), ("collection", JStr(collection)),
                   ("pipeline", JArr(Render(stages)))];
    GetDistinct(fields);
    assert fields[0].0 == "database" && fields[1].0 == "collection" && fields[2].0 == "pipeline";
    JObj(fields)
  }

  /**
   * `mcp_find` up to its `callTool`: no manager, then an unsupported symbol, abort with an
   * error; otherwise a `find` on the asset's collection filtered by the upper-cased symbol,
   * with the projection, a one-key sort and the limit (defaults 10, "timestamp", -1).
   */
  method PlanFind(available: bool, symbol: string, limit: Option<int>, sortBy: Option<string>,
                  sortOrder: Option<int>, fields: Option<string>) returns (r: Result<Invocation>)
    ensures !available ==> r == Err(McpState.NOT_AVAILABLE)
    ensures available && GetAssetType(symbol).None? ==> r == Err(UnsupportedMessage(symbol))
    ensures available && GetAssetType(symbol).Some? ==>
      && r.Ok? && r.value.tool == "find"
      && Get(r.value.params, "database") == Some(JStr(DATABASE))
      && Get(r.value.params, "collection") == Some(JStr(CollectionFor(GetAssetType(symbol).value)))
      && Get(r.value.params, "filter") == Some(Field("symbol", JStr(ToUpper(symbol))))
      && Get(r.value.params, "projection").Some?
      && ProjectsFields(Get(r.value.params, "projection").value, fields)
      && Get(r.value.params, "sort") == Some(Field(OrDefault(sortBy, DEFAULT_SORT_BY), JNum(OrDefault(sortOrder, DEFAULT_SORT_ORDER))))
      && Get(r.value.params, "limit") == Some(JNum(OrDefault(limit, DEFAULT_LIMIT)))
  {
    if !available {
      return Err(McpState.NOT_AVAILABLE);
    }
    var upper := ToUpper(symbol);
    var assetType := GetAssetType(upper);
    AssetTypeIgnoresCase(symbol);
    if assetType.None? {
      return Err(UnsupportedMessage(symbol));
    }
    var collection := CollectionFor(assetType.value);
    var projection := BuildProjection(fields);
    var params := FindParams(collection, upper, projection,
                             Field(OrDefault(sortBy, DEFAULT_SORT_BY), JNum(OrDefault(sortOrder, DEFAULT_SORT_ORDER))),
                             OrDefault(limit, DEFAULT_LIMIT));
    r := Ok(Invocation("find", params));
  }

  /**
   * `mcp_aggregate` up to its `callTool`: the same two checks as `mcp_find`, then the
   * pipeline (its error aborts the tool) on the asset's collection. `cutoff` is the ISO
   * date `days` before now; `days` defaults to 30.
   */
  method PlanAggregate(available: bool, symbol: string, operation: string, days: Option<int>,
                       customPipeline: Option<string>, cutoff: string, parse: string -> Result<Json>)
    returns (r: Result<Invocation>)
    ensures !available ==> r == Err(McpState.NOT_AVAILABLE)
    ensures available && GetAssetType(symbol).None? ==> r == Err(UnsupportedMessage(symbol))
    ensures available && GetAssetType(symbol).Some? ==>
      match Pipeline(ToUpper(symbol), OrDefault(days, DEFAULT_DAYS), cutoff, operation, customPipeline, parse)
      case Err(m) => r == Err(m)
      case Ok(stages) =>
        && r.Ok? && r.value.tool == "aggregate"
        && Get(r.value.params, "database") == Some(JStr(DATABASE))
        && Get(r.value.params, "collection") == Some(JStr(CollectionFor(GetAssetType(symbol).value)))
        && Get(r.value.params, "pipeline") == Some(JArr(Render(stages)))
  {
    if !available {
      return Err(McpState.NOT_AVAILABLE);
    }
    var upper := ToUpper(symbol);
    var assetType := GetAssetType(upper);
    AssetTypeIgnoresCase(symbol);
    if assetType.None? {
      return Err(UnsupportedMessage(symbol));
    }
    var collection := CollectionFor(assetType.value);
    var pipeline := BuildPipeline(upper, OrDefault(days, DEFAULT_DAYS), cutoff, operation, customPipeline, parse);
    if pipeline.Err? {
      return Err(pipeline.message);
    }
    var params := AggregateParams(collection, pipeline.value);
    r := Ok(Invocation("aggregate", params));
  }

  /** `mcp_list_collections` up to its `callTool`; the database defaults to the application's. */
  function PlanListCollections(available: bool, database: Option<string>): (r: Result<Invocation>)
    ensures !available ==> r == Err(McpState.NOT_AVAILABLE)
    ensures available ==> r.Ok? && r.value.tool == "list-collections"
                          && Get(r.value.params, "database") == Some(JStr(OrDefault(database, DATABASE)))
  {
    if !available then Err(McpState.NOT_AVAILABLE)
    else Ok(Invocation("list-collections", Field("database", JStr(OrDefault(database, DATABASE)))))
  }

  /**
   * What a tool hands back to the agent: the serialised result of the call, or, when
   * planning failed or the call was rejected, the error message behind `Error: `.
   */
  function Reply(plan: Result<Invocation>, call: Result<Json>, stringify: Json -> string): (text: string)
    ensures plan.Err? ==> text == "Error: " + plan.message
    ensures plan.Ok? && call.Err? ==> text == "Error: " + call.message
    ensures plan.Ok? && call.Ok? ==> text == stringify(call.value)
  {
    match plan
    case Err(m) => "Error: " + m
    case Ok(_) =>
      match call
      case Err(m) => "Error: " + m
      case Ok(v) => stringify(v)
  }

  /**
   * What the agent sees: every failure, whether in planning or from the server, comes
   * back as text starting with `Error: `; a plan that failed never reaches the server,
   * so its reply does not depend on any call outcome; without a manager the reply is
   * the availability error.
   */
  lemma ReplyOutcomes(plan: Result<Invocation>, call: Result<Json>, other: Result<Json>,
                      stringify: Json -> string, database: Option<string>)
    ensures plan.Err? || call.Err? ==> StartsWith(Reply(plan, call, stringify), "Error: ")
    ensures plan.Err? ==> Reply(plan, call, stringify) == Reply(plan, other, stringify)
    ensures Reply(PlanListCollections(false, database), call, stringify) == "Error: MCP Server not available"
  {
    var text := Reply(plan, call, stringify);
    if plan.Err? {
      assert text == "Error: " + plan.message;
      assert text[..7] == "Error: ";
    } else if call.Err? {
      assert text == "Error: " + call.message;
      assert text[..7] == "Error: ";
    }
  }
}

=== FILE: question_processor.dfy ===
/**
 * The rule-based question answerer: an ordered list of substring tests on the
 * lower-cased question, the first matching rule choosing the tool, its arguments and
 * a canned response.
 */
module QuestionProcessor {
  import opened Wrappers
  import opened Json
  import opened Text
  import McpTools

  // ---------------------------------------------------------------- the word tests

  predicate AsksBtc(q: string)         { Contains(q, "btc") || Contains(q, "bitcoin") }
  predicate AsksLatest(q: string)      { Contains(q, "latest") || Contains(q, "current") || Contains(q, "last") }
  predicate AsksStats(q: string)       { Contains(q, "daily") || Contains(q, "average") || Contains(q, "stats") }
  predicate AsksEth(q: string)         { Contains(q, "eth") || Contains(q, "ethereum") }
  predicate AsksHistory(q: string)     { Contains(q, "trend") || Contains(q, "history") || Contains(q, "last") }
  predicate AsksStock(q: string)       { Contains(q, "eem") || Contains(q, "aapl") || Contains(q, "stock") }
  predicate AsksCollections(q: string) { Contains(q, "collections") || Contains(q, "tables") || Contains(q, "available") }
  predicate AsksSchema(q: string)      { Contains(q, "schema") || Contains(q, "structure") || Contains(q, "fields") }

  /** A BTC question that one of the two BTC rules answers. */
  predicate BtcAnswered(q: string) { AsksBtc(q) && (AsksLatest(q) || AsksStats(q)) }

  /** An ETH question that one of the two ETH rules answers. */
  predicate EthAnswered(q: string) { AsksEth(q) && (AsksLatest(q) || AsksHistory(q)) }

  // ---------------------------------------------------------------- classification

  /** Which rule answers a question. */
  datatype Intent =
    | BtcLatest
    | BtcStats
    | EthLatest
    | EthHistory
    | StockLatest(symbol: string)
    | ListCollections
    | Schema
    | Help

  /** The stock rule's symbol: AAPL by default, EEM when mentioned, AAPL again when both are. */
  function StockSymbol(q: string): (symbol: string)
    ensures symbol == "EEM" <==> Contains(q, "eem") && !Contains(q, "aapl")
    ensures symbol == "AAPL" <==> !(Contains(q, "eem") && !Contains(q, "aapl"))
  {
    var symbol := "AAPL";
    var symbol := if Contains(q, "eem") then "EEM" else symbol;
    if Contains(q, "aapl") then "AAPL" else symbol
  }

  /**
   * The first matching rule for a lower-cased question. Each intent is characterised
   * exactly by the words present and the earlier rules that did not fire: a BTC or ETH
   * question the sub-rules do not answer falls through to the later rules.
   */
  function Classify(q: string): (i: Intent)
    ensures i == BtcLatest <==> AsksBtc(q) && AsksLatest(q)
    ensures i == BtcStats <==> AsksBtc(q) && AsksStats(q) && !AsksLatest(q)
    ensures i == EthLatest <==> AsksEth(q) && AsksLatest(q) && !AsksBtc(q)
    ensures i == EthHistory <==>
              AsksEth(q) && (Contains(q, "trend") || Contains(q, "history")) && !AsksLatest(q) && !BtcAnswered(q)
    ensures i.StockLatest? <==> AsksStock(q) && !BtcAnswered(q) && !EthAnswered(q)
    ensures i.StockLatest? ==> i.symbol == StockSymbol(q)
    ensures i == ListCollections <==> AsksCollections(q) && !AsksStock(q) && !BtcAnswered(q) && !EthAnswered(q)
    ensures i == Schema <==>
              AsksSchema(q) && !AsksCollections(q) && !AsksStock(q) && !BtcAnswered(q) && !EthAnswered(q)
    ensures i == Help <==>
              !AsksSchema(q) && !AsksCollections(q) && !AsksStock(q) && !BtcAnswered(q) && !EthAnswered(q)
  {
    if AsksBtc(q) && AsksLatest(q) then BtcLatest
    else if AsksBtc(q) && AsksStats(q) then BtcStats
    else if AsksEth(q) && AsksLatest(q) then EthLatest
    else if AsksEth(q) && AsksHistory(q) then EthHistory
    else if AsksStock(q) then StockLatest(StockSymbol(q))
    else if AsksCollections(q) then ListCollections
    else if AsksSchema(q) then Schema
    else Help
  }

  /**
   * The word "last" belongs to both ETH rules, but the latest-price rule comes first:
   * the history rule is reached only through "trend" or "history", and a question with
   * "last" about ETH alone always gets the single latest document.
   */
  lemma EthHistoryNeverViaLast(q: string)
    ensures Classify(q) == EthHistory ==> !Contains(q, "last")
    ensures AsksEth(q) && Contains(q, "last") && !AsksBtc(q) ==> Classify(q) == EthLatest
  {
  }

  // ---------------------------------------------------------------- answers

  /** The result: the tool to call and its arguments (both null for help), and a message. */
  datatype Answer = Answer(tool: Option<string>, params: Option<Json>, response: string)

  const HELP_TEXT := "I can help you with questions about cryptocurrency (BTC, ETH), stocks (EEM, AAPL), "
    + "and database information. Try asking about \"latest BTC price\" or \"EEM stock price\"."

  /** `{symbol: 1, close: 1, timestamp: 1, _id: 0}`. */
  const PRICE_PROJECTION := JObj([("symbol", JNum(1)), ("close", JNum(1)), ("timestamp", JNum(1)), ("_id", JNum(0))])

  /** A `find` for the newest `limit` price documents of `symbol`. */
  function PriceQuery(collection: string, symbol: string, limit: int): (params: Json)
    ensures Get(params, "database") == Some(JStr(McpTools.DATABASE))
    ensures Get(params, "collection") == Some(JStr(collection))
    ensures Get(params, "filter") == Some(McpTools.Field("symbol", JStr(symbol)))
    ensures Get(params, "projection") == Some(PRICE_PROJECTION)
    ensures Get(params, "sort") == Some(McpTools.Field("timestamp", JNum(-1)))
    ensures Get(params, "limit") == Some(JNum(limit))
  {
    var fields := [("database", JStr(McpTools.DATABASE)), ("collection", JStr(collection)),
                   ("filter", McpTools.Field("symbol", JStr(symbol))), ("projection", PRICE_PROJECTION),
                   ("sort", McpTools.Field("timestamp", JNum(-1))), ("limit", JNum(limit))];
    GetDistinct(fields);
    assert fields[0].0 == "database" && fields[1].0 == "collection" && fields[2].0 == "filter"
        && fields[3].0 == "projection" && fields[4].0 == "sort" && fields[5].0 == "limit";
    JObj(fields)
  }

  /** The two-stage BTC statistics pipeline: match BTC, then one `$group`. */
  function BtcStatsPipeline(): (stages: seq<Json>)
    ensures |stages| == 2
    ensures stages[0] == McpTools.StageJson(McpTools.MatchSymbol("BTC"))
    ensures stages[1].JObj? && |stages[1].fields| == 1 && stages[1].fields[0].0 == "$group"
  {
    [ McpTools.StageJson(McpTools.MatchSymbol("BTC")),
      McpTools.Field("$group", JObj([
        ("_id", JNull),
        ("avgClose", McpTools.Field("$avg", JStr("$close"))),
        ("minClose", McpTools.Field("$min", JStr("$close"))),
        ("maxClose", McpTools.Field("$max", JStr("$close"))),
        ("count", McpTools.Field("$sum", JNum(1)))])) ]
  }

  /** The answer an intent produces. */
  function Respond(i: Intent): (a: Answer)
    ensures a.tool.None? <==> i == Help
    ensures a.params.None? <==> i == Help
    ensures i == Help ==> a.response == HELP_TEXT
    ensures i == BtcLatest ==> a.tool == Some("find") && a.params == Some(PriceQuery(McpTools.CRYPTO_COLLECTION, "BTC", 1))
    ensures i == BtcStats ==>
              && a.tool == Some("aggregate")
              && a.params == Some(JObj([("database", JStr(McpTools.DATABASE)), ("collection", JStr(McpTools.CRYPTO_COLLECTION)),
                                        ("pipeline", JArr(BtcStatsPipeline()))]))
    ensures i == EthLatest ==> a.tool == Some("find") && a.params == Some(PriceQuery(McpTools.CRYPTO_COLLECTION, "ETH", 1))
    ensures i == EthHistory ==> a.tool == Some("find") && a.params == Some(PriceQuery(McpTools.CRYPTO_COLLECTION, "ETH", 10))
    ensures i.StockLatest? ==>
              && a.tool == Some("find") && a.params == Some(PriceQuery(McpTools.STOCK_COLLECTION, i.symbol, 1))
              && a.response == "Finding the latest " + i.symbol + " stock price..."
    ensures i == ListCollections ==>
              a.tool == Some("list-collections") && a.params == Some(JObj([("database", JStr(McpTools.DATABASE))]))
    ensures i == Schema ==>
              && a.tool == Some("find")
              && a.params == Some(JObj([("database", JStr(McpTools.DATABASE)), ("collection", JStr(McpTools.CRYPTO_COLLECTION)),
                                        ("filter", JObj([])), ("projection", JObj([])), ("limit", JNum(1))]))
  {
    var crypto := McpTools.CRYPTO_COLLECTION;
    match i
    case BtcLatest =>
      Answer(Some("find"), Some(PriceQuery(crypto, "BTC", 1)), "Finding the latest BTC price from the database...")
    case BtcStats =>
      Answer(Some("aggregate"),
             Some(JObj([("database", JStr(McpTools.DATABASE)), ("collection", JStr(crypto)),
                        ("pipeline", JArr(BtcStatsPipeline()))])),
             "Calculating daily BTC statistics...")
    case EthLatest =>
      Answer(Some("find"), Some(PriceQuery(crypto, "ETH", 1)), "Finding the latest ETH price from the database...")
    case EthHistory =>
      Answer(Some("find"), Some(PriceQuery(crypto, "ETH", 10)), "Finding recent ETH price history...")
    case StockLatest(symbol) =>
      Answer(Some("find"), Some(PriceQuery(McpTools.STOCK_COLLECTION, symbol, 1)),
             "Finding the latest " + symbol + " stock price...")
    case ListCollections =>
      Answer(Some("list-collections"), Some(McpTools.Field("database", JStr(McpTools.DATABASE))),
             "Listing available collections in the database...")
    case Schema =>
      Answer(Some("find"),
             Some(JObj([("database", JStr(McpTools.DATABASE)), ("collection", JStr(crypto)),
                        ("filter", JObj([])), ("projection", JObj([])), ("limit", JNum(1))])),
             "Showing database schema and structure...")
    case Help => Answer(None, None, HELP_TEXT)
  }

  /** `processQuestion`: classify the lower-cased question and answer by the rule found. */
  function ProcessQuestion(question: string): (a: Answer)
    ensures a.tool.None? <==> Classify(ToLower(question)) == Help
  {
    Respond(Classify(ToLower(question)))
  }

  // ---------------------------------------------------------------- properties

  /** Only the lower-cased question matters: changing the case of any letter changes nothing. */
  lemma ProcessQuestionIgnoresCase(question: string)
    ensures ProcessQuestion(ToUpper(question)) == ProcessQuestion(question)
    ensures ProcessQuestion(ToLower(question)) == ProcessQuestion(question)
  {
    assert ToLower(ToUpper(question)) == ToLower(question) by {
      assert forall i :: 0 <= i < |question| ==> LowerChar(UpperChar(question[i])) == LowerChar(question[i]);
    }
    ToLowerIdempotent(question);
  }

  /** A BTC question asking for the latest price reads one BTC document, newest first. */
  lemma BtcLatestFindsOne(question: string)
    requires AsksBtc(ToLower(question)) && AsksLatest(ToLower(question))
    ensures var a := ProcessQuestion(question);
            && a.tool == Some("find") && a.params.Some?
            && Get(a.params.value, "collection") == Some(JStr(McpTools.CRYPTO_COLLECTION))
            && Get(a.params.value, "filter") == Some(McpTools.Field("symbol", JStr("BTC")))
            && Get(a.params.value, "sort") == Some(McpTools.Field("timestamp", JNum(-1)))
            && Get(a.params.value, "limit") == Some(JNum(1))
  {
  }

  /** A BTC statistics question without a latest-word aggregates with match-then-group. */
  lemma BtcStatsAggregates(question: string)
    requires AsksBtc(ToLower(question)) && AsksStats(ToLower(question)) && !AsksLatest(ToLower(question))
    ensures var a := ProcessQuestion(question);
            && a.tool == Some("aggregate") && a.params.Some?
            && Get(a.params.value, "pipeline") == Some(JArr(BtcStatsPipeline()))
  {
  }

  /** ETH: a latest-word reads one document; otherwise "trend" or "history" reads ten. */
  lemma EthLimits(question: string)
    requires AsksEth(ToLower(question)) && !AsksBtc(ToLower(question))
    ensures var a := ProcessQuestion(question);
            AsksLatest(ToLower(question)) ==>
              a.params.Some? && Get(a.params.value, "filter") == Some(McpTools.Field("symbol", JStr("ETH")))
              && Get(a.params.value, "limit") == Some(JNum(1))
    ensures var a := ProcessQuestion(question);
            !AsksLatest(ToLower(question)) && AsksHistory(ToLower(question)) ==>
              a.params.Some? && Get(a.params.value, "filter") == Some(McpTools.Field("symbol", JStr("ETH")))
              && Get(a.params.value, "limit") == Some(JNum(10))
  {
  }

  /** A stock question the crypto rules leave alone reads the newest stock document of its symbol. */
  lemma StockQuestionSymbol(question: string)
    requires var q := ToLower(question); AsksStock(q) && !BtcAnswered(q) && !EthAnswered(q)
    ensures var q := ToLower(question); var a := ProcessQuestion(question);
            && a.params.Some?
            && Get(a.params.value, "collection") == Some(JStr(McpTools.STOCK_COLLECTION))
            && Get(a.params.value, "filter") == Some(McpTools.Field("symbol", JStr(StockSymbol(q))))
            && a.response == "Finding the latest " + StockSymbol(q) + " stock price..."
  {
  }

  /** With no rule matching, there is no tool and no arguments, only the help text. */
  lemma NoMatchGivesHelp(question: string)
    requires var q := ToLower(question);
             !AsksSchema(q) && !AsksCollections(q) && !AsksStock(q) && !BtcAnswered(q) && !EthAnswered(q)
    ensures ProcessQuestion(question) == Answer(None, None, HELP_TEXT)
  {
  }
}

=== FILE: text.dfy ===
/**
 * The JavaScript string operations the core relies on: `includes`, `split` on one
 * character, `trim`, ASCII case mapping, `join` and decimal formatting of counters.
 */
module Text {

  // ---------------------------------------------------------------- includes

  /** `p` is a prefix of `s`. */
  predicate StartsWith(s: string, p: string)
  {
    |p| <= |s| && s[..|p|] == p
  }

  /** `s.includes(sub)`: `sub` occurs somewhere in `s` (the empty string occurs everywhere). */
  predicate Contains(s: string, sub: string)
    decreases |s|
  {
    StartsWith(s, sub) || (|s| > 0 && Contains(s[1..], sub))
  }

  /** An occurrence found at a position is an occurrence. */
  lemma {:induction false} ContainsAt(s: string, sub: string, i: nat)
    requires i + |sub| <= |s| && s[i..i + |sub|] == sub
    ensures Contains(s, sub)
  {
    if i > 0 {
      assert s[1..][i - 1..i - 1 + |sub|] == sub;
      ContainsAt(s[1..], sub, i - 1);
    }
  }

  // ---------------------------------------------------------------- case

  /** `toLowerCase` on one character (ASCII letters only). */
  function LowerChar(c: char): char
  {
    if 'A' <= c <= 'Z' then (c as int + 32) as char else c
  }

  /** `toUpperCase` on one character (ASCII letters only). */
  function UpperChar(c: char): char
  {
    if 'a' <= c <= 'z' then (c as int - 32) as char else c
  }

  /** `s.toLowerCase()`. */
  function ToLower(s: string): (r: string)
    ensures |r| == |s|
    ensures forall i :: 0 <= i < |s| ==> r[i] == LowerChar(s[i])
  {
    if s == [] then [] else [LowerChar(s[0])] + ToLower(s[1..])
  }

  /** `s.toUpperCase()`. */
  function ToUpper(s: string): (r: string)
    ensures |r| == |s|
    ensures forall i :: 0 <= i < |s| ==> r[i] == UpperChar(s[i])
  {
    if s == [] then [] else [UpperChar(s[0])] + ToUpper(s[1..])
  }

  /** Lower-casing twice is lower-casing once. */
  lemma ToLowerIdempotent(s: string)
    ensures ToLower(ToLower(s)) == ToLower(s)
  {
    assert forall i :: 0 <= i < |s| ==> LowerChar(LowerChar(s[i])) == LowerChar(s[i]);
  }

  /** Upper-casing twice is upper-casing once. */
  lemma ToUpperIdempotent(s: string)
    ensures ToUpper(ToUpper(s)) == ToUpper(s)
  {
    assert forall i :: 0 <= i < |s| ==> UpperChar(UpperChar(s[i])) == UpperChar(s[i]);
  }

  // ---------------------------------------------------------------- split / join

  /** `c` does not occur in `s`. */
  predicate Free(s: string, c: char)
  {
    forall i :: 0 <= i < |s| ==> s[i] != c
  }

  /**
   * `s.split(c)` for a one-character separator: the pieces between occurrences of `c`,
   * always at least one piece (the empty string splits into `[""]`).
   */
  function Split(s: string, c: char): (pieces: seq<string>)
    ensures |pieces| >= 1
  {
    if s == [] then [""]
    else
      var rest := Split(s[1..], c);
      if s[0] == c then [""] + rest else [[s[0]] + rest[0]] + rest[1..]
  }

  /** `pieces.join(c)`. */
  function Join(pieces: seq<string>, c: char): string
  {
    if |pieces| == 0 then ""
    else if |pieces| == 1 then pieces[0]
    else pieces[0] + [c] + Join(pieces[1..], c)
  }

  /** No piece of a split contains the separator. */
  lemma {:induction false} SplitPiecesFree(s: string, c: char)
    ensures forall k :: 0 <= k < |Split(s, c)| ==> Free(Split(s, c)[k], c)
  {
    if s != [] {
      SplitPiecesFree(s[1..], c);
    }
  }

  /** Joining the pieces of a split gives back the string. */
  lemma {:induction false} JoinSplit(s: string, c: char)
    ensures Join(Split(s, c), c) == s
  {
    if s != [] {
      JoinSplit(s[1..], c);
      var rest := Split(s[1..], c);
      if s[0] == c {
        assert Split(s, c) == [""] + rest;
        assert Split(s, c)[1..] == rest;
      } else {
        var p := Split(s, c);
        assert p == [[s[0]] + rest[0]] + rest[1..];
        if |rest| == 1 {
          assert p == [[s[0]] + rest[0]];
        } else {
          assert p[1..] == rest[1..];
          assert Join(rest, c) == rest[0] + [c] + Join(rest[1..], c);
        }
      }
    }
  }

  /** Splitting a join of separator-free pieces gives the pieces back. */
  lemma {:induction false} SplitJoin(pieces: seq<string>, c: char)
    requires |pieces| >= 1
    requires forall k :: 0 <= k < |pieces| ==> Free(pieces[k], c)
    ensures Split(Join(pieces, c), c) == pieces
    decreases |pieces|, |pieces[0]|
  {
    var p0 := pieces[0];
    if |pieces| == 1 {
      if p0 != [] {
        SplitJoin([p0[1..]], c);
        assert Join([p0[1..]], c) == p0[1..];
        assert p0[0] != c;
        assert [p0[0]] + p0[1..] == p0;
      }
    } else if p0 == [] {
      SplitJoin(pieces[1..], c);
      assert Join(pieces, c) == [c] + Join(pieces[1..], c);
      assert ([c] + Join(pieces[1..], c))[1..] == Join(pieces[1..], c);
    } else {
      var shorter := [p0[1..]] + pieces[1..];
      SplitJoin(shorter, c);
      assert shorter[1..] == pieces[1..];
      assert Join(pieces, c) == [p0[0]] + Join(shorter, c);
      assert ([p0[0]] + Join(shorter, c))[1..] == Join(shorter, c);
      assert [p0[0]] + p0[1..] == p0;
      assert pieces == [p0] + pieces[1..];
    }
  }

  /** Split pieces are characterised by joining back and containing no separator. */
  lemma SplitUnique(s: string, c: char, pieces: seq<string>)
    requires |pieces| >= 1 && Join(pieces, c) == s
    requires forall k :: 0 <= k < |pieces| ==> Free(pieces[k], c)
    ensures Split(s, c) == pieces
  {
    SplitJoin(pieces, c);
  }

  // ---------------------------------------------------------------- trim

  /** The characters `String.prototype.trim` removes: ECMAScript WhiteSpace and LineTerminator. */
  predicate IsSpace(c: char)
  {
    c == '\t' || c == '\n' || c == '\r' || c == '\U{000B}' || c == '\U{000C}' || c == ' '
    || c == '\U{00A0}' || c == '\U{1680}' || ('\U{2000}' <= c <= '\U{200A}')
    || c == '\U{2028}' || c == '\U{2029}' || c == '\U{202F}' || c == '\U{205F}'
    || c == '\U{3000}' || c == '\U{FEFF}'
  }

  /** Drops leading white space. */
  function TrimStart(s: string): (r: string)
    ensures |r| <= |s| && r == s[|s| - |r|..]
    ensures r != [] ==> !IsSpace(r[0])
  {
    if s != [] && IsSpace(s[0]) then TrimStart(s[1..]) else s
  }

  /** Drops trailing white space. */
  function TrimEnd(s: string): (r: string)
    ensures |r| <= |s| && r == s[..|r|]
    ensures r != [] ==> !IsSpace(r[|r| - 1])
  {
    if s != [] && IsSpace(s[|s| - 1]) then TrimEnd(s[..|s| - 1]) else s
  }

  /** `s.trim()`. */
  function Trim(s: string): string
  {
    TrimEnd(TrimStart(s))
  }

  // ---------------------------------------------------------------- formatting

  /** The digit character for `d`. */
  function DigitChar(d: nat): (c: char)
    requires d < 10
    ensures '0' <= c <= '9'
  {
    "0123456789"[d]
  }

  /** Decimal notation of a counter, as template literals print it. */
  function NatToString(n: nat): (r: string)
    ensures r != []
    ensures forall i :: 0 <= i < |r| ==> '0' <= r[i] <= '9'
  {
    if n < 10 then [DigitChar(n)] else NatToString(n / 10) + [DigitChar(n % 10)]
  }

  /** `parts.join(sep)` with a string separator. */
  function JoinWith(parts: seq<string>, sep: string): string
  {
    if |parts| == 0 then ""
    else if |parts| == 1 then parts[0]
    else parts[0] + sep + JoinWith(parts[1..], sep)
  }
}

=== FILE: wrappers.dfy ===
/** Optional values and results with an error message, as used across the model. */
module Wrappers {

  /** A value that may be absent (JavaScript `undefined`/`null` where the source tests for it). */
  datatype Option<+T> = None | Some(value: T)

  /** The outcome of an operation that can fail with a message (a thrown `Error` in the source). */
  datatype Result<+T> = Ok(value: T) | Err(message: string)
}
